=== FILE: README.md ===
# SafePaws in Dafny

SafePaws is a community app for street cats. Users pin cats they see on a
map and report each cat's condition. A user can also put a cat up for
adoption, and other users send adoption requests for it, which the uploader
accepts or rejects. Notifications follow each step. This project models the
two layers of rules underneath the app and proves properties of them:

- **The server.** These are the FastAPI routers of `wasn/` and
  `safepaws-backend/`.
  - The tables are one class, `Db.Database`, with a map per table: users,
    cats, pins (`cat_locations`), adoption listings, adoption requests,
    notifications and activity logs. Each table has its own autoincrement
    counter.
  - Its invariant `Valid()` covers four things: ids, foreign keys, the
    unique username and e-mail, and at most one pin and one listing per cat.
  - Each endpoint is a method that checks its guards in the source's order.
    It returns `Ok(value)` or `Err(status, detail)` with the source's status
    codes and messages.
  - Each endpoint states the whole new state of the tables as an update of
    the old snapshot, so "nothing else changes" is part of every contract.
  - A refused call leaves the tables exactly as they were.
  - The list endpoints are specified by `Query.Selects`: exactly the rows
    that pass the filter, each once, in the SQL `ORDER BY` order.
  - The registration and profile validators are pure predicates.
- **The browser.** These are the React components of `safepaws-frontend/`
  and `safepaws/`.
  - The map store and the form and panel state are classes whose methods
    change their fields as the React setters do.
  - Searches, filters, sorts, counts, colour and label lookups, button
    resolution and request bodies are functions. Lemmas state what each one
    means.

Modules follow the source files:
- `Models`: the enumerated columns and their defaults.
- `Schemas`: the request validators.
- `Db` and `Query`: the tables and ordered selection.
- One module per router: `RequestsApi`, `RequestsApiWasn`, `ListingsApi`,
  `CatsApi`, `PinsApi`, `NotificationsApi`, `ActivityApi`, `UsersApi`.
- One module per component: `Layout`, `MapContext`, `MapPage`,
  `NotificationsPage`, `AdoptionPage`, `AdoptionForm`, `AdoptionListingForm`.
- `ClientRecords`: the records the client receives.
- `Text`, `Lists` and `Common`: shared JavaScript and Python string
  semantics (trim, case mapping, `parseInt`, `Number`, `x || null`).

Timestamps are naturals. Coordinates are pairs of integers.

## Model

| member | source | states |
|---|---|---|
| Models.ParseCondition | wasn/app/db/models.py:36-41 | a condition text is accepted only as one of the six wire values, and it maps back to itself |
| Models.ConditionRoundTrip | wasn/app/db/models.py:38 | each condition's wire value parses back to that condition |
| Models.UnderscoreVetIsNotAWireValue | wasn/app/db/models.py:38 | the stored at-vet value is "AT VET" with a space; "AT_VET" is not a condition |
| Models.ParseGender | wasn/app/db/models.py:24 | a gender is accepted only as M, F or UNKNOWN, and it maps back to itself |
| Models.GenderRoundTrip | wasn/app/db/models.py:24 | each gender's wire value parses back to it |
| Models.StoredGender | wasn/app/db/models.py:24 | the `gender_enum` member a value is stored as: the one equal to it with letter case ignored, and none iff no member is |
| Models.StoredGenderIgnoresCase | wasn/app/db/models.py:24 | the stored member agrees with the exact reading where that succeeds, does not depend on letter case, and "m" is stored as M although it is not a wire value |
| Models.ParseExperience | wasn/app/db/models.py:73 | an experience level is accepted only as one of the four values |
| Models.ExperienceEnumerated | wasn/app/db/schemas.py:72-76 | ExperienceEnum has exactly four distinct wire values, each parsing back to itself |
| Models.ParseStatus | wasn/app/db/models.py:77 | a request status is accepted only as Pending, Accepted or Rejected |
| Models.StatusEnumerated | wasn/app/db/schemas.py:79-82 | StatusEnum has exactly three distinct wire values, each parsing back to itself |
| Schemas.LengthError | wasn/app/db/schemas.py:5-17 | a length message exactly when the length is outside the field's min..max |
| Schemas.UsernameError | wasn/app/db/schemas.py:5-9 | a username is accepted iff it has 3..20 characters, all in [A-Za-z0-9_] (corrected reading of the pattern) |
| Schemas.UsernameErrorAsWritten | wasn/app/db/schemas.py:33-37 | as written: length 3..20 and a `re.match` with `$`, which also admits one trailing newline |
| Schemas.PasswordError | wasn/app/db/schemas.py:11-15 | a password is accepted iff it has 8..20 characters, a letter and a digit |
| Schemas.FullNameError | wasn/app/db/schemas.py:17 | a full name is accepted iff it has 2..50 characters |
| Schemas.PhoneError | wasn/app/db/schemas.py:21 | a phone is accepted iff it is "05" followed by 8 digits (corrected reading) |
| Schemas.PhoneErrorAsWritten | wasn/app/db/schemas.py:40-44 | as written: length 10..13 and `re.match` of `^(05)[0-9]{8}$`, admitting one trailing newline |
| Schemas.Report | wasn/app/db/schemas.py:4-44 | at most one error per field, tagged with that field |
| Schemas.UserCreateErrors | wasn/app/db/schemas.py:4-44 | a registration body has no errors iff username, password, full name, e-mail and phone all pass |
| Schemas.UpdatePhoneError | wasn/app/db/schemas.py:54-58 | a supplied update phone is accepted iff it is "05" and 8 digits |
| Schemas.UserUpdateErrors | wasn/app/db/schemas.py:51-64 | an update body has no errors iff its e-mail key is present and each supplied field passes its own check; a missing e-mail key is reported as "Field required"; other absent fields are never checked |
| Schemas.PhoneIsTenCharacters | wasn/app/db/schemas.py:21 | an accepted phone has exactly 10 characters, begins "05" and ends in 8 digits |
| Schemas.UpdateSkipsPasswordComposition | wasn/app/db/schemas.py:59-64 | an update password is only length-checked: "abcdefgh" passes the update and fails registration |
| Schemas.UsernameTrailingNewline | wasn/app/db/schemas.py:35 | as written, "ab\n" and "abc\n" pass the username check; the corrected check refuses both |
| Schemas.PhoneTrailingNewline | wasn/app/db/schemas.py:42 | as written, "0512345678\n" passes the phone check; the corrected check refuses it |
| Schemas.AsWrittenAgreesWithoutNewline | wasn/app/db/schemas.py:33-44 | without a final newline, the as-written and corrected checks agree |
| Schemas.CorrectedRejectNewline | wasn/app/db/schemas.py:33-44 | the corrected username and phone checks refuse any text containing a newline |
| Db.Cascade | wasn/app/db/models.py:33-62 | an ON DELETE CASCADE on a child table keeps exactly the rows whose parent is not the deleted one, each unchanged (pins of a deleted cat, requests of a deleted listing) |
| Db.WithTwoNotices | wasn/app/db/models.py:87 | two notices are stored under the next two ids, each unread and stamped with the time |
| Db.TwoNoticesKeepValid | wasn/app/db/models.py:82-89 | adding two notifications for existing users, under fresh ids, keeps every key, uniqueness and foreign-key invariant |
| Db.RequestUpdateKeepsValid | wasn/app/db/models.py:58-79 | rewriting a stored request whose listing, sender and receiver exist keeps every invariant |
| Db.ListingRemovalKeepsValid | wasn/app/db/models.py:62 | deleting a listing together with its cascaded requests keeps every key, uniqueness and reference invariant |
| Db.Database.constructor | wasn/app/db/models.py:1-88 | an empty database satisfies the invariant, with every counter at 1 |
| Db.Database.AddTwoNotices | safepaws-backend/app/api/adoptionsRequest.py:63-77 | two notifications are stored under the next two ids for existing users, the counter rises by two, the invariant holds, and no other table changes |
| Db.Database.AddNotices | safepaws-backend/app/api/adoptionsRequest.py:243-273 | no notification, or two stored as above; the invariant holds and no other table changes |
| Db.Database.InsertRequest | wasn/app/api/adoptionsRequest.py:41-56 | the request is stored under the next request id, the counter rises by one, the invariant holds and nothing else changes |
| Db.Database.UpdateRequest | wasn/app/api/adoptionsRequest.py:95-96 | a stored request whose references exist is overwritten; the invariant holds and nothing else changes |
| Db.Database.InsertUser | safepaws-backend/app/api/users.py:24-33 | a user whose username and e-mail differ from every stored one, letter case ignored, is stored under the next user id; uniqueness under the collation and every other invariant hold; nothing else changes |
| Db.Database.UpdateUser | safepaws-backend/app/api/users.py:79-95 | a stored user is overwritten keeping username and e-mail unique with letter case ignored; nothing else changes |
| Db.Database.InsertCat | wasn/app/api/cat.py:40-50 | the cat is stored under the next cat id; the invariant holds and nothing else changes |
| Db.Database.UpdateCat | wasn/app/api/cat.py:94-112 | a stored cat is overwritten; the invariant holds and nothing else changes |
| Db.Database.DeleteCat | wasn/app/api/cat.py:136-137 | a cat no listing refers to is removed together with exactly its pins; the invariant holds and nothing else changes |
| Db.Database.InsertPin | wasn/app/api/pins.py:129-137 | a pin for a stored cat without one is stored under the next location id; at most one pin per cat still holds; nothing else changes |
| Db.Database.UpdatePin | wasn/app/api/pins.py:106-111 | a stored pin is overwritten with its cat kept; nothing else changes |
| Db.Database.DeletePin | wasn/app/api/pins.py:158-162 | exactly that pin id is removed; the invariant holds and nothing else changes |
| Db.Database.InsertListing | wasn/app/api/adoptions.py:79-88 | a listing for a stored cat without one is stored under the next listing id; at most one listing per cat still holds; nothing else changes |
| Db.Database.UpdateListing | wasn/app/api/adoptions.py:116-125 | a stored listing is overwritten with its cat and uploader kept; nothing else changes |
| Db.Database.DeleteListing | wasn/app/api/adoptions.py:146-147 | the listing is removed together with exactly its requests; the invariant holds and nothing else changes |
| Db.Database.SetNotifications | wasn/app/api/notifications.py:48-56 | notifications are replaced by rows that differ at most in their read flag; nothing else changes |
| Db.Database.DeleteRequest | wasn/app/api/adoptionsRequest.py:120-121 | exactly that request is removed; the invariant holds and nothing else changes |
| RequestsApi.CreateNotices | safepaws-backend/app/api/adoptionsRequest.py:63-75 | a new request yields two notices, to the sender and to the receiver; the receiver's names the sender and ends in " [REQUEST_ID:<id>]" |
| RequestsApi.ActionNoticesShape | safepaws-backend/app/api/adoptionsRequest.py:237-271 | a decision yields notices iff the request was Pending and the action is not Pending; then exactly two, to the sender and to the receiver |
| RequestsApi.CreateRequest | safepaws-backend/app/api/adoptionsRequest.py:13-79 | 404 for a missing or inactive listing, 400 for one's own cat, 400 for any earlier request by the caller; then 500 with the driver's message when the city or full name exceeds 100 characters or the age the 32-bit `Integer` range; otherwise the call succeeds with a Pending request to the uploader and exactly two notifications, and nothing else changes |
| RequestsApi.Submit | safepaws-backend/app/api/adoptionsRequest.py:41-77 | a request whose values fit their columns is stored with its two notifications; any other is refused with 500 and nothing is stored |
| RequestsApi.ListSent | safepaws-backend/app/api/adoptionsRequest.py:82-89 | exactly the caller's sent requests |
| RequestsApi.ListAcceptedSent | safepaws-backend/app/api/adoptionsRequest.py:91-129 | exactly the caller's Accepted requests, newest first, each with the receiver's contact details |
| RequestsApi.WithSenderNames | safepaws-backend/app/api/adoptionsRequest.py:141-161 | one row per request, in order, each with the sender's display name |
| RequestsApi.ListIncoming | safepaws-backend/app/api/adoptionsRequest.py:131-163 | exactly the Pending requests addressed to the caller, with sender names |
| RequestsApi.ListAllIncoming | safepaws-backend/app/api/adoptionsRequest.py:165-196 | exactly the requests addressed to the caller, newest first, with sender names |
| RequestsApi.GetRequest | safepaws-backend/app/api/adoptionsRequest.py:198-216 | 404 if missing, 403 unless the caller is sender or receiver, else the stored request |
| RequestsApi.HandleAction | safepaws-backend/app/api/adoptionsRequest.py:219-275 | 404 unless the caller is the receiver; otherwise the status is overwritten whatever it was, and only a first decision adds its two notices |
| RequestsApi.DeleteRequest | safepaws-backend/app/api/adoptionsRequest.py:277-299 | 404 if missing, 403 unless the caller is a party, 400 unless Pending; a Pending request of the caller's is always deleted, exactly that request |
| RequestsApiWasn.CreateRequest | wasn/app/api/adoptionsRequest.py:12-59 | the same guards in the same order, then the same column-width refusal; when all pass the call succeeds, storing a Pending request to the uploader and creating no notification |
| RequestsApiWasn.ListIncoming | wasn/app/api/adoptionsRequest.py:71-80 | exactly the Pending requests addressed to the caller |
| RequestsApiWasn.HandleAction | wasn/app/api/adoptionsRequest.py:82-98 | 404 unless the caller is the receiver; otherwise only the status changes, to the action |
| ListingsApi.DefaultListingCreate | wasn/app/db/models.py:49-51 | a listing body without flags says not vaccinated, not sterilized, no notes |
| ListingsApi.Patched | wasn/app/api/adoptions.py:116-123 | only the supplied fields change; id, cat, uploader and creation time are kept |
| ListingsApi.PatchedIdentityAndIdempotent | wasn/app/api/adoptions.py:116-123 | an empty update changes nothing, and an update applied twice is applied once |
| ListingsApi.CreateListing | wasn/app/api/adoptions.py:42-90 | 404 missing cat, 403 not the adder, 403 cat has a pin, 400 cat already listed; success iff all pass; the new listing is active and the caller's |
| ListingsApi.ListListings | wasn/app/api/adoptions.py:93-96 | every listing, inactive ones included, by id descending |
| ListingsApi.UpdateListing | wasn/app/api/adoptions.py:101-128 | 404 missing, 403 not the uploader; the uploader's update always succeeds, the listing patched and nothing else changed |
| ListingsApi.DeleteListing | wasn/app/api/adoptions.py:132-147 | 404 / 403 as for update; the uploader's delete always succeeds, removing the listing and, by cascade, its requests |
| CatsApi.FindListing | wasn/app/api/cat.py:81-84 | finds the cat's listing iff it has one |
| CatsApi.BlockedIffListedByOther | wasn/app/api/cat.py:82-91 | with at most one listing per cat, the found listing is someone else's iff the cat is listed but not by the caller |
| CatsApi.CreateCat | wasn/app/api/cat.py:39-53 | a cat whose gender is an enum member in any letter case (stored as that member), a name of at most 80 characters, an age in the 32-bit `Integer` range and an image URL of at most 255 characters is stored under the next id with the caller as its adder; any other is refused by the database with 500 and the driver's message, and nothing is stored |
| CatsApi.ListCats | wasn/app/api/cat.py:56-65 | exactly the cats without an adoption listing, by id descending |
| CatsApi.MyCats | wasn/app/api/cat.py:140-151 | exactly the caller's cats, by id descending |
| CatsApi.Edited | wasn/app/api/cat.py:94-110 | only supplied fields change, and the adder becomes the caller |
| CatsApi.EditedTakesOverAndIsIdempotent | wasn/app/api/cat.py:94-110 | an empty update only takes the cat over, and an update applied twice is applied once |
| CatsApi.UpdateCat | wasn/app/api/cat.py:68-115 | 404 missing; 403 when listed by someone else; then 500 with the driver's message for a gender that is no enum member in any letter case, or a value too wide for its column; otherwise the cat is always updated: the edited cat and nothing else changed |
| CatsApi.DeleteCat | wasn/app/api/cat.py:118-138 | 404 missing; 403 when listed by someone else; 500 with the driver's message when listed by the caller (the listing's key refuses the delete); an unlisted cat is always removed together with its pins |
| PinsApi.ReportedCondition | wasn/app/api/pins.py:43-45 | a missing, empty or whitespace-only condition reads NORMAL; any other is kept |
| PinsApi.OrNormal | wasn/app/api/pins.py:117-121 | an empty condition reads NORMAL; any other is kept |
| PinsApi.StoredConditionReportedAsIs | wasn/app/api/pins.py:43-45 | normalising never alters a condition the column stores |
| PinsApi.Normalised | wasn/app/api/pins.py:43-55 | one answer row is the pin as stored |
| PinsApi.Report | wasn/app/api/pins.py:39-56 | the loop answers the first n rows, each as stored |
| PinsApi.ListPins | wasn/app/api/pins.py:21-57 | at most 100 pins, those with the largest ids, in descending id order |
| PinsApi.FindPin | wasn/app/api/pins.py:91-94 | finds the cat's pin iff it has one |
| PinsApi.CreatePin | wasn/app/api/pins.py:83-152 | 422 for cat_id < 1, 404 missing cat, 403 actively listed; otherwise the call succeeds: an existing pin is moved with its id kept, otherwise exactly one new pin is inserted |
| PinsApi.DeletePin | wasn/app/api/pins.py:156-162 | 404 iff no such pin; otherwise only that pin is removed |
| NotificationsApi.ReadAll | wasn/app/api/notifications.py:48-56 | marking all read keeps every notification id |
| NotificationsApi.ReadAllProperties | wasn/app/api/notifications.py:48-56 | afterwards the user has no unread notification; other users' rows and every other field are unchanged; nothing read becomes unread; doing it twice is doing it once |
| NotificationsApi.ListNotifications | wasn/app/api/notifications.py:12-24 | exactly the caller's notifications, newest first |
| NotificationsApi.UnreadCount | wasn/app/api/notifications.py:26-39 | the number of the caller's unread notifications |
| NotificationsApi.MarkAllRead | wasn/app/api/notifications.py:42-57 | only the caller's unread rows become read |
| NotificationsApi.MarkRead | wasn/app/api/notifications.py:60-84 | 404 iff the id is missing or another user's; the owner's call always succeeds and exactly that row becomes read; an already-read row leaves everything as it was |
| ActivityApi.FormatTimes | wasn/app/api/activity.py:24-25 | the time-rewriting loop keeps every row and its order, and changes only the time's format |
| ActivityApi.MyActivity | wasn/app/api/activity.py:14-27 | exactly the caller's logs, newest first |
| ActivityApi.CatActivity | wasn/app/api/activity.py:32-67 | 404 missing cat; 403 iff some listing of the cat (active or not) is someone else's; otherwise exactly the cat's logs, newest first |
| UsersApi.FindUser | safepaws-backend/app/api/users.py:41 | finds the one user whose username equals the given one with letter case ignored, iff there is one |
| UsersApi.TakenIgnoresCase | safepaws-backend/app/api/users.py:14-20 | whether a username or an e-mail is taken does not depend on the letter case it is given in |
| UsersApi.Register | safepaws-backend/app/api/users.py:11-37 | invalid bodies are refused; then 400 for a taken username before 400 for a taken e-mail, both compared with letter case ignored; then 500 with the driver's message for an e-mail over 100 characters or a hash over 255; otherwise the call always succeeds and stores hash(password), never the password |
| UsersApi.Login | safepaws-backend/app/api/users.py:39-50 | 404 iff no username equals the given one with letter case ignored, 401 iff that user's password does not verify, otherwise (and always for a matching password) a token for the username as stored |
| UsersApi.GetProfile | safepaws-backend/app/api/users.py:52-67 | 404 iff no username equals the token's with letter case ignored; otherwise the answer is that user's stored fields |
| UsersApi.Edited | safepaws-backend/app/api/users.py:79-93 | e-mail, phone and full name change only when supplied non-empty; the password is rehashed only when supplied; the username never changes |
| UsersApi.EditedIdentityAndIdempotent | safepaws-backend/app/api/users.py:79-93 | an empty update changes nothing, and an update applied twice is applied once |
| UsersApi.UpdateProfile | safepaws-backend/app/api/users.py:69-96 | 404 missing user; 400 for an e-mail, then a phone, that differs from the caller's and is already used with letter case ignored (the caller's own row included); 500 when a new e-mail or password hash is too wide for its column; otherwise only that user's row is edited |
| UsersApi.SaveEdits | safepaws-backend/app/api/users.py:79-96 | for the caller's stored row: the e-mail clash is reported before the phone clash, each looked up with letter case ignored, then a value too wide for its column gives 500; a refused edit stores nothing, otherwise the row becomes the edited row and nothing else changes |
| Text.ParseIntReadsDecimal | safepaws-frontend/src/components/AdoptionForm.js:89 | `parseInt` reads the decimal digits of a natural and stops at the first character that is neither a digit nor a hex mark |
| Text.ParseIntMinus | safepaws-frontend/src/components/AdoptionForm.js:89 | a leading minus negates what `parseInt` reads from the rest, and fails where the rest fails |
| Text.ParseIntReadsNegative | safepaws-frontend/src/components/AdoptionListingForm.js:30 | `parseInt` reads "-" followed by the decimal text of any natural n as -n |
| Text.ParseIntReadsExponentForm | safepaws-frontend/src/components/AdoptionListingForm.js:30 | `parseInt` stops at the exponent mark: m "e" k reads as m |
| Text.ParseIntReadsHexDigits | safepaws-frontend/src/components/AdoptionListingForm.js:72 | after "0x", `parseInt` reads every non-empty run of hexadecimal digits as its base-16 value |
| Text.JsNumberReadsExponentForm | safepaws-frontend/src/components/AdoptionListingForm.js:30 | `Number` reads the text m "e" k, for all naturals m and k, as m times ten to the k |
| Text.JsNumberReadsDecimal | safepaws-frontend/src/components/AdoptionForm.js:28 | `Number` reads back the decimal text of every natural |
| Text.JsNumberReadsNegative | safepaws-frontend/src/components/AdoptionForm.js:28 | `Number` reads "-" followed by the decimal text of any natural n as -n |
| Text.JsNumberReadsNegativeExponentForm | safepaws-frontend/src/components/AdoptionForm.js:28 | `Number` reads "-" m "e" k as minus m times ten to the k |
| ClientRecords.RequestViewOf | safepaws-backend/app/api/adoptionsRequest.py:82-89 | the client's copy of a request keeps its ids, and its status text parses back to the stored status |
| ClientRecords.CatBody | safepaws-frontend/src/components/AdoptionListingForm.js:69-75 | the cat body: name trimmed, gender as chosen, age parsed only when typed, notes and image URL trimmed or null when blank |
| Layout.ShouldShowRightSection | safepaws-frontend/src/components/Layout.js:44-50 | the right panel shows on /map, on /adoption iff the listing form is closed, and on /notifications iff a request is under review |
| Layout.LayoutState.constructor | safepaws-frontend/src/components/Layout.js:19-38 | the panel's state cells start closed and empty, and the new-cat form starts blank |
| Layout.LayoutState.LeaveRoute | safepaws-frontend/src/components/Layout.js:53-68 | leaving /notifications clears the request under review; leaving /adoption clears the listing and closes both forms; nothing else changes |
| Layout.LayoutState.PinChanged | safepaws-frontend/src/components/Layout.js:119-126 | selecting a pin closes the activity form, clears both descriptions and preselects the pin's condition or NORMAL |
| Layout.LayoutState.ListingChanged | safepaws-frontend/src/components/Layout.js:129-134 | the chosen listing is stored, and choosing a listing closes the adoption form while clearing it leaves the form as it was; nothing else changes |
| Layout.LayoutState.SettleMapSelection | safepaws-frontend/src/components/Layout.js:233-252 | a new-cat location resets the new-cat form and clears the selected pin; a pin selected beside it clears the location; the two are never both set |
| Layout.ConditionInfoMeaning | safepaws-frontend/src/components/Layout.js:137-160 | a missing condition reads Unknown; matching ignores letter case; both at-vet spellings read "At Vet"; unknown text is shown verbatim; the colour is the marker's |
| Layout.ConditionInfoOf | safepaws-frontend/src/components/Layout.js:137-160 | the label's colour is always the marker's colour; an unknown condition text is shown verbatim |
| Layout.ConditionOptionsMeaning | safepaws-frontend/src/components/Layout.js:751-759 | NORMAL, URGENT and AT VET are always offered; ADOPTED and PASSED iff the user added the selected pin; every option is a stored condition |
| Layout.ConditionOptions | safepaws-frontend/src/components/Layout.js:751-759 | NORMAL, URGENT and AT VET come first; the two closing conditions are added iff the user may change to them |
| Layout.ContributionsClosed | safepaws-frontend/src/components/Layout.js:230 | contributions close exactly for AT VET, ADOPTED and PASSED; "AT_VET", labelled "At Vet", does not close them |
| Layout.CannotAddContributions | safepaws-frontend/src/components/Layout.js:230 | contributions close only for a condition the server stores |
| Layout.UpdateConditionMeaning | safepaws-frontend/src/components/Layout.js:189-203 | nothing happens without a pin or a choice; URGENT and AT VET need a non-blank description; otherwise the trimmed description or null is sent |
| Layout.UpdateConditionSubmission | safepaws-frontend/src/components/Layout.js:189-203 | ignored iff there is no pin or no choice; a sent update names the selected pin and the chosen condition |
| Layout.NewCatMeaning | safepaws-frontend/src/components/Layout.js:255-283 | a new cat is sent iff it has a non-blank name, a location, and a description when its condition needs one; the name is sent trimmed and non-empty |
| Layout.NewCatSubmission | safepaws-frontend/src/components/Layout.js:255-283 | a new cat is sent only with a non-blank name and a location, and is sent there; anything else is refused with a message |
| Layout.BlankFormRefused | safepaws-frontend/src/components/Layout.js:256-258 | the blank new-cat form is refused for its missing name |
| Layout.ListingActionMeaning | safepaws-frontend/src/components/Layout.js:416-478 | no user: no button; the uploader: Edit; another user with a Pending request for the listing: disabled; otherwise Apply |
| Layout.ListingActionFor | safepaws-frontend/src/components/Layout.js:416-478 | no button iff no user is signed in; Edit iff the signed-in user uploaded the listing |
| Layout.ApplyOfferedButRefused | safepaws-backend/app/api/adoptionsRequest.py:33-38 | a user whose only requests for a listing were decided is offered Apply by the client, though the server refuses a second request |
| MapContext.MapStore.constructor | safepaws-frontend/src/contexts/MapContext.js:6-8 | no selected pin, refresh counter 0, no new-cat location |
| MapContext.MapStore.TriggerRefresh | safepaws-frontend/src/contexts/MapContext.js:10-12 | the counter rises by exactly one; the other cells are unchanged |
| MapContext.MapStore.SetSelectedPin | safepaws-frontend/src/contexts/MapContext.js:15-22 | replaces only the selected pin |
| MapContext.MapStore.SetNewCatLocation | safepaws-frontend/src/contexts/MapContext.js:15-22 | replaces only the new-cat location |
| MapPage.SearchMeaning | safepaws-frontend/src/pages/MapPage.js:22-35 | a blank query keeps every pin; otherwise a pin is kept iff its lower-cased name contains the trimmed lower-cased query; nameless pins are dropped |
| MapPage.SearchResults | safepaws-frontend/src/pages/MapPage.js:22-35 | the results are some of the fetched pins, never more; a blank query shows them all |
| MapPage.SearchKeepsOrder | safepaws-frontend/src/pages/MapPage.js:28-31 | the search preserves the pins' order |
| MapPage.SearchIgnoresCase | safepaws-frontend/src/pages/MapPage.js:27-31 | the query's letter case does not matter |
| MapPage.FindPin | safepaws-frontend/src/pages/MapPage.js:75 | the first pin with the location id, or none iff no pin has it |
| MapPage.SyncMeaning | safepaws-frontend/src/pages/MapPage.js:73-83 | a selection on show is replaced by its fresh record; one not on show is dropped unless no pin is on show |
| MapPage.SyncedSelection | safepaws-frontend/src/pages/MapPage.js:73-83 | nothing is selected out of nothing; a changed selection is a pin on show with the same location id |
| MapPage.SyncSettles | safepaws-frontend/src/pages/MapPage.js:73-83 | re-running the sync changes nothing |
| MapPage.SearchDropsHiddenSelection | safepaws-frontend/src/pages/MapPage.js:22-83 | a selected pin hidden by a search that shows some pin is deselected |
| MapPage.SyncSelection | safepaws-frontend/src/pages/MapPage.js:73-83 | the store's selection becomes the synced one; the other cells are unchanged |
| MapPage.ColorMeaning | safepaws-frontend/src/pages/MapPage.js:180-198 | green iff NORMAL, red iff URGENT, blue iff AT_VET or AT VET, in any case; all else is grey |
| MapPage.ColorForCondition | safepaws-frontend/src/pages/MapPage.js:180-198 | one of the four marker colours; grey for a missing condition |
| MapPage.StoredConditionColors | safepaws-frontend/src/pages/MapPage.js:180-198 | the colour of each stored condition |
| MapPage.OnMapDoubleClick | safepaws-frontend/src/pages/MapPage.js:129-135 | sets the new-cat location and clears the selected pin |
| MapPage.Unmount | safepaws-frontend/src/pages/MapPage.js:164-169 | leaving the map page clears the selected pin and keeps the refresh counter and the new-cat location |
| MapPage.OnMarkerClick | safepaws-frontend/src/pages/MapPage.js:217-223 | selects the pin and clears the new-cat location |
| NotificationsPage.FilteredRequestsMeaning | safepaws-frontend/src/pages/NotificationsPage.js:146-149 | "All" keeps every request; another filter keeps exactly the requests with that status, in order |
| NotificationsPage.FilteredRequests | safepaws-frontend/src/pages/NotificationsPage.js:146-149 | "All" keeps the list; every kept request is one of the list's and has the filter's status |
| NotificationsPage.CountsAddUp | safepaws-frontend/src/pages/NotificationsPage.js:152-155 | when every status is a wire status, the three counts sum to the total |
| NotificationsPage.StatusCount | safepaws-frontend/src/pages/NotificationsPage.js:152-155 | a badge count is at most the total and is zero iff no request has that status |
| NotificationsPage.FindListing | safepaws-frontend/src/pages/NotificationsPage.js:159 | the first listing with the id, or none iff there is none |
| NotificationsPage.CatName | safepaws-frontend/src/pages/NotificationsPage.js:158-161 | the first matching listing's name when it is non-empty, otherwise "Unknown Cat", also when no listing matches |
| NotificationsPage.Displayed | safepaws-frontend/src/pages/NotificationsPage.js:163-165 | hiding read notifications keeps exactly the unread ones; otherwise all are shown |
| NotificationsPage.MarkerAt | safepaws-frontend/src/pages/NotificationsPage.js:377 | recognises " [REQUEST_ID:" followed by one or more digits and "]" at the front of the text |
| NotificationsPage.StripMarkers | safepaws-frontend/src/pages/NotificationsPage.js:377 | removing the markers never lengthens the message |
| NotificationsPage.MarkerRecognised | safepaws-frontend/src/pages/NotificationsPage.js:377 | every marker the server writes is recognised whole |
| NotificationsPage.StripTrailingMarker | safepaws-frontend/src/pages/NotificationsPage.js:377 | a message ending in a marker is shown without it |
| NotificationsPage.NewRequestNoticeDisplaysWithoutMarker | safepaws-frontend/src/pages/NotificationsPage.js:377 | the receiver's new-request notice is shown without its marker when the names contain no "[" |
| NotificationsPage.MarkedRead | safepaws-frontend/src/pages/NotificationsPage.js:125-127 | only the notification with that id becomes read |
| NotificationsPage.NotificationsView.MarkAsReadLocally | safepaws-frontend/src/pages/NotificationsPage.js:121-129 | the local patch marks that id read and lowers the unread count by one, never below zero |
| NotificationsPage.MarkedReadProperties | safepaws-frontend/src/pages/NotificationsPage.js:125-129 | ids are kept, nothing read becomes unread, repeating is harmless, and the unread count does not rise |
| NotificationsPage.UnreadNotMore | safepaws-frontend/src/pages/NotificationsPage.js:125-129 | the number of unread notifications does not rise |
| NotificationsPage.ContactUnavailableMeaning | safepaws-frontend/src/pages/NotificationsPage.js:307-335 | "Contact information not available" shows iff the receiver's stored e-mail and phone are both missing or empty |
| AdoptionPage.LexCompare | safepaws/src/pages/AdoptionPage.js:65 | name comparison gives -1, 0 or 1 |
| AdoptionPage.LexAntisymmetric | safepaws/src/pages/AdoptionPage.js:65 | swapping names negates the comparison, and only equal names compare equal |
| AdoptionPage.LexTransitive | safepaws/src/pages/AdoptionPage.js:65 | name order is transitive |
| AdoptionPage.CompareTotal | safepaws/src/pages/AdoptionPage.js:63-72 | any two listings are ordered one way or the other |
| AdoptionPage.CompareTransitive | safepaws/src/pages/AdoptionPage.js:63-72 | the comparator's order is transitive |
| AdoptionPage.Compare | safepaws/src/pages/AdoptionPage.js:63-72 | any sort key other than name or age compares every pair equal |
| AdoptionPage.InsertLast | safepaws/src/pages/AdoptionPage.js:63-72 | one stable insertion step adds exactly the listing |
| AdoptionPage.InsertLastSorted | safepaws/src/pages/AdoptionPage.js:63-72 | inserting into a sorted list keeps it sorted |
| AdoptionPage.SortListings | safepaws/src/pages/AdoptionPage.js:63-72 | the sort is a permutation |
| AdoptionPage.SortListingsSorted | safepaws/src/pages/AdoptionPage.js:63-72 | the sort orders by the comparator: name ascending (missing as ""), age ascending (missing as 0) |
| AdoptionPage.UnknownKeyKeepsOrder | safepaws/src/pages/AdoptionPage.js:71 | any other sort key leaves the order unchanged |
| AdoptionPage.InsertLastBelow | safepaws/src/pages/AdoptionPage.js:63-72 | a bound on a sorted list and on the inserted listing bounds the insertion |
| AdoptionPage.FilteredPetsMeaning | safepaws/src/pages/AdoptionPage.js:52-72 | the page shows a sorted permutation of exactly the listings that pass; never the user's own or a nameless one |
| AdoptionPage.FilterMultiset | safepaws/src/pages/AdoptionPage.js:54-62 | the filter keeps each passing listing as often as it occurs and nothing else |
| AdoptionPage.FilteredPets | safepaws/src/pages/AdoptionPage.js:52-72 | the page shows no more listings than it was given, each one of them and each passing the browse filter |
| AdoptionPage.ActiveListings | safepaws/src/pages/AdoptionPage.js:34 | keeps exactly the active listings, each as often as it was fetched |
| AdoptionPage.PageShowsActiveListings | safepaws/src/pages/AdoptionPage.js:34-72 | the page shows only active listings that pass the filter, each active passing listing as often as fetched, in the comparator's order |
| AdoptionPage.AdoptionSelection.constructor | safepaws/src/pages/AdoptionPage.js:46-48 | no listing is selected at first |
| AdoptionPage.AdoptionSelection.Unmount | safepaws/src/pages/AdoptionPage.js:46-48 | leaving the page clears the selected listing |
| AdoptionForm.InitialForm | safepaws-frontend/src/components/AdoptionForm.js:5-14 | empty texts, experience "None", no other pets, and the listing's id when it has one |
| AdoptionForm.FieldNamed | safepaws-frontend/src/components/AdoptionForm.js:19-53 | the checked field an input name stands for |
| AdoptionForm.FieldCheckedTouchesOnlyItsKey | safepaws-frontend/src/components/AdoptionForm.js:19-53 | checking a field sets its message iff it fails, clears it otherwise, and leaves every other entry |
| AdoptionForm.ErrorsFor | safepaws-frontend/src/components/AdoptionForm.js:73-82 | the error map holds exactly the failing fields, each with its message |
| AdoptionForm.SubmitErrors | safepaws-frontend/src/components/AdoptionForm.js:73-82 | submit errors are exactly the fields that fail: a blank city, name, reason or living situation, or an age that is empty or a number ≤ 0 |
| AdoptionForm.NegativeAgeFails | safepaws-frontend/src/components/AdoptionForm.js:28 | every negative age fails, typed as "-" n or as "-" m "e" k |
| AdoptionForm.NaturalAgeFailsIffZero | safepaws-frontend/src/components/AdoptionForm.js:28 | an age typed as the digits of a natural fails exactly when it is zero |
| AdoptionForm.InitialFormBlocked | safepaws-frontend/src/components/AdoptionForm.js:5-14 | the fresh form fails every check |
| AdoptionForm.InitialExperienceIsServerDefault | safepaws-frontend/src/components/AdoptionForm.js:12 | the form's default experience is the column's default |
| AdoptionForm.BodyOf | safepaws-frontend/src/components/AdoptionForm.js:87-91 | the body carries the listing id and the form, with age through parseInt |
| AdoptionForm.PostedBodyPassedChecks | safepaws-frontend/src/components/AdoptionForm.js:73-91 | a posted body has non-blank texts and a typed age that is not a number ≤ 0 |
| AdoptionForm.WithInputMeaning | safepaws-frontend/src/components/AdoptionForm.js:55-62 | a change sets its own input only |
| AdoptionForm.InputNamesDistinct | safepaws-frontend/src/components/AdoptionForm.js:19-53 | the checked inputs have distinct names |
| AdoptionForm.CheckOne | safepaws-frontend/src/components/AdoptionForm.js:22-50 | one step of validateField sets or deletes only its own field's entry |
| AdoptionForm.FormState.constructor | safepaws-frontend/src/components/AdoptionForm.js:5-17 | the initial form and no errors |
| AdoptionForm.FormState.ValidateField | safepaws-frontend/src/components/AdoptionForm.js:19-53 | the errors become the single-field check of the old errors; the form is unchanged |
| AdoptionForm.FormState.HandleChange | safepaws-frontend/src/components/AdoptionForm.js:55-67 | the input is stored; a text input is checked, the checkbox is not |
| AdoptionForm.FormState.Submit | safepaws-frontend/src/components/AdoptionForm.js:69-91 | nothing is posted iff some field fails, and then the errors are exactly the failing fields; otherwise the body is posted |
| AdoptionListingForm.FieldChecked | safepaws-frontend/src/components/AdoptionListingForm.js:21-37 | checking name or age sets that entry iff it fails, clears it otherwise, and leaves the other; other inputs change nothing |
| AdoptionListingForm.SubmitErrors | safepaws-frontend/src/components/AdoptionListingForm.js:57-63 | the only submit error is a blank name; the age is never an error at submit |
| AdoptionListingForm.SubmitIgnoresAge | safepaws-frontend/src/components/AdoptionListingForm.js:30-34 | submit is blocked iff the name is blank, whatever the age |
| AdoptionListingForm.ExponentAgePasses | safepaws-frontend/src/components/AdoptionListingForm.js:30 | every age typed as m "e" k is a number whose `parseInt` is m, not negative, so the field check passes it |
| AdoptionListingForm.NegativeAgeFails | safepaws-frontend/src/components/AdoptionListingForm.js:30 | every negative age typed as "-" n fails: it is a number and `parseInt` reads it below zero |
| AdoptionListingForm.InitialFormBlocked | safepaws-frontend/src/components/AdoptionListingForm.js:5-16 | the fresh form is blocked for its name alone |
| AdoptionListingForm.InitialGenderIsServerDefault | safepaws-frontend/src/components/AdoptionListingForm.js:8 | the form's default gender is the column's default |
| AdoptionListingForm.GenderOptionsParse | safepaws-frontend/src/components/AdoptionListingForm.js:146-150 | each of the three gender options is a stored gender |
| AdoptionListingForm.ListingDataOf | safepaws-frontend/src/components/AdoptionListingForm.js:80-85 | the listing body names the given cat, copies both flags, and sends the notes trimmed or null when blank |
| AdoptionListingForm.CatListed | safepaws-frontend/src/components/AdoptionListingForm.js:77-87 | the tables after both requests: the form's cat under the next cat id and its listing under the next listing id, every other table unchanged |
| AdoptionListingForm.CreateCatThenListing | safepaws-frontend/src/components/AdoptionListingForm.js:77-87 | with a cat the server stores (a known gender, values within their column widths) both requests succeed: the new cat is the caller's, and the new listing references it; otherwise the cat request fails with 500 and the driver's message, and nothing is stored |
| AdoptionListingForm.ListNewCat | safepaws-frontend/src/components/AdoptionListingForm.js:80-87 | the cat the caller has just added, with no pin and no listing, is listed as the form says, giving the tables `CatListed` describes |
| AdoptionListingForm.FreshCatUnreferenced | wasn/app/db/models.py:33-55 | no pin and no listing refers to the next cat id |
| AdoptionListingForm.ListingFormState.constructor | safepaws-frontend/src/components/AdoptionListingForm.js:5-18 | the initial form and no errors |
| AdoptionListingForm.ListingFormState.ValidateField | safepaws-frontend/src/components/AdoptionListingForm.js:21-37 | the errors become the single-field check of the old errors; the form is unchanged |
| AdoptionListingForm.ListingFormState.HandleChange | safepaws-frontend/src/components/AdoptionListingForm.js:39-51 | the input is stored; a text input is checked, a checkbox is not |
| AdoptionListingForm.ListingFormState.Submit | safepaws-frontend/src/components/AdoptionListingForm.js:53-87 | nothing is sent iff the name is blank, and then the errors are the name's; with a cat the server does not store (an unknown gender, a value too wide for its column) the cat request fails with 500 and the driver's message and the tables are unchanged; otherwise both requests succeed and the tables become `CatListed`: the cat under the next cat id, then its active listing under the next listing id |

## Left out

- Network, HTTP status plumbing, JWT and the session are not modelled. The authenticated user id is a parameter of each handler, and the handler requires that user to exist. The fetch wrappers and `createCatWithPin` in `src/services/api.js` are not modelled; their results are the inputs of the client functions.
- `hash_password` and `verify_password` are function parameters. So are `EmailStr`'s e-mail check and `isoformat`.
- Timestamps are naturals that the caller passes in, and `now()` is a parameter. `str(created_at)` in the pin answer is the stored natural.
- Coordinates are modelled as pairs of integers (`Common.Coord`). The floating-point latitude and longitude, the bounds `PinIn` puts on them and the `float()` conversions are not modelled.
- The `list_pins` fallback that catches a missing column (wasn/app/api/pins.py:58-82) is not modelled. Neither is `create_pin`'s 500 path on a database error (wasn/app/api/pins.py:153-155).
- CatsApi.CreateCat and CatsApi.UpdateCat assume the database refuses a gender outside the enumeration, or a value too wide for its column, as a 500 (MySQL in strict mode). A non-strict SQL mode would store the value, truncated, instead.
- Models.CollationEqual: text compared in the database (usernames, e-mails and phones in UsersApi.FindUser, UsersApi.Register, UsersApi.Login, UsersApi.GetProfile, UsersApi.UpdateProfile and UsersApi.SaveEdits, the unique keys of `Db.UsersUnique`, and the gender enum of CatsApi.CreateCat and CatsApi.UpdateCat) is compared with ASCII letter case folded. The rest of the default utf8mb4 collation is not modelled: accents, the case of other scripts, and trailing-space padding. A server configured with a binary collation would compare exactly.
- Column widths are counted in characters. The 65,535-byte limit of the `Text` columns (cat and listing notes, the request's reason and living situation, notification messages) is not modelled, since the model has characters rather than utf8mb4 bytes; neither are autoincrement ids past the 32-bit `Integer` range.
- The text of a refused commit (the `detail` the app's exception handler sends, safepaws-backend/app/main.py:39-60) is a parameter, `dbError`, of each handler that can be refused.
- RequestsApi.CreateRequest treats its two commits (the request, then the notifications) as one step. A failure between them is not modelled.
- safepaws-backend/app/db/schemas.py is not part of this model. `UsersApi` validates with the `UserCreate` and `UserUpdate` of wasn/app/db/schemas.py.
- Schemas.PasswordError: `\d` in Python's `re` also matches non-ASCII decimal digits; the model counts only ASCII digits.
- Schemas.UserCreateErrors: validates the username and the phone with the corrected checks, which refuse a trailing newline that the source's `re.match` lets through; the as-written checks are `Schemas.UsernameErrorAsWritten` and `Schemas.PhoneErrorAsWritten` (see Findings).
- UsersApi.Register: inherits the corrected username and phone checks of `Schemas.UserCreateErrors`, so a username or phone with one trailing newline is refused here but accepted by the source.
- Text.JsNumber: reads finite decimal, exponent and 0x/0o/0b-prefixed numbers; `Infinity`, `-Infinity`, numeric separators and the `NaN` value itself are not modelled (an unreadable text is `None`).
- Schemas.UpdatePhoneError: the update pattern's `\d` is taken as ASCII digits, and `$` as the end of the text.
- AdoptionPage.LexCompare: `localeCompare` is taken as code-point order. Locale collation is not modelled.
- `toLowerCase`, `toUpperCase` and `trim` are modelled on ASCII letters and the JavaScript whitespace set. Unicode case mapping is not modelled.
- Polling (`setInterval`), promise ordering, loading flags and `alert`/`confirm` dialogs are not modelled. Neither are React's effect dependency tracking and re-render scheduling. Each effect is a method run on the current render's values.
- Mapbox rendering (markers, popups, resize observers) is not modelled, and neither is safepaws/src/pages/MapPage.js.
- safepaws/src/contexts/AdoptionContext.js holds a single cell, the selected listing, which is modelled as `AdoptionPage.AdoptionSelection`; the error `useAdoption` raises outside its provider is not modelled.
- The pages' own fetch effects, the HomePage month filter and the route tables are not modelled.
- Request status is not shown to move only forward, because `handle_request_action` overwrites it. "A cat never has both a pin and an active listing" is not claimed either, because `create_pin` checks only active listings.

## Findings

| source | as written | input that shows it | evidently intended | confidence | as-written member | corrected member |
|---|---|---|---|---|---|---|
| wasn/app/db/schemas.py:33-37 | `re.match(r"^[A-Za-z0-9_]+$", value)`: `$` also matches before a final newline | "abc\n" passes the username check | letters, digits and `_` only, as the message says | not executed | Schemas.UsernameTrailingNewline | Schemas.CorrectedRejectNewline |
| wasn/app/db/schemas.py:40-44 | `re.match(r"^(05)[0-9]{8}$", value)` with length 10..13 | "0512345678\n" passes the phone check | "05" and exactly 8 more digits | not executed | Schemas.PhoneTrailingNewline | Schemas.CorrectedRejectNewline |

=== FILE: activity_api.dfy ===
/**
 * The activity router, wasn/app/api/activity.py: a user's own activity,
 * and a cat's activity, which is private to the uploader while the cat has
 * an adoption listing (active or not). Both handlers rewrite each row's
 * time as text before answering; the text form is a parameter here.
 */
module ActivityApi {
  import opened Common
  import opened Models
  import opened Db
  import opened Query

  /** The `detail` texts of this router's refusals. */
  const HiddenWhileListed := "Not allowed to view this activity while cat is listed for adoption"

  /** A log row as answered, its time written out by `isoformat`. */
  datatype ActivityOut = ActivityOut(logId: int, catId: int, userId: int, description: string, activityTime: string)

  function Formatted(l: ActivityLog, iso: nat -> string): ActivityOut {
    ActivityOut(l.logId, l.catId, l.userId, l.description, iso(l.activityTime))
  }

  /** The loop over the answer that rewrites every row's time; the rows and their order stay. */
  method FormatTimes(logs: seq<ActivityLog>, iso: nat -> string) returns (out: seq<ActivityOut>)
    ensures |out| == |logs|
    ensures forall i :: 0 <= i < |logs| ==>
      out[i].logId == logs[i].logId && out[i].catId == logs[i].catId && out[i].userId == logs[i].userId
      && out[i].description == logs[i].description && out[i].activityTime == iso(logs[i].activityTime)
  {
    out := [];
    for i := 0 to |logs|
      invariant |out| == i
      invariant forall j :: 0 <= j < i ==> out[j] == Formatted(logs[j], iso)
    {
      out := out + [Formatted(logs[i], iso)];
    }
  }

  /** GET /activity/my: the caller's log rows, latest first. */
  method MyActivity(db: Database, caller: int, iso: nat -> string) returns (out: seq<ActivityOut>, logs: seq<ActivityLog>)
    requires db.Valid()
    ensures Selects(logs, db.logs, (l: ActivityLog) => l.logId, (l: ActivityLog) => l.userId == caller)
    ensures Descending(logs, (l: ActivityLog) => l.activityTime)
    ensures |out| == |logs| && forall i :: 0 <= i < |out| ==> out[i] == Formatted(logs[i], iso)
  {
    var rows := Select(db.logs, (l: ActivityLog) => l.logId, (l: ActivityLog) => l.userId == caller,
                       (l: ActivityLog) => l.activityTime);
    out := FormatTimes(rows, iso);
    logs := rows;
  }

  /** Some listing of the cat, active or not, was uploaded by somebody other than `caller`. */
  predicate ListedByOther(listings: map<int, AdoptionListing>, catId: int, caller: int) {
    exists k | k in listings :: listings[k].catId == catId && listings[k].uploaderId != caller
  }

  /** GET /activity/cat/{id}: 404 for a missing cat, 403 while somebody else has it listed. */
  method CatActivity(db: Database, caller: int, catId: int, iso: nat -> string)
      returns (r: Response<seq<ActivityOut>>, ghost logs: seq<ActivityLog>)
    requires db.Valid()
    ensures catId !in db.cats ==> r == Err(404, "Cat not found")
    ensures catId in db.cats && ListedByOther(db.listings, catId, caller) ==>
      r == Err(403, HiddenWhileListed)
    ensures r.Ok? ==>
      catId in db.cats && !ListedByOther(db.listings, catId, caller)
      && Selects(logs, db.logs, (l: ActivityLog) => l.logId, (l: ActivityLog) => l.catId == catId)
      && Descending(logs, (l: ActivityLog) => l.activityTime)
      && |r.value| == |logs| && forall i :: 0 <= i < |logs| ==> r.value[i] == Formatted(logs[i], iso)
    ensures catId in db.cats && !ListedByOther(db.listings, catId, caller) ==> r.Ok?
  {
    logs := [];
    if catId !in db.cats {
      return Err(404, "Cat not found"), logs;
    }
    if exists k :: k in db.listings && db.listings[k].catId == catId {
      var k :| k in db.listings && db.listings[k].catId == catId;
      // At most one listing per cat: the first one found is the only one.
      forall k' | k' in db.listings && db.listings[k'].catId == catId ensures k' == k {
        assert db.listings[k'].catId == db.listings[k].catId;
      }
      if db.listings[k].uploaderId != caller {
        return Err(403, HiddenWhileListed), logs;
      }
    }
    var rows := Select(db.logs, (l: ActivityLog) => l.logId, (l: ActivityLog) => l.catId == catId,
                       (l: ActivityLog) => l.activityTime);
    var out := FormatTimes(rows, iso);
    logs := rows;
    r := Ok(out);
  }
}

=== FILE: adoption_form.dfy ===
/**
 * The adoption-request form of safepaws-frontend/src/components/AdoptionForm.js:
 * its fields, the per-field check run as the user types, the checks run on
 * submit, and the request body it posts.
 */
module AdoptionForm {
  import opened Common
  import opened Text
  import opened Models
  import opened ClientRecords

  /** The form's fields as typed; `age` is the number box's text. */
  datatype FormData = FormData(listingId: Option<int>, city: string, age: string, fullName: string,
                               reasonForAdoption: string, livingSituation: string, experienceLevel: string,
                               hasOtherPets: bool)

  /** The form for a listing: `listing?.listing_id || null`, empty texts, no experience, no other pets. */
  function InitialForm(listing: Option<ListingView>): (f: FormData)
    ensures f.city == "" && f.age == "" && f.fullName == "" && f.reasonForAdoption == "" && f.livingSituation == ""
    ensures f.experienceLevel == "None" && !f.hasOtherPets
    ensures f.listingId.Some? <==> listing.Some? && listing.value.listingId != 0
    ensures f.listingId.Some? ==> f.listingId.value == listing.value.listingId
  {
    var id := if listing.Some? && listing.value.listingId != 0 then Some(listing.value.listingId) else None;
    FormData(id, "", "", "", "", "", "None", false)
  }

  /** The fields the form checks. */
  datatype Field = City | Age | FullName | Reason | Living

  /** A checked field's input name. */
  function InputName(k: Field): string {
    match k
    case City => "city"
    case Age => "age"
    case FullName => "full_name"
    case Reason => "reason_for_adoption"
    case Living => "living_situation"
  }

  /** The checked field an input name stands for, if any. */
  function FieldNamed(name: string): (r: Option<Field>)
    ensures r.Some? ==> InputName(r.value) == name
  {
    if name == "city" then Some(City)
    else if name == "age" then Some(Age)
    else if name == "full_name" then Some(FullName)
    else if name == "reason_for_adoption" then Some(Reason)
    else if name == "living_situation" then Some(Living)
    else None
  }

  /** The message shown under a checked field that fails. */
  function Message(k: Field): string {
    match k
    case City => "City is required"
    case Age => "Valid age is required"
    case FullName => "Full name is required"
    case Reason => "Reason for adoption is required"
    case Living => "Living situation is required"
  }

  /** `!value || value <= 0`: empty, or a number that is not positive; text that is not a number passes. */
  predicate AgeFails(value: string) {
    value == [] || (JsNumber(value).Some? && JsNumber(value).value <= 0.0)
  }

  /** A natural typed as digits fails exactly when it is zero. */
  lemma {:induction false} NaturalAgeFailsIffZero(n: nat)
    ensures AgeFails(DecimalString(n)) <==> n == 0
  {
    JsNumberReadsDecimal(n);
  }

  /** A negative age fails, typed as digits or in exponent notation. */
  lemma {:induction false} NegativeAgeFails(m: nat, k: nat)
    ensures AgeFails("-" + DecimalString(m))
    ensures AgeFails("-" + (DecimalString(m) + "e" + DecimalString(k)))
  {
    JsNumberReadsNegative(m);
    JsNumberReadsNegativeExponentForm(m, k);
  }

  /** A field's value fails its check: the age its own, every other field blank after trimming. */
  predicate Fails(k: Field, value: string) {
    if k == Age then AgeFails(value) else IsBlank(value)
  }

  /** The text of a checked field. */
  function FieldText(f: FormData, k: Field): string {
    match k
    case City => f.city
    case Age => f.age
    case FullName => f.fullName
    case Reason => f.reasonForAdoption
    case Living => f.livingSituation
  }

  /** The error map after `validateField(name, value)`; any other input name leaves it alone. */
  function FieldChecked(errors: map<Field, string>, name: string, value: string): map<Field, string> {
    match FieldNamed(name)
    case None => errors
    case Some(k) => if Fails(k, value) then errors[k := Message(k)] else errors - {k}
  }

  /**
   * The check of one field sets or clears that field's error, by whether
   * the value fails, and leaves every other entry as it was.
   */
  lemma FieldCheckedTouchesOnlyItsKey(errors: map<Field, string>, k: Field, value: string)
    ensures var e := FieldChecked(errors, InputName(k), value);
      (forall j :: j != k ==> (j in e <==> j in errors) && (j in errors ==> e[j] == errors[j]))
      && (k in e <==> Fails(k, value))
      && (k in e ==> e[k] == Message(k))
  {
    assert FieldNamed(InputName(k)) == Some(k);
  }

  /** The error map holding, for each field that `fails`, that field's message. */
  function ErrorsFor(fails: Field -> bool): (e: map<Field, string>)
    ensures forall k :: k in e <==> fails(k)
    ensures forall k :: k in e ==> e[k] == Message(k)
  {
    assert forall k :: fails(k) ==> k == City || k == Age || k == FullName || k == Reason || k == Living;
    map k | k in {City, Age, FullName, Reason, Living} && fails(k) :: Message(k)
  }

  /**
   * The errors the submit check finds, field by field in the form's order:
   * exactly the fields that fail, each with its message.
   */
  function SubmitErrors(f: FormData): (e: map<Field, string>)
    ensures forall k :: k in e <==> Fails(k, FieldText(f, k))
    ensures forall k :: k in e ==> e[k] == Message(k)
  {
    ErrorsFor((k: Field) => Fails(k, FieldText(f, k)))
  }

  /** The freshly opened form cannot be sent: every checked field fails. */
  lemma InitialFormBlocked(listing: Option<ListingView>)
    ensures forall k :: k in SubmitErrors(InitialForm(listing))
  {
    var f := InitialForm(listing);
    assert IsBlank("") by { BlankIffAllSpace(""); }
  }

  /** The form's default experience level is the server's default. */
  lemma InitialExperienceIsServerDefault(listing: Option<ListingView>)
    ensures ParseExperience(InitialForm(listing).experienceLevel) == Some(DefaultExperience)
  {
  }

  /** The body `createAdoptionRequest` posts: the form as typed, the age through `parseInt`. */
  datatype RequestBody = RequestBody(listingId: Option<int>, city: string, age: Option<int>, fullName: string,
                                     reasonForAdoption: string, livingSituation: string, experienceLevel: string,
                                     hasOtherPets: bool)

  function BodyOf(f: FormData): (b: RequestBody)
    ensures b.listingId == f.listingId && b.age == ParseInt(f.age)
    ensures b.city == f.city && b.fullName == f.fullName && b.reasonForAdoption == f.reasonForAdoption
    ensures b.livingSituation == f.livingSituation && b.experienceLevel == f.experienceLevel && b.hasOtherPets == f.hasOtherPets
  {
    RequestBody(f.listingId, f.city, ParseInt(f.age), f.fullName, f.reasonForAdoption, f.livingSituation,
                f.experienceLevel, f.hasOtherPets)
  }

  /**
   * A body that is posted comes from a form with a non-blank city, name,
   * reason and living situation, and an age that was typed and is not a
   * number at or below zero.
   */
  lemma PostedBodyPassedChecks(f: FormData)
    requires SubmitErrors(f) == map[]
    ensures !IsBlank(BodyOf(f).city) && !IsBlank(BodyOf(f).fullName)
    ensures !IsBlank(BodyOf(f).reasonForAdoption) && !IsBlank(BodyOf(f).livingSituation)
    ensures f.age != [] && !(JsNumber(f.age).Some? && JsNumber(f.age).value <= 0.0)
  {
    assert City !in SubmitErrors(f) && Age !in SubmitErrors(f) && FullName !in SubmitErrors(f);
    assert Reason !in SubmitErrors(f) && Living !in SubmitErrors(f);
  }

  /** What the user changed: a text input or the checkbox. */
  datatype Input = Typed(value: string) | Checkbox(checked: bool)

  /** `setFormData(prev => ({...prev, [name]: fieldValue}))` for the form's own inputs. */
  function WithInput(f: FormData, name: string, input: Input): FormData {
    match input
    case Checkbox(checked) => if name == "has_other_pets" then f.(hasOtherPets := checked) else f
    case Typed(v) =>
      if name == "city" then f.(city := v)
      else if name == "age" then f.(age := v)
      else if name == "full_name" then f.(fullName := v)
      else if name == "reason_for_adoption" then f.(reasonForAdoption := v)
      else if name == "living_situation" then f.(livingSituation := v)
      else if name == "experience_level" then f.(experienceLevel := v)
      else f
  }

  /** A changed input holds its new value; every other input keeps its own. */
  lemma WithInputMeaning(f: FormData, k: Field, v: string, other: Field)
    requires other != k
    ensures FieldText(WithInput(f, InputName(k), Typed(v)), k) == v
    ensures FieldText(WithInput(f, InputName(k), Typed(v)), other) == FieldText(f, other)
    ensures WithInput(f, InputName(k), Typed(v)).hasOtherPets == f.hasOtherPets
    ensures WithInput(f, "experience_level", Typed(v)) == f.(experienceLevel := v)
  {
  }

  /** The input names of the checked fields are distinct. */
  lemma InputNamesDistinct(a: Field, b: Field)
    ensures InputName(a) == InputName(b) ==> a == b
  {
    assert a != b ==> |InputName(a)| != |InputName(b)|;
  }

  /** One of `validateField`'s five steps: field `k`'s entry is set or deleted when the input is that field. */
  method CheckOne(errors: map<Field, string>, k: Field, name: string, value: string) returns (e: map<Field, string>)
    ensures name != InputName(k) ==> e == errors
    ensures FieldNamed(name) != Some(k) ==> e == errors
    ensures FieldNamed(name) == Some(k) && Fails(k, value) ==> e == errors[k := Message(k)]
    ensures FieldNamed(name) == Some(k) && !Fails(k, value) ==> e == errors - {k}
  {
    e := errors;
    if FieldNamed(name) == Some(k) && Fails(k, value) {
      e := e[k := Message(k)];
    } else if FieldNamed(name) == Some(k) {
      e := e - {k};
    }
  }

  /** The form's state cells. */
  class FormState {
    var form: FormData
    var errors: map<Field, string>

    constructor(listing: Option<ListingView>)
      ensures form == InitialForm(listing) && errors == map[]
    {
      form := InitialForm(listing);
      errors := map[];
    }

    /** `validateField`: a copy of the errors with this field's entry set or deleted. */
    method ValidateField(name: string, value: string)
      modifies this
      ensures errors == FieldChecked(old(errors), name, value)
      ensures form == old(form)
    {
      var newErrors := errors;
      newErrors := CheckOne(newErrors, City, name, value);
      newErrors := CheckOne(newErrors, Age, name, value);
      newErrors := CheckOne(newErrors, FullName, name, value);
      newErrors := CheckOne(newErrors, Reason, name, value);
      newErrors := CheckOne(newErrors, Living, name, value);
      errors := newErrors;
    }

    /** `handleChange`: the input is stored; a text input is checked, the checkbox is not. */
    method HandleChange(name: string, input: Input)
      modifies this
      ensures form == WithInput(old(form), name, input)
      ensures input.Checkbox? ==> errors == old(errors)
      ensures input.Typed? ==> errors == FieldChecked(old(errors), name, input.value)
    {
      form := WithInput(form, name, input);
      if input.Typed? {
        ValidateField(name, input.value);
      }
    }

    /**
     * `handleSubmit` up to the request: with any failing field the errors
     * become exactly the failing fields and nothing is posted; otherwise
     * the body is posted.
     */
    method Submit() returns (posted: Option<RequestBody>)
      modifies this
      ensures form == old(form)
      ensures posted.None? <==> SubmitErrors(old(form)) != map[]
      ensures posted.None? ==> errors == SubmitErrors(old(form))
      ensures posted.Some? ==> posted.value == BodyOf(old(form)) && errors == old(errors)
    {
      var newErrors := SubmitErrors(form);
      if |newErrors.Keys| > 0 {
        errors := newErrors;
        return None;
      }
      assert newErrors == map[];
      posted := Some(BodyOf(form));
    }
  }
}

=== FILE: adoption_listing_form.dfy ===
/**
 * The put-up-for-adoption form of
 * safepaws-frontend/src/components/AdoptionListingForm.js: the cat's
 * fields and the listing's, the per-field check run as the user types, the
 * submit check, and the two requests it sends in turn (create the cat, then
 * list it).
 */
module AdoptionListingForm {
  import opened Common
  import opened Text
  import opened Models
  import opened Db
  import opened ClientRecords
  import CatsApi
  import ListingsApi

  /** The form's fields as typed; `age` is the number box's text. */
  datatype ListingFormData = ListingFormData(name: string, gender: string, age: string, catNotes: string,
                                             imageUrl: string, vaccinated: bool, sterilized: bool,
                                             listingNotes: string)

  /** The freshly opened form: empty texts, unknown gender, both boxes unticked. */
  const InitialForm := ListingFormData("", "UNKNOWN", "", "", "", false, false, "")

  /** The fields the form checks. */
  datatype Field = Name | Age

  function InputName(k: Field): string {
    match k
    case Name => "name"
    case Age => "age"
  }

  function Message(k: Field): string {
    match k
    case Name => "Cat name is required"
    case Age => "Age must be a valid positive number"
  }

  /**
   * `value && (isNaN(value) || parseInt(value) < 0)`: a typed age fails when
   * it is not a number or its integer prefix is negative; an empty age passes.
   */
  predicate AgeFails(value: string) {
    value != [] && (JsNumber(value).None? || (ParseInt(value).Some? && ParseInt(value).value < 0))
  }

  /**
   * A number box holding exponent notation, `m` "e" `k`, passes: it is a
   * number, and `parseInt` reads only its mantissa `m`, which is not negative.
   */
  lemma {:induction false} ExponentAgePasses(m: nat, k: nat)
    ensures !AgeFails(DecimalString(m) + "e" + DecimalString(k))
    ensures ParseInt(DecimalString(m) + "e" + DecimalString(k)) == Some(m as int)
  {
    JsNumberReadsExponentForm(m, k);
    ParseIntReadsExponentForm(m, k);
  }

  /** A negative age typed as digits fails: it is a number, and `parseInt` reads it below zero. */
  lemma {:induction false} NegativeAgeFails(n: nat)
    requires n > 0
    ensures AgeFails("-" + DecimalString(n))
  {
    var s := "-" + DecimalString(n);
    JsNumberReadsNegative(n);
    ParseIntReadsNegative(n);
    assert s != [] && JsNumber(s).Some? && ParseInt(s) == Some(-(n as int));
  }

  predicate Fails(k: Field, value: string) {
    if k == Name then IsBlank(value) else AgeFails(value)
  }

  /** The error map after `validateField(name, value)`; any other input name leaves it alone. */
  function FieldChecked(errors: map<Field, string>, name: string, value: string): (e: map<Field, string>)
    ensures name != "name" && name != "age" ==> e == errors
    ensures forall k :: name == InputName(k) ==>
      (k in e <==> Fails(k, value)) && (k in e ==> e[k] == Message(k))
      && forall j :: j != k ==> (j in e <==> j in errors) && (j in errors ==> e[j] == errors[j])
  {
    if name == "name" then (if IsBlank(value) then errors[Name := Message(Name)] else errors - {Name})
    else if name == "age" then (if AgeFails(value) then errors[Age := Message(Age)] else errors - {Age})
    else errors
  }

  /** The submit check: only the name is required; the age is not looked at again. */
  function SubmitErrors(f: ListingFormData): (e: map<Field, string>)
    ensures Name in e <==> IsBlank(f.name)
    ensures Name in e ==> e[Name] == Message(Name)
    ensures Age !in e
  {
    if IsBlank(f.name) then map[Name := Message(Name)] else map[]
  }

  /**
   * An age flagged while typing does not stop the submit: a form with a
   * name goes out whatever its age says, and a form without one never does.
   */
  lemma SubmitIgnoresAge(f: ListingFormData, age: string)
    ensures SubmitErrors(f.(age := age)) == SubmitErrors(f)
    ensures SubmitErrors(f) == map[] <==> !IsBlank(f.name)
  {
  }

  /** The freshly opened form cannot be sent: its name is empty. */
  lemma InitialFormBlocked()
    ensures SubmitErrors(InitialForm) == map[Name := Message(Name)]
  {
    assert IsBlank("") by { BlankIffAllSpace(""); }
  }

  /** The form's default gender is the server's default. */
  lemma InitialGenderIsServerDefault()
    ensures ParseGender(InitialForm.gender) == Some(DefaultGender)
  {
  }

  /** Each of the select's three options is a gender the server stores. */
  lemma GenderOptionsParse(g: string)
    requires g == "UNKNOWN" || g == "M" || g == "F"
    ensures ParseGender(g).Some? && GenderWire(ParseGender(g).value) == g
  {
  }

  /** `listingData`: the listing part of the form, for the cat just created. */
  function ListingDataOf(f: ListingFormData, catId: int): (l: ListingsApi.ListingCreate)
    ensures l.catId == catId && l.vaccinated == f.vaccinated && l.sterilized == f.sterilized
    ensures l.notes.None? <==> IsBlank(f.listingNotes)
    ensures l.notes.Some? ==> l.notes.value == JsTrim(f.listingNotes)
  {
    ListingsApi.ListingCreate(catId, f.vaccinated, f.sterilized, OrNull(JsTrim(f.listingNotes)))
  }

  /** What the user changed: a text input, select or text area, or a checkbox. */
  datatype Input = Typed(value: string) | Checkbox(checked: bool)

  /** `setFormData(prev => ({...prev, [name]: fieldValue}))` for the form's own inputs. */
  function WithInput(f: ListingFormData, name: string, input: Input): ListingFormData {
    match input
    case Checkbox(checked) =>
      if name == "vaccinated" then f.(vaccinated := checked)
      else if name == "sterilized" then f.(sterilized := checked)
      else f
    case Typed(v) =>
      if name == "name" then f.(name := v)
      else if name == "gender" then f.(gender := v)
      else if name == "age" then f.(age := v)
      else if name == "cat_notes" then f.(catNotes := v)
      else if name == "image_url" then f.(imageUrl := v)
      else if name == "listing_notes" then f.(listingNotes := v)
      else f
  }

  /** The cat the form sends is one the server stores: a known gender and values that fit their columns. */
  predicate FormStorable(f: ListingFormData) {
    CatsApi.Storable(CatBody(f.name, f.gender, f.age, f.catNotes, f.imageUrl))
  }

  /**
   * The cat is created from the form, then listed. With a cat the server
   * stores, both succeed for any signed-in user: the new cat is the caller's,
   * has no pin and no listing, and the listing made for it is the form's;
   * otherwise the cat insert fails with the driver's message, `dbError`, and
   * nothing is stored.
   */
  method CreateCatThenListing(db: Database, caller: int, f: ListingFormData, now: nat, dbError: string)
    returns (r: Response<AdoptionListing>)
    requires db.Valid() && caller in db.users
    modifies db
    ensures db.Valid()
    ensures !FormStorable(f) ==> r == Err(500, dbError) && db.Snapshot() == old(db.Snapshot())
    ensures FormStorable(f) ==> r.Ok? && db.Snapshot() == CatListed(old(db.Snapshot()), caller, f, now, r.value)
    ensures FormStorable(f) ==>
      r.value == AdoptionListing(old(db.nextListingId), f.vaccinated, f.sterilized, DefaultIsActive,
                                 ListingDataOf(f, old(db.nextCatId)).notes, now, caller, old(db.nextCatId))
  {
    ghost var t := db.Snapshot();
    FreshCatUnreferenced(t);
    var created := CatsApi.CreateCat(db, caller, CatBody(f.name, f.gender, f.age, f.catNotes, f.imageUrl), dbError);
    if created.Err? {
      return Err(created.status, created.detail);
    }
    r := ListNewCat(db, caller, f, created.value.catId, t, now);
  }

  /**
   * The tables after both requests succeed: the form's cat under the next
   * cat id, added by the caller, and its listing under the next listing id.
   */
  function CatListed(t: Tables, caller: int, f: ListingFormData, now: nat, listing: AdoptionListing): (u: Tables)
    requires StoredGender(f.gender).Some?
    ensures u.cats == t.cats[t.nextCatId := NewCat(t, caller, f)] && u.nextCatId == t.nextCatId + 1
    ensures u.listings == t.listings[t.nextListingId := listing] && u.nextListingId == t.nextListingId + 1
    ensures u == t.(cats := u.cats, nextCatId := u.nextCatId, listings := u.listings, nextListingId := u.nextListingId)
  {
    t.(cats := t.cats[t.nextCatId := NewCat(t, caller, f)], nextCatId := t.nextCatId + 1,
       listings := t.listings[t.nextListingId := listing], nextListingId := t.nextListingId + 1)
  }

  /** The cat the first request stores. */
  function NewCat(t: Tables, caller: int, f: ListingFormData): Cat
    requires StoredGender(f.gender).Some?
  {
    var body := CatBody(f.name, f.gender, f.age, f.catNotes, f.imageUrl);
    Cat(t.nextCatId, Some(body.name), StoredGender(f.gender).value, body.age, body.notes, body.imageUrl, Some(caller))
  }

  /** The second request, for the cat the first has just added: it is listed as the form says. */
  method ListNewCat(db: Database, caller: int, f: ListingFormData, catId: int, ghost t: Tables, now: nat)
    returns (r: Response<AdoptionListing>)
    requires StoredGender(f.gender).Some? && caller in t.users && catId == t.nextCatId
    requires !ListingsApi.OnStreet(db.pins, catId) && !ListingsApi.Listed(db.listings, catId)
    requires db.Valid() && db.Snapshot() == t.(cats := t.cats[t.nextCatId := NewCat(t, caller, f)], nextCatId := t.nextCatId + 1)
    modifies db
    ensures db.Valid()
    ensures r.Ok? && db.Snapshot() == CatListed(t, caller, f, now, r.value)
    ensures r.value == AdoptionListing(t.nextListingId, f.vaccinated, f.sterilized, DefaultIsActive,
                                       ListingDataOf(f, t.nextCatId).notes, now, caller, t.nextCatId)
  {
    ghost var u := db.Snapshot();
    r := ListingsApi.CreateListing(db, caller, ListingDataOf(f, catId), now);
    CatListedSteps(t, u, caller, f, now, r.value);
  }

  /** Storing the cat and then its listing gives the tables `CatListed` describes. */
  lemma CatListedSteps(t: Tables, u: Tables, caller: int, f: ListingFormData, now: nat, listing: AdoptionListing)
    requires StoredGender(f.gender).Some?
    requires u == t.(cats := t.cats[t.nextCatId := NewCat(t, caller, f)], nextCatId := t.nextCatId + 1)
    ensures u.(listings := u.listings[u.nextListingId := listing], nextListingId := u.nextListingId + 1)
         == CatListed(t, caller, f, now, listing)
  {
  }

  /** No pin and no listing refers to the id the next cat will get. */
  lemma FreshCatUnreferenced(t: Tables)
    requires TablesValid(t)
    ensures forall k :: k in t.pins ==> t.pins[k].catId != t.nextCatId
    ensures forall k :: k in t.listings ==> t.listings[k].catId != t.nextCatId
  {
    assert t.nextCatId !in t.cats;
  }

  /** The form's state cells. */
  class ListingFormState {
    var form: ListingFormData
    var errors: map<Field, string>

    constructor()
      ensures form == InitialForm && errors == map[]
    {
      form := InitialForm;
      errors := map[];
    }

    /** `validateField`: a copy of the errors with the name's or the age's entry set or deleted. */
    method ValidateField(name: string, value: string)
      modifies this
      ensures errors == FieldChecked(old(errors), name, value)
      ensures form == old(form)
    {
      var newErrors := errors;
      if name == "name" && IsBlank(value) {
        newErrors := newErrors[Name := Message(Name)];
      } else if name == "name" {
        newErrors := newErrors - {Name};
      }
      if name == "age" && AgeFails(value) {
        newErrors := newErrors[Age := Message(Age)];
      } else if name == "age" {
        newErrors := newErrors - {Age};
      }
      errors := newErrors;
    }

    /** `handleChange`: the input is stored; a text input is checked, a checkbox is not. */
    method HandleChange(name: string, input: Input)
      modifies this
      ensures form == WithInput(old(form), name, input)
      ensures input.Checkbox? ==> errors == old(errors)
      ensures input.Typed? ==> errors == FieldChecked(old(errors), name, input.value)
    {
      form := WithInput(form, name, input);
      if input.Typed? {
        ValidateField(name, input.value);
      }
    }

    /**
     * `handleSubmit`: without a name the errors become the name's alone and
     * nothing is sent; otherwise the cat and then its listing are created,
     * and the form and its errors stay as they were.
     */
    method Submit(db: Database, caller: int, now: nat, dbError: string) returns (sent: Option<Response<AdoptionListing>>)
      requires db.Valid() && caller in db.users
      modifies this, db
      ensures db.Valid() && form == old(form)
      ensures sent.None? <==> IsBlank(old(form).name)
      ensures sent.None? ==> errors == SubmitErrors(old(form)) && db.Snapshot() == old(db.Snapshot())
      ensures sent.Some? ==> errors == old(errors)
      ensures sent.Some? && !FormStorable(form) ==>
        sent.value == Err(500, dbError) && db.Snapshot() == old(db.Snapshot())
      ensures sent.Some? && FormStorable(form) ==>
        sent.value.Ok? && db.Snapshot() == CatListed(old(db.Snapshot()), caller, form, now, sent.value.value)
        && sent.value.value == AdoptionListing(old(db.nextListingId), form.vaccinated, form.sterilized, DefaultIsActive,
                                               ListingDataOf(form, old(db.nextCatId)).notes, now, caller, old(db.nextCatId))
    {
      var newErrors := SubmitErrors(form);
      if |newErrors.Keys| > 0 {
        errors := newErrors;
        return None;
      }
      assert Name !in newErrors;
      var r := CreateCatThenListing(db, caller, form, now, dbError);
      sent := Some(r);
    }
  }
}

=== FILE: adoption_page.dfy ===
/**
 * The listing browser of safepaws/src/pages/AdoptionPage.js: the active
 * listings, narrowed by the user's search and checkboxes, sorted by name
 * or age with JavaScript's stable `Array.prototype.sort`.
 */
module AdoptionPage {
  import opened Common
  import opened Text
  import opened Lists
  import opened ClientRecords

  /**
   * The listings the page keeps from the fetch: every active one, as often
   * as it occurs, and nothing else.
   */
  function ActiveListings(fetched: seq<ListingView>): (r: seq<ListingView>)
    ensures multiset(r) <= multiset(fetched)
    ensures forall i :: 0 <= i < |r| ==> r[i].isActive
    ensures forall l :: l in multiset(fetched) && l.isActive ==> multiset(r)[l] == multiset(fetched)[l]
  {
    var active := (l: ListingView) => l.isActive;
    FilterMultiset(fetched, active);
    Filter(fetched, active)
  }

  /** The browse filter of `filteredPets`. */
  predicate Shown(l: ListingView, currentUserId: Option<int>, query: string, sterilizedOnly: bool, vaccinatedOnly: bool) {
    !(TruthyId(currentUserId) && l.uploaderId == currentUserId)
    && l.name.Some? && Contains(Lower(l.name.value), Lower(query))
    && (!sterilizedOnly || l.sterilized)
    && (!vaccinatedOnly || l.vaccinated)
  }

  /**
   * `a.localeCompare(b)`, taken as the order of code points: negative,
   * zero or positive as `a` sorts before, with or after `b`.
   */
  function LexCompare(a: string, b: string): (r: int)
    ensures -1 <= r <= 1
  {
    if a == [] && b == [] then 0
    else if a == [] then -1
    else if b == [] then 1
    else if a[0] < b[0] then -1
    else if a[0] > b[0] then 1
    else LexCompare(a[1..], b[1..])
  }

  /** Swapping the operands negates the comparison, and only equal strings compare equal. */
  lemma {:induction false} LexAntisymmetric(a: string, b: string)
    ensures LexCompare(a, b) == -LexCompare(b, a)
    ensures LexCompare(a, b) == 0 <==> a == b
  {
    if a != [] && b != [] && a[0] == b[0] {
      LexAntisymmetric(a[1..], b[1..]);
      if a[1..] == b[1..] {
        assert a == [a[0]] + a[1..] && b == [b[0]] + b[1..];
      }
    }
  }

  /** Sorting before or with is transitive. */
  lemma {:induction false} LexTransitive(a: string, b: string, c: string)
    requires LexCompare(a, b) <= 0 && LexCompare(b, c) <= 0
    ensures LexCompare(a, c) <= 0
  {
    if a != [] && b != [] && c != [] && a[0] == b[0] && b[0] == c[0] {
      LexTransitive(a[1..], b[1..], c[1..]);
    }
  }

  /** The name a listing sorts by: a missing or empty name sorts as "". */
  function NameKey(l: ListingView): string {
    if Truthy(l.name) then l.name.value else ""
  }

  /** The age a listing sorts by: a missing age sorts as 0. */
  function AgeKey(l: ListingView): int {
    if l.age.Some? then l.age.value else 0
  }

  /** The comparator handed to `sort`. */
  function Compare(sortBy: string, a: ListingView, b: ListingView): (c: int)
    ensures sortBy != "name" && sortBy != "age" ==> c == 0
  {
    if sortBy == "name" then LexCompare(NameKey(a), NameKey(b))
    else if sortBy == "age" then AgeKey(a) - AgeKey(b)
    else 0
  }

  /** Any two listings are ordered one way or the other. */
  lemma CompareTotal(sortBy: string, a: ListingView, b: ListingView)
    ensures Compare(sortBy, a, b) <= 0 || Compare(sortBy, b, a) <= 0
  {
    LexAntisymmetric(NameKey(a), NameKey(b));
  }

  /** The comparator's order is transitive. */
  lemma CompareTransitive(sortBy: string, a: ListingView, b: ListingView, c: ListingView)
    requires Compare(sortBy, a, b) <= 0 && Compare(sortBy, b, c) <= 0
    ensures Compare(sortBy, a, c) <= 0
  {
    if sortBy == "name" {
      LexTransitive(NameKey(a), NameKey(b), NameKey(c));
    }
  }

  /** Every listing sorts before or with every later one. */
  ghost predicate Sorted(sortBy: string, xs: seq<ListingView>) {
    forall i, j :: 0 <= i < j < |xs| ==> Compare(sortBy, xs[i], xs[j]) <= 0
  }

  /**
   * One step of a stable insertion sort: `x`, the last listing so far, goes
   * after every listing that does not sort after it.
   */
  function InsertLast(sortBy: string, s: seq<ListingView>, x: ListingView): (r: seq<ListingView>)
    ensures multiset(r) == multiset(s) + multiset{x}
  {
    if s == [] || Compare(sortBy, s[|s| - 1], x) <= 0 then s + [x]
    else
      var init := s[..|s| - 1];
      assert s == init + [s[|s| - 1]];
      InsertLast(sortBy, init, x) + [s[|s| - 1]]
  }

  /** Inserting into a sorted list keeps it sorted. */
  lemma {:induction false} InsertLastSorted(sortBy: string, s: seq<ListingView>, x: ListingView)
    requires Sorted(sortBy, s)
    ensures Sorted(sortBy, InsertLast(sortBy, s, x))
  {
    if s == [] || Compare(sortBy, s[|s| - 1], x) <= 0 {
      var r := s + [x];
      forall i, j | 0 <= i < j < |r| ensures Compare(sortBy, r[i], r[j]) <= 0 {
        if j == |s| && i < |s| - 1 {
          CompareTransitive(sortBy, s[i], s[|s| - 1], x);
        }
      }
    } else {
      var last := s[|s| - 1];
      var init := s[..|s| - 1];
      InsertLastSorted(sortBy, init, x);
      CompareTotal(sortBy, last, x);
      var front := InsertLast(sortBy, init, x);
      var r := front + [last];
      forall i | 0 <= i < |init| ensures Compare(sortBy, init[i], last) <= 0 {
        assert s[i] == init[i];
      }
      InsertLastBelow(sortBy, init, x, last);
      forall i, j | 0 <= i < j < |r| ensures Compare(sortBy, r[i], r[j]) <= 0 {
        if j < |front| {
          assert r[i] == front[i] && r[j] == front[j];
        }
      }
    }
  }

  /** Every listing of an insertion sorts no later than a bound on all its parts. */
  lemma InsertLastBelow(sortBy: string, s: seq<ListingView>, x: ListingView, bound: ListingView)
    requires forall i :: 0 <= i < |s| ==> Compare(sortBy, s[i], bound) <= 0
    requires Compare(sortBy, x, bound) <= 0
    ensures forall i :: 0 <= i < |InsertLast(sortBy, s, x)| ==> Compare(sortBy, InsertLast(sortBy, s, x)[i], bound) <= 0
  {
    var front := InsertLast(sortBy, s, x);
    forall i | 0 <= i < |front| ensures Compare(sortBy, front[i], bound) <= 0 {
      assert front[i] in multiset(front);
      if front[i] != x {
        assert front[i] in multiset(s);
        var k :| 0 <= k < |s| && s[k] == front[i];
      }
    }
  }

  /** `listings.sort(comparator)`: stable insertion sort, listing by listing. */
  function SortListings(sortBy: string, xs: seq<ListingView>): (r: seq<ListingView>)
    ensures multiset(r) == multiset(xs)
  {
    if xs == [] then []
    else
      var init := xs[..|xs| - 1];
      assert xs == init + [xs[|xs| - 1]];
      InsertLast(sortBy, SortListings(sortBy, init), xs[|xs| - 1])
  }

  /** The sort orders the listings by the comparator. */
  lemma {:induction false} SortListingsSorted(sortBy: string, xs: seq<ListingView>)
    ensures Sorted(sortBy, SortListings(sortBy, xs))
  {
    if xs != [] {
      SortListingsSorted(sortBy, xs[..|xs| - 1]);
      InsertLastSorted(sortBy, SortListings(sortBy, xs[..|xs| - 1]), xs[|xs| - 1]);
    }
  }

  /** A sort key other than name or age compares everything equal, and the stable sort leaves the order alone. */
  lemma {:induction false} UnknownKeyKeepsOrder(sortBy: string, xs: seq<ListingView>)
    requires sortBy != "name" && sortBy != "age"
    ensures SortListings(sortBy, xs) == xs
  {
    if xs != [] {
      var init, x := xs[..|xs| - 1], xs[|xs| - 1];
      UnknownKeyKeepsOrder(sortBy, init);
      assert SortListings(sortBy, xs) == InsertLast(sortBy, init, x);
      assert init == [] || Compare(sortBy, init[|init| - 1], x) == 0;
      assert xs == init + [x];
    }
  }

  /** `filteredPets`: the browse filter, then the sort. */
  function FilteredPets(listings: seq<ListingView>, currentUserId: Option<int>, query: string,
                        sterilizedOnly: bool, vaccinatedOnly: bool, sortBy: string): (r: seq<ListingView>)
    ensures |r| <= |listings|
    ensures forall i :: 0 <= i < |r| ==> r[i] in listings && Shown(r[i], currentUserId, query, sterilizedOnly, vaccinatedOnly)
  {
    var keep := (l: ListingView) => Shown(l, currentUserId, query, sterilizedOnly, vaccinatedOnly);
    var kept := Filter(listings, keep);
    var r := SortListings(sortBy, kept);
    assert |r| == |multiset(r)| == |multiset(kept)| == |kept|;
    assert forall x | x in r :: x in listings && Shown(x, currentUserId, query, sterilizedOnly, vaccinatedOnly) by {
      forall x | x in r ensures x in listings && Shown(x, currentUserId, query, sterilizedOnly, vaccinatedOnly) {
        assert x in multiset(r);
        var k :| 0 <= k < |kept| && kept[k] == x;
      }
    }
    r
  }

  /**
   * The page shows a reordering of some of the listings: each shown
   * listing passes the filter, every listing that passes is shown, as
   * often as it occurs, and they come in the comparator's order. In
   * particular the user's own listings and the nameless ones never show.
   */
  lemma FilteredPetsMeaning(listings: seq<ListingView>, currentUserId: Option<int>, query: string,
                            sterilizedOnly: bool, vaccinatedOnly: bool, sortBy: string)
    ensures var r := FilteredPets(listings, currentUserId, query, sterilizedOnly, vaccinatedOnly, sortBy);
      multiset(r) <= multiset(listings)
      && (forall i :: 0 <= i < |r| ==> Shown(r[i], currentUserId, query, sterilizedOnly, vaccinatedOnly))
      && (forall i :: 0 <= i < |listings| && Shown(listings[i], currentUserId, query, sterilizedOnly, vaccinatedOnly) ==>
            multiset(r)[listings[i]] == multiset(listings)[listings[i]])
      && Sorted(sortBy, r)
      && (forall i :: 0 <= i < |r| ==> r[i].name.Some? && !(TruthyId(currentUserId) && r[i].uploaderId == currentUserId))
  {
    var keep := (l: ListingView) => Shown(l, currentUserId, query, sterilizedOnly, vaccinatedOnly);
    var kept := Filter(listings, keep);
    var r := SortListings(sortBy, kept);
    FilterMultiset(listings, keep);
    SortListingsSorted(sortBy, kept);
    forall i | 0 <= i < |r| ensures keep(r[i]) {
      assert r[i] in multiset(kept);
      var k :| 0 <= k < |kept| && kept[k] == r[i];
    }
  }

  /**
   * What the page shows from a fetch: some of the fetched listings, each
   * active and passing the browse filter, every such listing as often as
   * it was fetched, in the comparator's order.
   */
  lemma PageShowsActiveListings(fetched: seq<ListingView>, currentUserId: Option<int>, query: string,
                                sterilizedOnly: bool, vaccinatedOnly: bool, sortBy: string)
    ensures var r := FilteredPets(ActiveListings(fetched), currentUserId, query, sterilizedOnly, vaccinatedOnly, sortBy);
      multiset(r) <= multiset(fetched)
      && (forall i :: 0 <= i < |r| ==> r[i].isActive && Shown(r[i], currentUserId, query, sterilizedOnly, vaccinatedOnly))
      && (forall l :: l in multiset(fetched) && l.isActive && Shown(l, currentUserId, query, sterilizedOnly, vaccinatedOnly) ==>
            multiset(r)[l] == multiset(fetched)[l])
      && Sorted(sortBy, r)
  {
    var active := ActiveListings(fetched);
    FilteredPetsMeaning(active, currentUserId, query, sterilizedOnly, vaccinatedOnly, sortBy);
    ShownFromActive(active, FilteredPets(active, currentUserId, query, sterilizedOnly, vaccinatedOnly, sortBy));
  }

  /** Listings drawn from the active ones are active. */
  lemma ShownFromActive(active: seq<ListingView>, r: seq<ListingView>)
    requires forall i :: 0 <= i < |active| ==> active[i].isActive
    requires multiset(r) <= multiset(active)
    ensures forall i :: 0 <= i < |r| ==> r[i].isActive
  {
    forall i | 0 <= i < |r| ensures r[i].isActive {
      assert r[i] in multiset(active);
      var k :| 0 <= k < |active| && active[k] == r[i];
    }
  }

  /** The filter keeps every passing element as often as it occurs and drops the rest. */
  lemma {:induction false} FilterMultiset(xs: seq<ListingView>, keep: ListingView -> bool)
    ensures multiset(Filter(xs, keep)) <= multiset(xs)
    ensures forall x :: x in multiset(xs) && keep(x) ==> multiset(Filter(xs, keep))[x] == multiset(xs)[x]
  {
    if xs != [] {
      var rest := Filter(xs[1..], keep);
      FilterMultiset(xs[1..], keep);
      assert xs == [xs[0]] + xs[1..];
      assert multiset(xs) == multiset{xs[0]} + multiset(xs[1..]);
      if keep(xs[0]) {
        assert Filter(xs, keep) == [xs[0]] + rest;
        assert multiset(Filter(xs, keep)) == multiset{xs[0]} + multiset(rest);
      } else {
        assert Filter(xs, keep) == rest;
      }
    }
  }

  /** The selected-listing cell of this app's adoption context. */
  class AdoptionSelection {
    var selectedListing: Option<ListingView>

    constructor()
      ensures selectedListing == None
    {
      selectedListing := None;
    }

    /** Leaving the page clears the selected listing. */
    method Unmount()
      modifies this
      ensures selectedListing == None
    {
      selectedListing := None;
    }
  }
}

=== FILE: cats_api.dfy ===
/**
 * The cat router, wasn/app/api/cat.py: anyone signed in adds a cat; a cat
 * that is up for adoption may only be edited or deleted by the listing's
 * uploader. The `gender` field arrives as free text and is checked only by
 * the column's enumeration, which takes a member in any letter case and
 * stores the member itself, and the other values only by their column
 * widths: a value outside them makes the commit fail, which the app's
 * exception handler answers with 500 and the driver's message.
 */
module CatsApi {
  import opened Common
  import opened Models
  import opened Db
  import opened Query

  /** The `detail` texts of this router's refusals. */
  const ListedByOther := "You cannot edit this cat because it is part of adoption and you are not the owner"
  const NotAdderDelete := "Not allowed to delete this cat"

  /** The body of POST /cats/; `gender` defaults to "UNKNOWN". */
  datatype CatIn = CatIn(name: string, gender: string, age: Option<int>, notes: Option<string>, imageUrl: Option<string>)

  /** The body of PUT /cats/cat/{id}: an absent field is left as it is. */
  datatype CatUpdate = CatUpdate(name: Option<string>, gender: Option<string>, age: Option<int>, notes: Option<string>,
                                 imageUrl: Option<string>)

  /** The values a new cat writes fit their columns; the gender is checked by its enumeration. */
  predicate CatInFits(p: CatIn) {
    FitsString(Some(p.name), CatNameWidth) && FitsInteger(p.age) && FitsString(p.imageUrl, ImageUrlWidth)
  }

  /** The insert of `p` commits: its gender is a stored one and every value fits its column. */
  predicate Storable(p: CatIn) {
    StoredGender(p.gender).Some? && CatInFits(p)
  }

  /** The values an edit writes fit their columns. */
  predicate CatUpdateFits(u: CatUpdate) {
    FitsString(u.name, CatNameWidth) && FitsInteger(u.age) && FitsString(u.imageUrl, ImageUrlWidth)
  }

  /** The cat has a listing. */
  predicate Listed(listings: map<int, AdoptionListing>, catId: int) {
    exists k | k in listings :: listings[k].catId == catId
  }

  /** The cat has a listing uploaded by `uploader`. */
  predicate ListedBy(listings: map<int, AdoptionListing>, catId: int, uploader: int) {
    exists k | k in listings :: listings[k].catId == catId && listings[k].uploaderId == uploader
  }

  /** The listing of a cat that has one: at most one exists, so whoever looks finds the same one. */
  method FindListing(db: Database, catId: int) returns (r: Option<AdoptionListing>)
    requires db.Valid()
    ensures r.None? <==> !Listed(db.listings, catId)
    ensures r.Some? ==> r.value.listingId in db.listings && db.listings[r.value.listingId] == r.value && r.value.catId == catId
  {
    if exists k :: k in db.listings && db.listings[k].catId == catId {
      var k :| k in db.listings && db.listings[k].catId == catId;
      r := Some(db.listings[k]);
    } else {
      r := None;
    }
  }

  /** The uploader blocks an edit or a delete exactly when the cat is listed by somebody else. */
  lemma {:induction false} BlockedIffListedByOther(t: Tables, catId: int, caller: int, l: AdoptionListing)
    requires TablesValid(t)
    requires l.listingId in t.listings && t.listings[l.listingId] == l && l.catId == catId
    ensures l.uploaderId != caller <==> Listed(t.listings, catId) && !ListedBy(t.listings, catId, caller)
  {
    forall k | k in t.listings && t.listings[k].catId == catId ensures k == l.listingId {
      assert t.listings[k].catId == t.listings[l.listingId].catId;
    }
  }

  /**
   * POST /cats/: the caller is recorded as the cat's adder. A commit the
   * database refuses is answered 500 with the driver's message, `dbError`.
   */
  method CreateCat(db: Database, caller: int, p: CatIn, dbError: string) returns (r: Response<Cat>)
    requires db.Valid() && caller in db.users
    modifies db
    ensures db.Valid()
    ensures !Storable(p) ==> r == Err(500, dbError) && db.Snapshot() == old(db.Snapshot())
    ensures Storable(p) ==>
      var id := old(db.nextCatId);
      r == Ok(Cat(id, Some(p.name), StoredGender(p.gender).value, p.age, p.notes, p.imageUrl, Some(caller)))
      && db.Snapshot() == old(db.Snapshot()).(cats := old(db.cats)[id := r.value], nextCatId := id + 1)
  {
    var gender := StoredGender(p.gender);
    if gender.None? || !CatInFits(p) {
      return Err(500, dbError);
    }
    var cat := Cat(db.nextCatId, Some(p.name), gender.value, p.age, p.notes, p.imageUrl, Some(caller));
    db.InsertCat(cat);
    r := Ok(cat);
  }

  /** GET /cats/cats: the cats that are not up for adoption, newest id first. */
  method ListCats(db: Database) returns (rows: seq<Cat>)
    requires db.Valid()
    ensures var ls := db.listings; Selects(rows, db.cats, (c: Cat) => c.catId, (c: Cat) => !Listed(ls, c.catId))
    ensures Descending(rows, (c: Cat) => c.catId)
  {
    var ls := db.listings;
    rows := Select(db.cats, (c: Cat) => c.catId, (c: Cat) => !Listed(ls, c.catId), (c: Cat) => c.catId);
  }

  /** GET /cats/mycats: the cats the caller added (or last edited), newest id first. */
  method MyCats(db: Database, caller: int) returns (rows: seq<Cat>)
    requires db.Valid()
    ensures Selects(rows, db.cats, (c: Cat) => c.catId, (c: Cat) => c.addingUser == Some(caller))
    ensures Descending(rows, (c: Cat) => c.catId)
  {
    rows := Select(db.cats, (c: Cat) => c.catId, (c: Cat) => c.addingUser == Some(caller), (c: Cat) => c.catId);
  }

  /**
   * The stored cat with the update's present fields written over it, and
   * the caller recorded as its adder; `gender` is the member a present
   * gender is stored as.
   */
  function Edited(c: Cat, u: CatUpdate, gender: Gender, caller: int): (r: Cat)
    ensures r.catId == c.catId && r.addingUser == Some(caller)
    ensures r.name == (if u.name.Some? then u.name else c.name)
    ensures r.gender == (if u.gender.Some? then gender else c.gender)
    ensures r.age == (if u.age.Some? then u.age else c.age)
    ensures r.notes == (if u.notes.Some? then u.notes else c.notes)
    ensures r.imageUrl == (if u.imageUrl.Some? then u.imageUrl else c.imageUrl)
  {
    Cat(c.catId,
        if u.name.Some? then u.name else c.name,
        if u.gender.Some? then gender else c.gender,
        if u.age.Some? then u.age else c.age,
        if u.notes.Some? then u.notes else c.notes,
        if u.imageUrl.Some? then u.imageUrl else c.imageUrl,
        Some(caller))
  }

  /** An edit with no field present only takes the cat over; editing twice is editing once. */
  lemma EditedTakesOverAndIsIdempotent(c: Cat, u: CatUpdate, g: Gender, caller: int)
    ensures Edited(c, CatUpdate(None, None, None, None, None), g, caller) == c.(addingUser := Some(caller))
    ensures Edited(Edited(c, u, g, caller), u, g, caller) == Edited(c, u, g, caller)
  {
  }

  /**
   * PUT /cats/cat/{id}: anyone may edit a cat that is not listed, only the
   * uploader one that is; the editor becomes the cat's adder.
   */
  method UpdateCat(db: Database, caller: int, catId: int, u: CatUpdate, dbError: string) returns (r: Response<Cat>)
    requires db.Valid() && caller in db.users
    modifies db
    ensures db.Valid()
    ensures catId !in old(db.cats) ==> r == Err(404, "Cat not found")
    ensures catId in old(db.cats) && Listed(old(db.listings), catId) && !ListedBy(old(db.listings), catId, caller) ==>
      r == Err(403, ListedByOther)
    ensures catId in old(db.cats) && (!Listed(old(db.listings), catId) || ListedBy(old(db.listings), catId, caller))
            && ((u.gender.Some? && StoredGender(u.gender.value).None?) || !CatUpdateFits(u)) ==>
      r == Err(500, dbError)
    ensures catId in old(db.cats) && (!Listed(old(db.listings), catId) || ListedBy(old(db.listings), catId, caller))
            && (u.gender.Some? ==> StoredGender(u.gender.value).Some?) && CatUpdateFits(u) ==>
      r.Ok?
    ensures r.Err? ==> db.Snapshot() == old(db.Snapshot())
    ensures r.Ok? ==>
      catId in old(db.cats) && (!Listed(old(db.listings), catId) || ListedBy(old(db.listings), catId, caller))
      && (u.gender.Some? ==> StoredGender(u.gender.value).Some?) && CatUpdateFits(u)
      && r.value == Edited(old(db.cats)[catId], u, if u.gender.Some? then StoredGender(u.gender.value).value else Male, caller)
      && db.Snapshot() == old(db.Snapshot()).(cats := old(db.cats)[catId := r.value])
  {
    if catId !in db.cats {
      return Err(404, "Cat not found");
    }
    var listing := FindListing(db, catId);
    if listing.Some? && listing.value.uploaderId != caller {
      BlockedIffListedByOther(db.Snapshot(), catId, caller, listing.value);
      return Err(403, ListedByOther);
    }
    if listing.Some? {
      BlockedIffListedByOther(db.Snapshot(), catId, caller, listing.value);
    }
    var gender := Male;
    if u.gender.Some? {
      var parsed := StoredGender(u.gender.value);
      if parsed.None? {
        return Err(500, dbError);
      }
      gender := parsed.value;
    }
    if !CatUpdateFits(u) {
      return Err(500, dbError);
    }
    var edited := Edited(db.cats[catId], u, gender, caller);
    db.UpdateCat(edited);
    r := Ok(edited);
  }

  /**
   * DELETE /cats/cat/{id}: only the uploader may delete a listed cat, and
   * even then the listing's key refuses the delete; an unlisted cat is
   * deleted with its pins.
   */
  method DeleteCat(db: Database, caller: int, catId: int, dbError: string) returns (r: Response<()>)
    requires db.Valid()
    modifies db
    ensures db.Valid()
    ensures catId !in old(db.cats) ==> r == Err(404, "Cat not found")
    ensures catId in old(db.cats) && Listed(old(db.listings), catId) && !ListedBy(old(db.listings), catId, caller) ==>
      r == Err(403, NotAdderDelete)
    ensures catId in old(db.cats) && ListedBy(old(db.listings), catId, caller) ==>
      r == Err(500, dbError)
    ensures catId in old(db.cats) && !Listed(old(db.listings), catId) ==> r.Ok?
    ensures r.Err? ==> db.Snapshot() == old(db.Snapshot())
    ensures r.Ok? ==>
      catId in old(db.cats) && !Listed(old(db.listings), catId)
      && db.Snapshot() == old(db.Snapshot()).(cats := old(db.cats) - {catId}, pins := PinsWithoutCat(old(db.pins), catId))
  {
    if catId !in db.cats {
      return Err(404, "Cat not found");
    }
    var listing := FindListing(db, catId);
    if listing.Some? {
      BlockedIffListedByOther(db.Snapshot(), catId, caller, listing.value);
      if listing.value.uploaderId != caller {
        return Err(403, NotAdderDelete);
      }
      return Err(500, dbError);
    }
    db.DeleteCat(catId);
    r := Ok(());
  }
}

=== FILE: client_records.dfy ===
/**
 * The records the client receives as JSON and reads its decisions from.
 * Fields the client may find missing are `Option`s; statuses and conditions
 * stay text, since the client compares them as strings.
 */
module ClientRecords {
  import opened Common
  import opened Text
  import opened Models
  import CatsApi

  /** An adoption listing as `GET /adoptions/` delivers it, with its cat's name and age. */
  datatype ListingView = ListingView(listingId: int, name: Option<string>, age: Option<int>, isActive: bool,
                                     uploaderId: Option<int>, sterilized: bool, vaccinated: bool,
                                     notes: Option<string>)

  /** An adoption request as the request lists deliver it. */
  datatype RequestView = RequestView(requestId: int, listingId: int, status: string)

  /** A notification as `GET /notifications/` delivers it. */
  datatype NotificationView = NotificationView(notificationId: int, message: string, isRead: bool)

  /** A stored request as the request lists deliver it: its status as the wire text. */
  function RequestViewOf(q: AdoptionRequest): (v: RequestView)
    ensures v.requestId == q.requestId && v.listingId == q.listingId
    ensures ParseStatus(v.status) == Some(q.status)
  {
    StatusEnumerated(q.status);
    RequestView(q.requestId, q.listingId, StatusWire(q.status))
  }

  /**
   * The cat body both add-a-cat forms post, from the fields as typed: the
   * name trimmed, the age through `parseInt` when one was typed, the notes
   * and the image address trimmed, or none when that leaves them empty.
   */
  function CatBody(name: string, gender: string, age: string, notes: string, imageUrl: string): (c: CatsApi.CatIn)
    ensures c.name == JsTrim(name) && c.gender == gender
    ensures age == [] ==> c.age.None?
    ensures age != [] ==> c.age == ParseInt(age)
    ensures c.notes.None? <==> IsBlank(notes)
    ensures c.notes.Some? ==> c.notes.value == JsTrim(notes)
    ensures c.imageUrl.None? <==> IsBlank(imageUrl)
    ensures c.imageUrl.Some? ==> c.imageUrl.value == JsTrim(imageUrl)
  {
    CatsApi.CatIn(JsTrim(name), gender, if age != [] then ParseInt(age) else None, OrNull(JsTrim(notes)), OrNull(JsTrim(imageUrl)))
  }
}

=== FILE: common.dfy ===
/** Values shared by the backend handlers and the client logic. */
module Common {

  /** A value that may be absent: Python's `None`, JavaScript's `null`/`undefined`. */
  datatype Option<T> = None | Some(value: T) {
    function GetOr(default: T): T {
      if Some? then value else default
    }
  }

  /**
   * What an HTTP handler answers: a value, or the status code and the
   * `detail` text of the `HTTPException` it raises.
   */
  datatype Response<T> = Ok(value: T) | Err(status: int, detail: string) {
    predicate IsError(code: int) { Err? && status == code }
  }

  /** A map/latitude pair. The model never inspects or bounds coordinates. */
  datatype Coord = Coord(latitude: int, longitude: int)
}

=== FILE: db.dfy ===
/**
 * The backend's database: one table per model of wasn/app/db/models.py,
 * each a map from primary key to row, with an autoincrement counter per
 * table. `Valid` is what the schema's keys and constraints guarantee.
 */
module Db {
  import opened Common
  import opened Models

  /** The whole database as one value, for stating what an operation changes. */
  datatype Tables = Tables(
    users: map<int, User>,
    cats: map<int, Cat>,
    pins: map<int, CatLocation>,
    listings: map<int, AdoptionListing>,
    requests: map<int, AdoptionRequest>,
    notifications: map<int, Notification>,
    logs: map<int, ActivityLog>,
    nextUserId: int,
    nextCatId: int,
    nextLocationId: int,
    nextListingId: int,
    nextRequestId: int,
    nextNotificationId: int,
    nextLogId: int)

  /** Primary keys: positive, below the table's counter, equal to the row's own id. */
  ghost predicate KeysValid(t: Tables) {
    1 <= t.nextUserId && 1 <= t.nextCatId && 1 <= t.nextLocationId && 1 <= t.nextListingId
    && 1 <= t.nextRequestId && 1 <= t.nextNotificationId && 1 <= t.nextLogId
    && (forall k :: k in t.users ==> 1 <= k < t.nextUserId && t.users[k].userId == k)
    && (forall k :: k in t.cats ==> 1 <= k < t.nextCatId && t.cats[k].catId == k)
    && (forall k :: k in t.pins ==> 1 <= k < t.nextLocationId && t.pins[k].locationId == k)
    && (forall k :: k in t.listings ==> 1 <= k < t.nextListingId && t.listings[k].listingId == k)
    && (forall k :: k in t.requests ==> 1 <= k < t.nextRequestId && t.requests[k].requestId == k)
    && (forall k :: k in t.notifications ==> 1 <= k < t.nextNotificationId && t.notifications[k].notificationId == k)
    && (forall k :: k in t.logs ==> 1 <= k < t.nextLogId && t.logs[k].logId == k)
  }

  /**
   * `users.username` and `users.email` are UNIQUE columns; the unique index
   * compares under the collation, so two names differing only in case clash.
   */
  ghost predicate UsersUnique(users: map<int, User>) {
    (forall a, b {:trigger CollationKey(users[a].username), CollationKey(users[b].username)} ::
       a in users && b in users && CollationKey(users[a].username) == CollationKey(users[b].username) ==> a == b)
    && (forall a, b {:trigger CollationKey(users[a].email.value), CollationKey(users[b].email.value)} ::
          (a in users && b in users && users[a].email.Some? && users[b].email.Some?
           && CollationKey(users[a].email.value) == CollationKey(users[b].email.value)) ==> a == b)
  }

  /** Foreign keys: every reference names an existing row. */
  ghost predicate RefsValid(t: Tables) {
    (forall k :: k in t.cats && t.cats[k].addingUser.Some? ==> t.cats[k].addingUser.value in t.users)
    && (forall k :: k in t.pins ==> t.pins[k].catId in t.cats)
    && (forall k :: k in t.listings ==> t.listings[k].catId in t.cats && t.listings[k].uploaderId in t.users)
    && (forall k :: k in t.requests ==>
          t.requests[k].listingId in t.listings && t.requests[k].senderId in t.users && t.requests[k].receiverId in t.users)
    && (forall k :: k in t.notifications ==> t.notifications[k].userId in t.users)
  }

  /**
   * What the handlers keep: a cat has at most one pin (pins are upserted
   * per cat) and at most one adoption listing (a second one is refused).
   */
  ghost predicate OnePerCat(t: Tables) {
    (forall a, b :: a in t.pins && b in t.pins && t.pins[a].catId == t.pins[b].catId ==> a == b)
    && (forall a, b :: a in t.listings && b in t.listings && t.listings[a].catId == t.listings[b].catId ==> a == b)
  }

  ghost predicate TablesValid(t: Tables) {
    KeysValid(t) && UsersUnique(t.users) && RefsValid(t) && OnePerCat(t)
  }

  /** Rewriting a stored request in place, with references that exist, keeps the tables valid. */
  lemma RequestUpdateKeepsValid(t: Tables, q: AdoptionRequest)
    requires TablesValid(t) && q.requestId in t.requests
    requires q.listingId in t.listings && q.senderId in t.users && q.receiverId in t.users
    ensures TablesValid(t.(requests := t.requests[q.requestId := q]))
  {
  }

  /**
   * The rows that stay when the row they reference through `parent` is
   * deleted, for a foreign key declared `ON DELETE CASCADE`.
   */
  function Cascade<R>(rows: map<int, R>, parent: R -> int, id: int): (r: map<int, R>)
    ensures forall k :: k in r <==> k in rows && parent(rows[k]) != id
    ensures forall k :: k in r ==> r[k] == rows[k]
  {
    map k | k in rows && parent(rows[k]) != id :: rows[k]
  }

  /** The rows of `requests` that stay when listing `listingId` is deleted. */
  function RequestsWithoutListing(requests: map<int, AdoptionRequest>, listingId: int): map<int, AdoptionRequest> {
    Cascade(requests, (q: AdoptionRequest) => q.listingId, listingId)
  }

  /** Deleting a listing together with its requests keeps the tables valid. */
  lemma ListingRemovalKeepsValid(t: Tables, id: int)
    requires TablesValid(t)
    ensures TablesValid(t.(listings := t.listings - {id}, requests := RequestsWithoutListing(t.requests, id)))
  {
  }

  /** The rows of `pins` that stay when cat `catId` is deleted. */
  function PinsWithoutCat(pins: map<int, CatLocation>, catId: int): map<int, CatLocation> {
    Cascade(pins, (l: CatLocation) => l.catId, catId)
  }

  /** A notification to add: its recipient and its text. */
  datatype Notice = Notice(userId: int, message: string)

  /** `notices` added in order to `ns`, taking ids from `next` on, unread and stamped `now`. */
  function WithNotices(ns: map<int, Notification>, next: int, notices: seq<Notice>, now: nat): (r: map<int, Notification>)
    ensures forall k :: k in ns ==> k in r
    decreases |notices|
  {
    if notices == [] then ns
    else WithNotices(ns[next := Notification(next, notices[0].message, DefaultIsRead, now, notices[0].userId)], next + 1, notices[1..], now)
  }

  /** Two notices added: two fresh consecutive ids. */
  lemma WithTwoNotices(ns: map<int, Notification>, next: int, notices: seq<Notice>, now: nat)
    requires |notices| == 2
    ensures WithNotices(ns, next, notices, now)
         == ns[next := Notification(next, notices[0].message, DefaultIsRead, now, notices[0].userId)]
              [next + 1 := Notification(next + 1, notices[1].message, DefaultIsRead, now, notices[1].userId)]
  {
    var m1 := ns[next := Notification(next, notices[0].message, DefaultIsRead, now, notices[0].userId)];
    var m2 := m1[next + 1 := Notification(next + 1, notices[1].message, DefaultIsRead, now, notices[1].userId)];
    assert notices[1..][1..] == [];
    assert WithNotices(m1, next + 1, notices[1..], now) == WithNotices(m2, next + 2, [], now);
  }

  /** Two notifications for existing users, under the next two ids, keep the tables valid. */
  lemma TwoNoticesKeepValid(t: Tables, notices: seq<Notice>, now: nat)
    requires TablesValid(t) && |notices| == 2 && notices[0].userId in t.users && notices[1].userId in t.users
    ensures TablesValid(t.(notifications := WithNotices(t.notifications, t.nextNotificationId, notices, now),
                           nextNotificationId := t.nextNotificationId + 2))
  {
    WithTwoNotices(t.notifications, t.nextNotificationId, notices, now);
  }

  class Database {
    var users: map<int, User>
    var cats: map<int, Cat>
    var pins: map<int, CatLocation>
    var listings: map<int, AdoptionListing>
    var requests: map<int, AdoptionRequest>
    var notifications: map<int, Notification>
    var logs: map<int, ActivityLog>
    var nextUserId: int
    var nextCatId: int
    var nextLocationId: int
    var nextListingId: int
    var nextRequestId: int
    var nextNotificationId: int
    var nextLogId: int

    function Snapshot(): Tables
      reads this
    {
      Tables(users, cats, pins, listings, requests, notifications, logs,
             nextUserId, nextCatId, nextLocationId, nextListingId, nextRequestId, nextNotificationId, nextLogId)
    }

    ghost predicate Valid()
      reads this
    {
      TablesValid(Snapshot())
    }

    /** An empty database. */
    constructor ()
      ensures Valid()
      ensures Snapshot() == Tables(map[], map[], map[], map[], map[], map[], map[], 1, 1, 1, 1, 1, 1, 1)
    {
      users, cats, pins, listings, requests, notifications, logs := map[], map[], map[], map[], map[], map[], map[];
      nextUserId, nextCatId, nextLocationId, nextListingId := 1, 1, 1, 1;
      nextRequestId, nextNotificationId, nextLogId := 1, 1, 1;
    }

    /** Two `db.add(Notification(...))` calls in a row. */
    method AddTwoNotices(notices: seq<Notice>, now: nat)
      requires Valid() && |notices| == 2 && notices[0].userId in users && notices[1].userId in users
      modifies this
      ensures Valid()
      ensures Snapshot() == old(Snapshot()).(
        notifications := WithNotices(old(notifications), old(nextNotificationId), notices, now),
        nextNotificationId := old(nextNotificationId) + 2)
    {
      ghost var t := Snapshot();
      TwoNoticesKeepValid(t, notices, now);
      notifications, nextNotificationId := WithNotices(notifications, nextNotificationId, notices, now), nextNotificationId + 2;
      assert Snapshot() == t.(notifications := notifications, nextNotificationId := nextNotificationId);
    }

    /** No notification, or two `db.add(Notification(...))` calls in a row. */
    method AddNotices(notices: seq<Notice>, now: nat)
      requires Valid() && (notices == [] || (|notices| == 2 && notices[0].userId in users && notices[1].userId in users))
      modifies this
      ensures Valid()
      ensures Snapshot() == old(Snapshot()).(
        notifications := WithNotices(old(notifications), old(nextNotificationId), notices, now),
        nextNotificationId := old(nextNotificationId) + |notices|)
    {
      if notices != [] {
        AddTwoNotices(notices, now);
      }
    }

    /** `db.add(request)`: the row takes the next request id. */
    method InsertRequest(q: AdoptionRequest)
      requires Valid() && q.requestId == nextRequestId
      requires q.listingId in listings && q.senderId in users && q.receiverId in users
      modifies this
      ensures Valid()
      ensures Snapshot() == old(Snapshot()).(requests := old(requests)[q.requestId := q], nextRequestId := q.requestId + 1)
    {
      requests := requests[q.requestId := q];
      nextRequestId := q.requestId + 1;
    }

    /** Assignments to a stored request's columns, then `commit`. */
    method UpdateRequest(q: AdoptionRequest)
      requires Valid() && q.requestId in requests
      requires q.listingId in listings && q.senderId in users && q.receiverId in users
      modifies this
      ensures Valid()
      ensures Snapshot() == old(Snapshot()).(requests := old(requests)[q.requestId := q])
    {
      RequestUpdateKeepsValid(Snapshot(), q);
      requests := requests[q.requestId := q];
    }

    /** `db.add(user)`: the row takes the next user id; username and e-mail stay unique. */
    method InsertUser(u: User)
      requires Valid() && u.userId == nextUserId
      requires forall k :: k in users ==> CollationKey(users[k].username) != CollationKey(u.username)
      requires u.email.Some? ==>
        forall k :: k in users && users[k].email.Some? ==> CollationKey(users[k].email.value) != CollationKey(u.email.value)
      modifies this
      ensures Valid()
      ensures Snapshot() == old(Snapshot()).(users := old(users)[u.userId := u], nextUserId := u.userId + 1)
    {
      users := users[u.userId := u];
      nextUserId := u.userId + 1;
    }

    /** Assignments to a stored user's columns; username and e-mail stay unique. */
    method UpdateUser(u: User)
      requires Valid() && u.userId in users
      requires forall k :: k in users && k != u.userId ==> CollationKey(users[k].username) != CollationKey(u.username)
      requires u.email.Some? ==> forall k :: k in users && k != u.userId && users[k].email.Some? ==>
        CollationKey(users[k].email.value) != CollationKey(u.email.value)
      modifies this
      ensures Valid()
      ensures Snapshot() == old(Snapshot()).(users := old(users)[u.userId := u])
    {
      users := users[u.userId := u];
    }

    /** `db.add(cat)`: the row takes the next cat id. */
    method InsertCat(c: Cat)
      requires Valid() && c.catId == nextCatId
      requires c.addingUser.Some? ==> c.addingUser.value in users
      modifies this
      ensures Valid()
      ensures Snapshot() == old(Snapshot()).(cats := old(cats)[c.catId := c], nextCatId := c.catId + 1)
    {
      cats := cats[c.catId := c];
      nextCatId := c.catId + 1;
    }

    /** Assignments to a stored cat's columns. */
    method UpdateCat(c: Cat)
      requires Valid() && c.catId in cats
      requires c.addingUser.Some? ==> c.addingUser.value in users
      modifies this
      ensures Valid()
      ensures Snapshot() == old(Snapshot()).(cats := old(cats)[c.catId := c])
    {
      cats := cats[c.catId := c];
    }

    /**
     * `db.delete(cat)` for a cat no listing refers to (the listing's key has
     * no ON DELETE action, so a referenced cat cannot be deleted); its pins
     * go with it (ON DELETE CASCADE).
     */
    method DeleteCat(id: int)
      requires Valid()
      requires forall k :: k in listings ==> listings[k].catId != id
      modifies this
      ensures Valid()
      ensures Snapshot() == old(Snapshot()).(cats := old(cats) - {id}, pins := PinsWithoutCat(old(pins), id))
    {
      cats := cats - {id};
      pins := PinsWithoutCat(pins, id);
    }

    /** `db.add(pin)` for a cat that has none yet. */
    method InsertPin(l: CatLocation)
      requires Valid() && l.locationId == nextLocationId && l.catId in cats
      requires forall k :: k in pins ==> pins[k].catId != l.catId
      modifies this
      ensures Valid()
      ensures Snapshot() == old(Snapshot()).(pins := old(pins)[l.locationId := l], nextLocationId := l.locationId + 1)
    {
      pins := pins[l.locationId := l];
      nextLocationId := l.locationId + 1;
    }

    /** Assignments to a stored pin's columns other than its cat. */
    method UpdatePin(l: CatLocation)
      requires Valid() && l.locationId in pins && pins[l.locationId].catId == l.catId
      modifies this
      ensures Valid()
      ensures Snapshot() == old(Snapshot()).(pins := old(pins)[l.locationId := l])
    {
      pins := pins[l.locationId := l];
    }

    /** `DELETE FROM cat_locations WHERE location_id = id`. */
    method DeletePin(id: int)
      requires Valid()
      modifies this
      ensures Valid()
      ensures Snapshot() == old(Snapshot()).(pins := old(pins) - {id})
    {
      pins := pins - {id};
    }

    /** `db.add(listing)` for a cat that has none yet. */
    method InsertListing(l: AdoptionListing)
      requires Valid() && l.listingId == nextListingId && l.catId in cats && l.uploaderId in users
      requires forall k :: k in listings ==> listings[k].catId != l.catId
      modifies this
      ensures Valid()
      ensures Snapshot() == old(Snapshot()).(listings := old(listings)[l.listingId := l], nextListingId := l.listingId + 1)
    {
      listings := listings[l.listingId := l];
      nextListingId := l.listingId + 1;
    }

    /** Assignments to a stored listing's columns other than its cat and uploader. */
    method UpdateListing(l: AdoptionListing)
      requires Valid() && l.listingId in listings
      requires listings[l.listingId].catId == l.catId && listings[l.listingId].uploaderId == l.uploaderId
      modifies this
      ensures Valid()
      ensures Snapshot() == old(Snapshot()).(listings := old(listings)[l.listingId := l])
    {
      listings := listings[l.listingId := l];
    }

    /** `db.delete(listing)`: its requests go with it (ON DELETE CASCADE). */
    method DeleteListing(id: int)
      requires Valid()
      modifies this
      ensures Valid()
      ensures Snapshot() == old(Snapshot()).(listings := old(listings) - {id}, requests := RequestsWithoutListing(old(requests), id))
    {
      ghost var t := Snapshot();
      ListingRemovalKeepsValid(t, id);
      listings, requests := listings - {id}, RequestsWithoutListing(requests, id);
      assert Snapshot() == t.(listings := listings, requests := requests);
    }

    /** Assignments to stored notifications' read flags. */
    method SetNotifications(ns: map<int, Notification>)
      requires Valid() && ns.Keys == notifications.Keys
      requires forall k :: k in ns ==> ns[k] == notifications[k].(isRead := ns[k].isRead)
      modifies this
      ensures Valid()
      ensures Snapshot() == old(Snapshot()).(notifications := ns)
    {
      notifications := ns;
    }

    /** `db.delete(request)`. */
    method DeleteRequest(id: int)
      requires Valid()
      modifies this
      ensures Valid()
      ensures Snapshot() == old(Snapshot()).(requests := old(requests) - {id})
    {
      requests := requests - {id};
    }
  }
}

=== FILE: layout.dfy ===
/**
 * The decision logic of safepaws-frontend/src/components/Layout.js, the
 * right-hand panel shared by the adoption, map and notifications pages:
 * when the panel shows, what leaving a page clears, how a pin's condition
 * is labelled and which conditions may be chosen, the checks before a
 * condition update or a new cat is sent, and which button a listing gets.
 */
module Layout {
  import opened Common
  import opened Text
  import opened Lists
  import opened Models
  import opened Db
  import opened Query
  import opened ClientRecords
  import opened MapContext
  import opened MapPage
  import RequestsApi
  import CatsApi

  /** `shouldShowRightSection` for the current path. */
  function ShouldShowRightSection(path: string, showListingForm: bool, reviewRequestId: Option<int>): (r: bool)
    ensures path == "/map" ==> r
    ensures path == "/adoption" ==> (r <==> !showListingForm)
    ensures path == "/notifications" ==> (r <==> reviewRequestId.Some?)
    ensures path != "/map" && path != "/adoption" && path != "/notifications" ==> !r
  {
    (path == "/adoption" && !showListingForm) || path == "/map" || (path == "/notifications" && reviewRequestId.Some?)
  }

  /** The fields of the add-a-cat form, as typed. */
  datatype NewCatForm = NewCatForm(name: string, age: string, gender: string, notes: string, imageUrl: string,
                                   condition: string, conditionDescription: string)

  /** The add-a-cat form when it opens. */
  const BlankNewCatForm := NewCatForm("", "", "UNKNOWN", "", "", "NORMAL", "")

  /**
   * The panel's state cells: three from the adoption context and the
   * layout's own. The adoption context of this client is not part of this
   * model; its cells are taken as given.
   */
  class LayoutState {
    var selectedListing: Option<ListingView>
    var reviewRequestId: Option<int>
    var showAdoptionListingForm: bool
    var showAdoptionForm: bool
    var showActivityForm: bool
    var activityDescription: string
    var conditionValue: string
    var conditionDescription: string
    var newCat: NewCatForm

    /** The layout's own cells start closed and empty; the context's cells are given. */
    constructor(listing: Option<ListingView>, review: Option<int>, listingForm: bool)
      ensures selectedListing == listing && reviewRequestId == review && showAdoptionListingForm == listingForm
      ensures !showAdoptionForm && !showActivityForm && activityDescription == ""
      ensures conditionValue == "" && conditionDescription == "" && newCat == BlankNewCatForm
    {
      selectedListing := listing;
      reviewRequestId := review;
      showAdoptionListingForm := listingForm;
      showAdoptionForm := false;
      showActivityForm := false;
      activityDescription := "";
      conditionValue := "";
      conditionDescription := "";
      newCat := BlankNewCatForm;
    }

    /**
     * The two route effects: off the notifications page a review is
     * dropped; off the adoption page the selected listing is dropped with
     * its adoption form, and the listing form is closed.
     */
    method LeaveRoute(path: string)
      modifies this
      ensures path != "/notifications" && TruthyId(old(reviewRequestId)) ==> reviewRequestId == None
      ensures path == "/notifications" || !TruthyId(old(reviewRequestId)) ==> reviewRequestId == old(reviewRequestId)
      ensures path != "/adoption" ==> selectedListing == None && !showAdoptionListingForm
      ensures path != "/adoption" && old(selectedListing).Some? ==> !showAdoptionForm
      ensures path == "/adoption" ==>
        selectedListing == old(selectedListing) && showAdoptionListingForm == old(showAdoptionListingForm)
      ensures path == "/adoption" || old(selectedListing).None? ==> showAdoptionForm == old(showAdoptionForm)
      ensures showActivityForm == old(showActivityForm) && activityDescription == old(activityDescription)
      ensures conditionValue == old(conditionValue) && conditionDescription == old(conditionDescription)
      ensures newCat == old(newCat)
    {
      if TruthyId(reviewRequestId) && path != "/notifications" {
        reviewRequestId := None;
      }
      if path != "/adoption" && selectedListing.Some? {
        selectedListing := None;
        showAdoptionForm := false;
      }
      if path != "/adoption" && showAdoptionListingForm {
        showAdoptionListingForm := false;
      }
    }

    /** `setSelectedListing`, then its effect: choosing a listing closes the adoption form; clearing it does not. */
    method ListingChanged(listing: Option<ListingView>)
      modifies this
      ensures selectedListing == listing
      ensures listing.Some? ==> !showAdoptionForm
      ensures listing.None? ==> showAdoptionForm == old(showAdoptionForm)
      ensures reviewRequestId == old(reviewRequestId) && showAdoptionListingForm == old(showAdoptionListingForm)
      ensures showActivityForm == old(showActivityForm) && activityDescription == old(activityDescription)
      ensures conditionValue == old(conditionValue) && conditionDescription == old(conditionDescription)
      ensures newCat == old(newCat)
    {
      selectedListing := listing;
      if listing.Some? {
        showAdoptionForm := false;
      }
    }

    /** A newly selected pin closes the contribution form and starts the condition form from its condition. */
    method PinChanged(pin: Option<MapPin>)
      modifies this
      ensures pin.Some? ==> !showActivityForm && activityDescription == "" && conditionDescription == ""
      ensures pin.Some? ==> conditionValue == (if Truthy(pin.value.condition) then pin.value.condition.value else "NORMAL")
      ensures pin.None? ==> showActivityForm == old(showActivityForm) && activityDescription == old(activityDescription)
      ensures pin.None? ==> conditionValue == old(conditionValue) && conditionDescription == old(conditionDescription)
      ensures selectedListing == old(selectedListing) && reviewRequestId == old(reviewRequestId)
      ensures showAdoptionListingForm == old(showAdoptionListingForm) && showAdoptionForm == old(showAdoptionForm)
      ensures newCat == old(newCat)
    {
      if pin.Some? {
        showActivityForm := false;
        activityDescription := "";
        conditionValue := if Truthy(pin.value.condition) then pin.value.condition.value else "NORMAL";
        conditionDescription := "";
      }
    }

    /**
     * The two map effects after a render, each reading the render's values:
     * a location for a new cat resets the add-a-cat form and drops the
     * selected pin; a selected pin together with such a location drops the
     * location. Afterwards the panel never holds both.
     */
    method SettleMapSelection(store: MapStore)
      modifies this, store
      ensures !(store.selectedPin.Some? && store.newCatLocation.Some?)
      ensures old(store.newCatLocation).Some? ==> newCat == BlankNewCatForm && store.selectedPin == None
      ensures old(store.newCatLocation).None? ==> newCat == old(newCat) && store.selectedPin == old(store.selectedPin)
      ensures old(store.selectedPin).Some? && old(store.newCatLocation).Some? ==> store.newCatLocation == None
      ensures old(store.selectedPin).None? ==> store.newCatLocation == old(store.newCatLocation)
      ensures store.refreshTrigger == old(store.refreshTrigger)
      ensures selectedListing == old(selectedListing) && reviewRequestId == old(reviewRequestId)
      ensures showAdoptionListingForm == old(showAdoptionListingForm) && showAdoptionForm == old(showAdoptionForm)
      ensures showActivityForm == old(showActivityForm) && activityDescription == old(activityDescription)
      ensures conditionValue == old(conditionValue) && conditionDescription == old(conditionDescription)
    {
      var pin, location := store.selectedPin, store.newCatLocation;
      if location.Some? {
        newCat := BlankNewCatForm;
        store.SetSelectedPin(None);
      }
      if pin.Some? && location.Some? {
        store.SetNewCatLocation(None);
      }
    }
  }

  /** A condition's colour and label on the panel. */
  datatype ConditionInfo = ConditionInfo(color: string, description: string)

  /** `getConditionInfo`. */
  function ConditionInfoOf(c: Option<string>): (r: ConditionInfo)
    ensures r.color == ColorForCondition(c)
    ensures Truthy(c) && !KnownCondition(Upper(c.value)) ==> r.description == c.value
  {
    if !Truthy(c) then ConditionInfo(Grey, "Unknown")
    else
      var u := Upper(c.value);
      if u == "NORMAL" then ConditionInfo(Green, "Normal")
      else if u == "URGENT" then ConditionInfo(Red, "Urgent")
      else if u == "AT_VET" || u == "AT VET" then ConditionInfo(Blue, "At Vet")
      else if u == "ADOPTED" then ConditionInfo(Grey, "Adopted")
      else if u == "PASSED" then ConditionInfo(Grey, "Passed")
      else if u == "UNKNOWN" then ConditionInfo(Grey, "Unknown")
      else ConditionInfo(Grey, c.value)
  }

  /** The upper-cased spellings the label knows. */
  predicate KnownCondition(u: string) {
    u == "NORMAL" || u == "URGENT" || u == "AT_VET" || u == "AT VET" || u == "ADOPTED" || u == "PASSED" || u == "UNKNOWN"
  }

  /**
   * A missing or empty condition reads "Unknown"; the known spellings are
   * matched in any letter case, both at-vet spellings reading "At Vet"; any
   * other text is shown as written, in grey. The colour is always the map
   * marker's colour.
   */
  lemma ConditionInfoMeaning(c: Option<string>)
    ensures !Truthy(c) ==> ConditionInfoOf(c) == ConditionInfo(Grey, "Unknown")
    ensures Truthy(c) && (Upper(c.value) == "AT_VET" || Upper(c.value) == "AT VET") ==>
      ConditionInfoOf(c).description == "At Vet"
    ensures Truthy(c) && !KnownCondition(Upper(c.value)) ==> ConditionInfoOf(c) == ConditionInfo(Grey, c.value)
    ensures Truthy(c) && KnownCondition(Upper(c.value)) ==> ConditionInfoOf(Some(Upper(c.value))) == ConditionInfoOf(c)
    ensures ConditionInfoOf(c).color == ColorForCondition(c)
  {
    if Truthy(c) {
      CaseMappingsAbsorb(c.value);
    }
  }

  /** `canChangeToAdoptedOrPassed`: a signed-in user looking at a pin they added. */
  predicate CanChangeToAdoptedOrPassed(pin: Option<MapPin>, currentUserId: Option<int>) {
    pin.Some? && TruthyId(currentUserId) && pin.value.addingUserId == currentUserId
  }

  /** The condition choices the panel offers. */
  function ConditionOptions(canChange: bool): (r: seq<string>)
    ensures |r| == if canChange then 5 else 3
    ensures r[..3] == ["NORMAL", "URGENT", "AT VET"]
  {
    ["NORMAL", "URGENT", "AT VET"] + (if canChange then ["ADOPTED", "PASSED"] else [])
  }

  /**
   * The three everyday conditions are always offered; ADOPTED and PASSED
   * exactly when the user added the selected pin; every choice is a value
   * the server stores.
   */
  lemma ConditionOptionsMeaning(pin: Option<MapPin>, currentUserId: Option<int>)
    ensures var os := ConditionOptions(CanChangeToAdoptedOrPassed(pin, currentUserId));
      "NORMAL" in os && "URGENT" in os && "AT VET" in os
      && ("ADOPTED" in os <==> pin.Some? && TruthyId(currentUserId) && pin.value.addingUserId == currentUserId)
      && ("PASSED" in os <==> pin.Some? && TruthyId(currentUserId) && pin.value.addingUserId == currentUserId)
      && forall i :: 0 <= i < |os| ==> ParseCondition(os[i]).Some?
  {
    var os := ConditionOptions(CanChangeToAdoptedOrPassed(pin, currentUserId));
    assert os[0] == "NORMAL" && os[1] == "URGENT" && os[2] == "AT VET";
    if !CanChangeToAdoptedOrPassed(pin, currentUserId) {
      assert os == ["NORMAL", "URGENT", "AT VET"];
    }
  }

  /** `cannotAddContributions`: the pin's condition is exactly one of three texts. */
  predicate CannotAddContributions(pin: Option<MapPin>)
    ensures CannotAddContributions(pin) ==>
      pin.Some? && pin.value.condition.Some? && ParseCondition(pin.value.condition.value).Some?
  {
    pin.Some? && pin.value.condition.Some?
    && (pin.value.condition.value == "AT VET" || pin.value.condition.value == "ADOPTED" || pin.value.condition.value == "PASSED")
  }

  /**
   * For the conditions the server stores, contributions are closed exactly
   * at the vet, adopted and passed. The test is exact, so the label's other
   * at-vet spelling, shown as "At Vet", does not close them.
   */
  lemma ContributionsClosed(pin: MapPin, c: Condition)
    requires pin.condition == Some(ConditionWire(c))
    ensures CannotAddContributions(Some(pin)) <==> c == AtVet || c == Adopted || c == Passed
    ensures !CannotAddContributions(Some(pin.(condition := Some("AT_VET"))))
    ensures ConditionInfoOf(Some("AT_VET")).description == "At Vet"
  {
    assert "AT_VET" != "AT VET" by { assert "AT_VET"[2] != "AT VET"[2]; }
    var u := Upper("AT_VET");
    assert u == "AT_VET";
  }

  /** Which choices need a description before they are sent. */
  predicate NeedsDescription(value: string) {
    value == "URGENT" || value == "AT VET"
  }

  /** What a submit button does: nothing, an alert, or a request. */
  datatype Submission<T> = Ignored | Refused(message: string) | Sent(payload: T)

  /** The request `handleUpdateCondition` sends. */
  datatype ConditionUpdate = ConditionUpdate(locationId: int, condition: string, description: Option<string>)

  /** `handleUpdateCondition` up to the request. */
  function UpdateConditionSubmission(pin: Option<MapPin>, value: string, description: string): (s: Submission<ConditionUpdate>)
    ensures s.Ignored? <==> pin.None? || value == []
    ensures s.Sent? ==> s.payload.locationId == pin.value.locationId && s.payload.condition == value
  {
    if pin.None? || value == [] then Ignored
    else if NeedsDescription(value) && IsBlank(description) then
      Refused("Please provide a description for this condition change.")
    else Sent(ConditionUpdate(pin.value.locationId, value, OrNull(JsTrim(description))))
  }

  /**
   * Nothing happens without a pin or a choice; URGENT and AT VET are refused
   * without a non-blank description; otherwise the choice is sent for the
   * selected pin with the trimmed description, or none when it is blank.
   */
  lemma UpdateConditionMeaning(pin: Option<MapPin>, value: string, description: string)
    ensures var s := UpdateConditionSubmission(pin, value, description);
      (s.Ignored? <==> pin.None? || value == [])
      && (s.Refused? <==> pin.Some? && NeedsDescription(value) && IsBlank(description))
      && (s.Sent? ==> s.payload.locationId == pin.value.locationId && s.payload.condition == value
                      && (s.payload.description.None? <==> IsBlank(description))
                      && (s.payload.description.Some? ==> s.payload.description.value == JsTrim(description)))
  {
  }

  /** The request `handleSubmitNewCat` sends: the cat, where it is, and its first condition. */
  datatype NewCatRequest = NewCatRequest(cat: CatsApi.CatIn, location: Coord, condition: string, conditionDescription: Option<string>)

  /** `handleSubmitNewCat` up to the request. */
  function NewCatSubmission(f: NewCatForm, location: Option<Coord>): (s: Submission<NewCatRequest>)
    ensures s.Sent? ==> !IsBlank(f.name) && location.Some? && s.payload.location == location.value
    ensures !s.Sent? ==> s.Refused?
  {
    if IsBlank(f.name) || location.None? then Refused("Please provide a name for the cat.")
    else if NeedsDescription(f.condition) && IsBlank(f.conditionDescription) then
      Refused("Please provide a description for this condition.")
    else
      var cat := CatBody(f.name, f.gender, f.age, f.notes, f.imageUrl);
      Sent(NewCatRequest(cat, location.value, f.condition, OrNull(JsTrim(f.conditionDescription))))
  }

  /**
   * A new cat is sent only with a non-blank name, a location, and a
   * description when its condition needs one; the name goes trimmed, so
   * never empty, and an empty age goes as none.
   */
  lemma NewCatMeaning(f: NewCatForm, location: Option<Coord>)
    ensures var s := NewCatSubmission(f, location);
      (s.Sent? <==> !IsBlank(f.name) && location.Some? && !(NeedsDescription(f.condition) && IsBlank(f.conditionDescription)))
      && (s.Sent? ==> s.payload.cat.name == JsTrim(f.name) && s.payload.cat.name != []
                      && s.payload.location == location.value && s.payload.condition == f.condition
                      && (f.age == [] ==> s.payload.cat.age.None?))
  {
  }

  /** A freshly opened add-a-cat form cannot be sent: its name is empty. */
  lemma BlankFormRefused(location: Option<Coord>)
    ensures NewCatSubmission(BlankNewCatForm, location) == Refused("Please provide a name for the cat.")
  {
    assert IsBlank(BlankNewCatForm.name) by { assert AllSpace(BlankNewCatForm.name, IsJsSpace); BlankIffAllSpace(""); }
  }

  /** The button under a selected listing. */
  datatype ListingAction = NoButton | EditListing | PendingDisabled | Apply

  /** Whether one of the user's sent requests for this listing is still Pending. */
  predicate HasPendingRequest(sent: seq<RequestView>, listingId: int) {
    Lists.Some(sent, (q: RequestView) => q.listingId == listingId && q.status == "Pending")
  }

  /** The button resolution under a selected listing. */
  function ListingActionFor(currentUserId: Option<int>, listing: ListingView, sent: seq<RequestView>): (a: ListingAction)
    ensures a == NoButton <==> !TruthyId(currentUserId)
    ensures a == EditListing <==> TruthyId(currentUserId) && listing.uploaderId == currentUserId
  {
    if !TruthyId(currentUserId) then NoButton
    else if listing.uploaderId == currentUserId then EditListing
    else if HasPendingRequest(sent, listing.listingId) then PendingDisabled
    else Apply
  }

  /**
   * No user, no button; the uploader edits; anyone else is held back by a
   * Pending request of theirs for the listing and may apply otherwise.
   */
  lemma ListingActionMeaning(currentUserId: Option<int>, listing: ListingView, sent: seq<RequestView>)
    ensures var a := ListingActionFor(currentUserId, listing, sent);
      (a == NoButton <==> !TruthyId(currentUserId))
      && (a == EditListing <==> TruthyId(currentUserId) && listing.uploaderId == currentUserId)
      && (a == PendingDisabled <==>
            (TruthyId(currentUserId) && listing.uploaderId != currentUserId
             && exists i :: 0 <= i < |sent| && sent[i].listingId == listing.listingId && sent[i].status == "Pending"))
      && (a == Apply <==>
            (TruthyId(currentUserId) && listing.uploaderId != currentUserId
             && forall i :: 0 <= i < |sent| && sent[i].listingId == listing.listingId ==> sent[i].status != "Pending"))
  {
  }

  /** The sent list as the client receives it. */
  function Views(rs: seq<AdoptionRequest>): (vs: seq<RequestView>)
    ensures |vs| == |rs| && forall i :: 0 <= i < |rs| ==> vs[i] == RequestViewOf(rs[i])
  {
    seq(|rs|, i requires 0 <= i < |rs| => RequestViewOf(rs[i]))
  }

  /**
   * The client and the server disagree after a decision: once the user's
   * request for a listing has been accepted or rejected, the panel offers
   * Apply again, while the server refuses any second request for the same
   * listing from the same sender.
   */
  lemma ApplyOfferedButRefused(t: Tables, caller: int, listing: ListingView, sent: seq<AdoptionRequest>, k: int)
    requires caller != 0 && listing.uploaderId != Some(caller)
    requires Selects(sent, t.requests, (q: AdoptionRequest) => q.requestId, (q: AdoptionRequest) => q.senderId == caller)
    requires k in t.requests && t.requests[k].senderId == caller && t.requests[k].listingId == listing.listingId
    requires forall j :: j in t.requests && t.requests[j].senderId == caller && t.requests[j].listingId == listing.listingId ==>
      t.requests[j].status != Pending
    ensures ListingActionFor(Some(caller), listing, Views(sent)) == Apply
    ensures RequestsApi.HasRequest(t.requests, listing.listingId, caller)
  {
    var vs := Views(sent);
    forall i | 0 <= i < |vs| && vs[i].listingId == listing.listingId ensures vs[i].status != "Pending" {
      var q := sent[i];
      assert q.requestId in t.requests && t.requests[q.requestId] == q;
      assert q.status != Pending;
      assert ParseStatus(vs[i].status) == Some(q.status);
    }
  }
}

=== FILE: listings_api.dfy ===
/**
 * The adoption-listing router, wasn/app/api/adoptions.py: a cat's owner
 * puts it up for adoption, lists, edits and withdraws listings.
 */
module ListingsApi {
  import opened Common
  import opened Models
  import opened Db
  import opened Query

  /** The `detail` texts of this router's refusals. */
  const NotAdder := "You are not allowed to create adoption listing for this cat"
  const CatOnStreet := "This cat is currently in street location and cannot be added to adoption listing"
  const NotUploaderUpdate := "Not allowed to update this listing"
  const NotUploaderDelete := "Not allowed to delete this listing"
  const AlreadyListed := "Cat already has adoption listing"

  /** The body of POST /adoptions/; the flags default to false. */
  datatype ListingCreate = ListingCreate(catId: int, vaccinated: bool, sterilized: bool, notes: Option<string>)

  /** The body of PUT /adoptions/{id}: an absent field is left as it is. */
  datatype ListingUpdate = ListingUpdate(vaccinated: Option<bool>, sterilized: Option<bool>, notes: Option<string>,
                                         isActive: Option<bool>)

  /** The payload with the defaults of its omitted flags. */
  function DefaultListingCreate(catId: int): (p: ListingCreate)
    ensures p.catId == catId && p.vaccinated == DefaultVaccinated && p.sterilized == DefaultSterilized && p.notes.None?
  {
    ListingCreate(catId, DefaultVaccinated, DefaultSterilized, None)
  }

  /** The cat is pinned on the street map. */
  ghost predicate OnStreet(pins: map<int, CatLocation>, catId: int) {
    exists k :: k in pins && pins[k].catId == catId
  }

  /** The cat already has a listing. */
  ghost predicate Listed(listings: map<int, AdoptionListing>, catId: int) {
    exists k :: k in listings && listings[k].catId == catId
  }

  /** A stored listing with the update's present fields written over it. */
  function Patched(l: AdoptionListing, u: ListingUpdate): (r: AdoptionListing)
    ensures r.listingId == l.listingId && r.catId == l.catId && r.uploaderId == l.uploaderId
    ensures r.createdAt == l.createdAt
    ensures r.vaccinated == u.vaccinated.GetOr(l.vaccinated) && r.sterilized == u.sterilized.GetOr(l.sterilized)
    ensures r.notes == (if u.notes.Some? then u.notes else l.notes)
    ensures r.isActive == u.isActive.GetOr(l.isActive)
  {
    l.(vaccinated := if u.vaccinated.Some? then u.vaccinated.value else l.vaccinated,
       sterilized := if u.sterilized.Some? then u.sterilized.value else l.sterilized,
       notes := if u.notes.Some? then u.notes else l.notes,
       isActive := if u.isActive.Some? then u.isActive.value else l.isActive)
  }

  /** An update with no field present changes nothing; applying one twice is applying it once. */
  lemma PatchedIdentityAndIdempotent(l: AdoptionListing, u: ListingUpdate)
    ensures Patched(l, ListingUpdate(None, None, None, None)) == l
    ensures Patched(Patched(l, u), u) == Patched(l, u)
  {
  }

  /** POST /adoptions/: only the cat's adder may list it, and only when it has no pin and no listing. */
  method CreateListing(db: Database, caller: int, p: ListingCreate, now: nat) returns (r: Response<AdoptionListing>)
    requires db.Valid() && caller in db.users
    modifies db
    ensures db.Valid()
    ensures p.catId !in old(db.cats) ==> r == Err(404, "Cat not found")
    ensures p.catId in old(db.cats) && old(db.cats)[p.catId].addingUser != Some(caller) ==>
      r == Err(403, NotAdder)
    ensures p.catId in old(db.cats) && old(db.cats)[p.catId].addingUser == Some(caller) && OnStreet(old(db.pins), p.catId) ==>
      r == Err(403, CatOnStreet)
    ensures p.catId in old(db.cats) && old(db.cats)[p.catId].addingUser == Some(caller) && !OnStreet(old(db.pins), p.catId)
            && Listed(old(db.listings), p.catId) ==>
      r == Err(400, AlreadyListed)
    ensures r.Err? ==> db.Snapshot() == old(db.Snapshot())
    ensures p.catId in old(db.cats) && old(db.cats)[p.catId].addingUser == Some(caller)
            && !OnStreet(old(db.pins), p.catId) && !Listed(old(db.listings), p.catId) ==>
      var id := old(db.nextListingId);
      r == Ok(AdoptionListing(id, p.vaccinated, p.sterilized, DefaultIsActive, p.notes, now, caller, p.catId))
      && db.Snapshot() == old(db.Snapshot()).(listings := old(db.listings)[id := r.value], nextListingId := id + 1)
  {
    if p.catId !in db.cats {
      return Err(404, "Cat not found");
    }
    if db.cats[p.catId].addingUser != Some(caller) {
      return Err(403, NotAdder);
    }
    if exists k :: k in db.pins && db.pins[k].catId == p.catId {
      return Err(403, CatOnStreet);
    }
    if exists k :: k in db.listings && db.listings[k].catId == p.catId {
      return Err(400, AlreadyListed);
    }
    var listing := AdoptionListing(db.nextListingId, p.vaccinated, p.sterilized, DefaultIsActive, p.notes, now, caller, p.catId);
    db.InsertListing(listing);
    r := Ok(listing);
  }

  /** GET /adoptions/: every listing, newest id first. */
  method ListListings(db: Database) returns (rows: seq<AdoptionListing>)
    requires db.Valid()
    ensures Selects(rows, db.listings, (l: AdoptionListing) => l.listingId, (l: AdoptionListing) => true)
    ensures Descending(rows, (l: AdoptionListing) => l.listingId)
  {
    rows := Select(db.listings, (l: AdoptionListing) => l.listingId, (l: AdoptionListing) => true,
                   (l: AdoptionListing) => l.listingId);
  }

  /** PUT /adoptions/{id}: the uploader writes the present fields. */
  method UpdateListing(db: Database, caller: int, listingId: int, u: ListingUpdate) returns (r: Response<AdoptionListing>)
    requires db.Valid()
    modifies db
    ensures db.Valid()
    ensures listingId !in old(db.listings) ==> r == Err(404, "Adoption listing not found")
    ensures listingId in old(db.listings) && old(db.listings)[listingId].uploaderId != caller ==>
      r == Err(403, NotUploaderUpdate)
    ensures listingId in old(db.listings) && old(db.listings)[listingId].uploaderId == caller ==> r.Ok?
    ensures r.Err? ==> db.Snapshot() == old(db.Snapshot())
    ensures r.Ok? ==>
      listingId in old(db.listings) && old(db.listings)[listingId].uploaderId == caller
      && r.value == Patched(old(db.listings)[listingId], u)
      && db.Snapshot() == old(db.Snapshot()).(listings := old(db.listings)[listingId := r.value])
  {
    if listingId !in db.listings {
      return Err(404, "Adoption listing not found");
    }
    var listing := db.listings[listingId];
    if listing.uploaderId != caller {
      return Err(403, NotUploaderUpdate);
    }
    var updated := Patched(listing, u);
    db.UpdateListing(updated);
    r := Ok(updated);
  }

  /** DELETE /adoptions/{id}: the uploader withdraws the listing; its requests go with it. */
  method DeleteListing(db: Database, caller: int, listingId: int) returns (r: Response<()>)
    requires db.Valid()
    modifies db
    ensures db.Valid()
    ensures listingId !in old(db.listings) ==> r == Err(404, "Adoption listing not found")
    ensures listingId in old(db.listings) && old(db.listings)[listingId].uploaderId != caller ==>
      r == Err(403, NotUploaderDelete)
    ensures listingId in old(db.listings) && old(db.listings)[listingId].uploaderId == caller ==> r.Ok?
    ensures r.Err? ==> db.Snapshot() == old(db.Snapshot())
    ensures r.Ok? ==>
      listingId in old(db.listings) && old(db.listings)[listingId].uploaderId == caller
      && db.Snapshot() == old(db.Snapshot()).(listings := old(db.listings) - {listingId},
                                              requests := RequestsWithoutListing(old(db.requests), listingId))
  {
    if listingId !in db.listings {
      return Err(404, "Adoption listing not found");
    }
    if db.listings[listingId].uploaderId != caller {
      return Err(403, NotUploaderDelete);
    }
    db.DeleteListing(listingId);
    r := Ok(());
  }
}

=== FILE: lists.dfy ===
/**
 * JavaScript's `Array.prototype.filter` and `Array.prototype.some` on
 * immutable sequences, shared by the client's list transforms.
 */
module Lists {

  /** `xs.filter(keep)`: the elements that pass, in their order. */
  function Filter<T>(xs: seq<T>, keep: T -> bool): (r: seq<T>)
    ensures |r| <= |xs|
    ensures forall i :: 0 <= i < |r| ==> r[i] in xs && keep(r[i])
    ensures forall i :: 0 <= i < |xs| && keep(xs[i]) ==> xs[i] in r
  {
    if xs == [] then []
    else if keep(xs[0]) then [xs[0]] + Filter(xs[1..], keep)
    else Filter(xs[1..], keep)
  }

  /** `xs.some(test)`. */
  predicate Some<T>(xs: seq<T>, test: T -> bool) {
    exists i | 0 <= i < |xs| :: test(xs[i])
  }

  /**
   * Filtering distributes over concatenation, so the kept elements keep
   * their relative order.
   */
  lemma {:induction false} FilterAppend<T>(a: seq<T>, b: seq<T>, keep: T -> bool)
    ensures Filter(a + b, keep) == Filter(a, keep) + Filter(b, keep)
  {
    if a == [] {
      assert a + b == b;
    } else {
      assert (a + b)[1..] == a[1..] + b;
      FilterAppend(a[1..], b, keep);
    }
  }

  /** A filter that keeps everything is the identity. */
  lemma {:induction false} FilterKeepsAll<T>(xs: seq<T>, keep: T -> bool)
    requires forall i :: 0 <= i < |xs| ==> keep(xs[i])
    ensures Filter(xs, keep) == xs
  {
    if xs != [] {
      assert forall i :: 0 <= i < |xs[1..]| ==> xs[1..][i] == xs[i + 1];
      FilterKeepsAll(xs[1..], keep);
    }
  }

  /** Filtering twice by the same test is filtering once. */
  lemma FilterIdempotent<T>(xs: seq<T>, keep: T -> bool)
    ensures Filter(Filter(xs, keep), keep) == Filter(xs, keep)
  {
    FilterKeepsAll(Filter(xs, keep), keep);
  }

  /** How many elements pass the test. */
  function Count<T>(xs: seq<T>, test: T -> bool): (n: nat)
    ensures n == |Filter(xs, test)|
  {
    if xs == [] then 0
    else (if test(xs[0]) then 1 else 0) + Count(xs[1..], test)
  }

  /**
   * When every element passes exactly one of three tests, the three counts
   * add up to the length.
   */
  lemma {:induction false} CountPartition<T>(xs: seq<T>, a: T -> bool, b: T -> bool, c: T -> bool)
    requires forall i :: 0 <= i < |xs| ==> (if a(xs[i]) then 1 else 0) + (if b(xs[i]) then 1 else 0) + (if c(xs[i]) then 1 else 0) == 1
    ensures Count(xs, a) + Count(xs, b) + Count(xs, c) == |xs|
  {
    if xs != [] {
      assert forall i :: 0 <= i < |xs[1..]| ==> xs[1..][i] == xs[i + 1];
      CountPartition(xs[1..], a, b, c);
    }
  }
}

=== FILE: map_context.dfy ===
/**
 * The map selection store of safepaws-frontend/src/contexts/MapContext.js:
 * three state cells shared by the map page and the layout — the selected
 * pin, a refresh counter the map page watches, and the location of a cat
 * being added.
 */
module MapContext {
  import opened Common

  /** A pin as the client holds it. */
  datatype MapPin = MapPin(locationId: int, catId: int, name: Option<string>, condition: Option<string>,
                           addingUserId: Option<int>, coord: Coord)

  class MapStore {
    var selectedPin: Option<MapPin>
    var refreshTrigger: nat
    var newCatLocation: Option<Coord>

    /** `MapProvider`'s initial state. */
    constructor()
      ensures selectedPin == None && refreshTrigger == 0 && newCatLocation == None
    {
      selectedPin := None;
      refreshTrigger := 0;
      newCatLocation := None;
    }

    /** `triggerRefresh`: one more refresh; the selection and the new-cat location stay. */
    method TriggerRefresh()
      modifies this
      ensures refreshTrigger == old(refreshTrigger) + 1
      ensures selectedPin == old(selectedPin) && newCatLocation == old(newCatLocation)
    {
      refreshTrigger := refreshTrigger + 1;
    }

    /** `setSelectedPin`. */
    method SetSelectedPin(p: Option<MapPin>)
      modifies this
      ensures selectedPin == p
      ensures refreshTrigger == old(refreshTrigger) && newCatLocation == old(newCatLocation)
    {
      selectedPin := p;
    }

    /** `setNewCatLocation`. */
    method SetNewCatLocation(c: Option<Coord>)
      modifies this
      ensures newCatLocation == c
      ensures selectedPin == old(selectedPin) && refreshTrigger == old(refreshTrigger)
    {
      newCatLocation := c;
    }
  }
}

=== FILE: map_page.dfy ===
/**
 * The decision logic of safepaws-frontend/src/pages/MapPage.js: the
 * search over the fetched pins, keeping the selected pin in step with the
 * pins on show, the marker colour of a condition, and what a double-click
 * on the map and a click on a marker do to the shared map store.
 */
module MapPage {
  import opened Common
  import opened Text
  import opened Lists
  import opened Models
  import opened MapContext

  /** The name the search looks in: the pin's name lower-cased, or "" for a pin without one. */
  function SearchName(p: MapPin): string {
    if Truthy(p.name) then Lower(p.name.value) else ""
  }

  /** The search effect: a blank query shows every pin, any other keeps the pins whose name contains it. */
  function SearchResults(all: seq<MapPin>, query: string): (r: seq<MapPin>)
    ensures |r| <= |all| && forall i :: 0 <= i < |r| ==> r[i] in all
    ensures IsBlank(query) ==> r == all
  {
    var needle := JsTrim(Lower(query));
    if IsBlank(query) then all else Filter(all, (p: MapPin) => Contains(SearchName(p), needle))
  }

  /**
   * A blank query keeps every pin in order; otherwise a pin is kept iff its
   * lower-cased name contains the trimmed, lower-cased query, so a pin
   * without a name is never kept.
   */
  lemma SearchMeaning(all: seq<MapPin>, query: string)
    ensures IsBlank(query) ==> SearchResults(all, query) == all
    ensures !IsBlank(query) ==> forall i :: 0 <= i < |all| ==>
      (all[i] in SearchResults(all, query) <==> Contains(SearchName(all[i]), JsTrim(Lower(query))))
    ensures !IsBlank(query) ==> forall i :: 0 <= i < |all| && !Truthy(all[i].name) ==>
      all[i] !in SearchResults(all, query)
  {
    if !IsBlank(query) {
      CaseKeepsBlank(query);
      NothingInEmpty(JsTrim(Lower(query)));
    }
  }

  /** The search keeps the pins' order: searching a joined list is joining the searches. */
  lemma SearchKeepsOrder(a: seq<MapPin>, b: seq<MapPin>, query: string)
    ensures SearchResults(a + b, query) == SearchResults(a, query) + SearchResults(b, query)
  {
    FilterAppend(a, b, (p: MapPin) => Contains(SearchName(p), JsTrim(Lower(query))));
  }

  /** The query's letter case does not matter. */
  lemma SearchIgnoresCase(all: seq<MapPin>, query: string)
    ensures SearchResults(all, Upper(query)) == SearchResults(all, query)
  {
    CaseKeepsBlank(query);
    CaseMappingsAbsorb(query);
  }

  /** `pins.find(p => p.location_id === id)`: the first pin with that location id. */
  function FindPin(pins: seq<MapPin>, id: int): (r: Option<MapPin>)
    ensures r.None? <==> forall i :: 0 <= i < |pins| ==> pins[i].locationId != id
    ensures r.Some? ==> exists i :: 0 <= i < |pins| && pins[i] == r.value && r.value.locationId == id
                          && forall j :: 0 <= j < i ==> pins[j].locationId != id
  {
    if pins == [] then None
    else if pins[0].locationId == id then Some(pins[0])
    else
      var r := FindPin(pins[1..], id);
      if r.Some? then
        var i :| 0 <= i < |pins[1..]| && pins[1..][i] == r.value && r.value.locationId == id
                 && forall j :: 0 <= j < i ==> pins[1..][j].locationId != id;
        assert pins[i + 1] == r.value;
        r
      else r
  }

  /**
   * The selection-sync effect: a selection still on show is replaced by its
   * fresh record; one no longer on show is dropped, unless no pin is on show
   * at all, in which case it is kept.
   */
  function SyncedSelection(selected: Option<MapPin>, pins: seq<MapPin>): (r: Option<MapPin>)
    ensures selected.None? ==> r.None?
    ensures r.Some? ==> r == selected || (r.value in pins && r.value.locationId == selected.value.locationId)
  {
    if selected.None? then None
    else
      var found := FindPin(pins, selected.value.locationId);
      if found.Some? then found
      else if |pins| > 0 then None
      else selected
  }

  /**
   * What the sync effect decides: nothing is selected out of nothing; the
   * fresh record keeps the selected location; a selection survives a
   * non-empty list only if its location is on show; an empty list keeps it.
   */
  lemma SyncMeaning(selected: Option<MapPin>, pins: seq<MapPin>)
    ensures selected.None? ==> SyncedSelection(selected, pins).None?
    ensures selected.Some? && (exists i :: 0 <= i < |pins| && pins[i].locationId == selected.value.locationId) ==>
      var r := SyncedSelection(selected, pins);
      r.Some? && r.value in pins && r.value.locationId == selected.value.locationId
    ensures |pins| > 0 && SyncedSelection(selected, pins).Some? ==>
      SyncedSelection(selected, pins).value in pins
    ensures pins == [] ==> SyncedSelection(selected, pins) == selected
  {
  }

  /**
   * The effect runs again after it sets the selection; the second run
   * changes nothing, so the page settles after one update.
   */
  lemma SyncSettles(selected: Option<MapPin>, pins: seq<MapPin>)
    ensures SyncedSelection(SyncedSelection(selected, pins), pins) == SyncedSelection(selected, pins)
  {
  }

  /**
   * A selected pin that the search hides is dropped as soon as the search
   * shows any pin.
   */
  lemma SearchDropsHiddenSelection(all: seq<MapPin>, query: string, selected: MapPin)
    requires !IsBlank(query) && SearchResults(all, query) != []
    requires forall i :: 0 <= i < |all| && all[i].locationId == selected.locationId ==>
      !Contains(SearchName(all[i]), JsTrim(Lower(query)))
    ensures SyncedSelection(Some(selected), SearchResults(all, query)) == None
  {
    var shown := SearchResults(all, query);
    forall i | 0 <= i < |shown| ensures shown[i].locationId != selected.locationId {
      assert Contains(SearchName(shown[i]), JsTrim(Lower(query)));
    }
  }

  /** The sync effect applied to the map store; only the selection changes. */
  method SyncSelection(store: MapStore, pins: seq<MapPin>)
    modifies store
    ensures store.selectedPin == SyncedSelection(old(store.selectedPin), pins)
    ensures store.refreshTrigger == old(store.refreshTrigger) && store.newCatLocation == old(store.newCatLocation)
  {
    if store.selectedPin.Some? {
      var updated := FindPin(pins, store.selectedPin.value.locationId);
      if updated.Some? {
        store.SetSelectedPin(updated);
      } else if |pins| > 0 {
        store.SetSelectedPin(None);
      }
    }
  }

  const Green := "#10B981"
  const Red := "#EF4444"
  const Blue := "#3B82F6"
  const Grey := "#9CA3AF"

  /** `getColorForCondition`: the marker colour of a pin's condition text. */
  function ColorForCondition(c: Option<string>): (r: string)
    ensures r in {Green, Red, Blue, Grey}
    ensures !Truthy(c) ==> r == Grey
  {
    if !Truthy(c) then Grey
    else
      var u := Upper(c.value);
      if u == "NORMAL" then Green
      else if u == "URGENT" then Red
      else if u == "AT_VET" || u == "AT VET" then Blue
      else Grey
  }

  /**
   * Green is NORMAL, red URGENT and blue either spelling of at-vet, in any
   * letter case; everything else, a missing condition included, is grey.
   */
  lemma ColorMeaning(c: Option<string>)
    ensures ColorForCondition(c) == Green <==> Truthy(c) && Upper(c.value) == "NORMAL"
    ensures ColorForCondition(c) == Red <==> Truthy(c) && Upper(c.value) == "URGENT"
    ensures ColorForCondition(c) == Blue <==> Truthy(c) && (Upper(c.value) == "AT_VET" || Upper(c.value) == "AT VET")
    ensures ColorForCondition(c) in {Green, Red, Blue, Grey}
    ensures c.Some? ==> ColorForCondition(Some(Upper(c.value))) == ColorForCondition(c)
  {
    if c.Some? {
      CaseMappingsAbsorb(c.value);
    }
  }

  /** The colours of the six conditions the server stores. */
  lemma StoredConditionColors(c: Condition)
    ensures ColorForCondition(Some(ConditionWire(c))) ==
      match c
      case Normal => Green
      case Urgent => Red
      case AtVet => Blue
      case _ => Grey
  {
    var w := ConditionWire(c);
    assert forall i :: 0 <= i < |w| ==> !('a' <= w[i] <= 'z');
    assert Upper(w) == w;
  }

  /** The unmount cleanup: leaving the map page drops the selected pin; the other cells stay. */
  method Unmount(store: MapStore)
    modifies store
    ensures store.selectedPin == None
    ensures store.refreshTrigger == old(store.refreshTrigger) && store.newCatLocation == old(store.newCatLocation)
  {
    store.SetSelectedPin(None);
  }

  /** A double-click on the map starts adding a cat there and drops the selection. */
  method OnMapDoubleClick(store: MapStore, at: Coord)
    modifies store
    ensures store.newCatLocation == Some(at) && store.selectedPin == None
    ensures store.refreshTrigger == old(store.refreshTrigger)
  {
    store.SetNewCatLocation(Some(at));
    store.SetSelectedPin(None);
  }

  /** A click on a marker selects its pin and abandons a cat being added. */
  method OnMarkerClick(store: MapStore, pin: MapPin)
    modifies store
    ensures store.selectedPin == Some(pin) && store.newCatLocation == None
    ensures store.refreshTrigger == old(store.refreshTrigger)
  {
    store.SetSelectedPin(Some(pin));
    if store.newCatLocation.Some? {
      store.SetNewCatLocation(None);
    }
  }
}

=== FILE: models.dfy ===
/**
 * The tables of the backend (wasn/app/db/models.py): one record type per
 * table, the enumerated columns as closed datatypes with their exact wire
 * strings, and the column defaults.
 */
module Models {
  import opened Common
  import Text

  /** `condition_flag_enum`. The vet value is spelled with a space on the wire. */
  datatype Condition = Normal | AtVet | Urgent | UnknownCondition | Adopted | Passed

  function ConditionWire(c: Condition): string {
    match c
    case Normal => "NORMAL"
    case AtVet => "AT VET"
    case Urgent => "URGENT"
    case UnknownCondition => "UNKNOWN"
    case Adopted => "ADOPTED"
    case Passed => "PASSED"
  }

  /** The column accepts exactly the six wire strings, compared as they are. */
  function ParseCondition(s: string): (r: Option<Condition>)
    ensures r.Some? ==> ConditionWire(r.value) == s
  {
    if s == "NORMAL" then Some(Normal)
    else if s == "AT VET" then Some(AtVet)
    else if s == "URGENT" then Some(Urgent)
    else if s == "UNKNOWN" then Some(UnknownCondition)
    else if s == "ADOPTED" then Some(Adopted)
    else if s == "PASSED" then Some(Passed)
    else None
  }

  /** A new pin's condition when none is given. */
  const DefaultCondition: Condition := UnknownCondition

  lemma ConditionRoundTrip(c: Condition)
    ensures ParseCondition(ConditionWire(c)) == Some(c)
  {
  }

  /** The underscore spelling some client helpers accept is not a column value. */
  lemma UnderscoreVetIsNotAWireValue()
    ensures ParseCondition("AT_VET") == None
  {
  }

  /** `gender_enum`. */
  datatype Gender = Male | Female | UnknownGender

  function GenderWire(g: Gender): string {
    match g
    case Male => "M"
    case Female => "F"
    case UnknownGender => "UNKNOWN"
  }

  function ParseGender(s: string): (r: Option<Gender>)
    ensures r.Some? ==> GenderWire(r.value) == s
  {
    if s == "M" then Some(Male)
    else if s == "F" then Some(Female)
    else if s == "UNKNOWN" then Some(UnknownGender)
    else None
  }

  const DefaultGender: Gender := UnknownGender

  lemma GenderRoundTrip(g: Gender)
    ensures ParseGender(GenderWire(g)) == Some(g)
  {
  }

  /**
   * Text compared inside the database. The engine URL names only the
   * utf8mb4 character set (wasn/app/db/session.py:24-27), whose default
   * collation ignores letter case: the model folds the ASCII letters.
   */
  predicate CollationEqual(a: string, b: string) { CollationKey(a) == CollationKey(b) }

  /** What the collation compares: the text with its ASCII letters in lower case. */
  function CollationKey(s: string): (r: string)
    ensures |r| == |s|
  {
    if s == [] then [] else [Text.LowerChar(s[0])] + CollationKey(s[1..])
  }

  /** The key is the text's `toLowerCase()`, so upper-casing first changes nothing. */
  lemma {:induction false} CollationKeyIsLower(s: string)
    ensures CollationKey(s) == Text.Lower(s)
    ensures CollationKey(Text.Upper(s)) == CollationKey(s)
  {
    if s != [] {
      CollationKeyIsLower(s[1..]);
      assert Text.Lower(s) == [Text.LowerChar(s[0])] + Text.Lower(s[1..]);
      assert Text.Upper(s)[1..] == Text.Upper(s[1..]);
    }
    Text.CaseMappingsAbsorb(s);
  }

  /**
   * The `gender_enum` member a column stores for a value: the engine picks
   * the member equal to it under the collation, so "m" is stored as "M".
   */
  function StoredGender(s: string): (r: Option<Gender>)
    ensures r.Some? ==> CollationEqual(s, GenderWire(r.value))
    ensures r.None? <==> forall g: Gender :: !CollationEqual(s, GenderWire(g))
  {
    if CollationEqual(s, "M") then Some(Male)
    else if CollationEqual(s, "F") then Some(Female)
    else if CollationEqual(s, "UNKNOWN") then Some(UnknownGender)
    else None
  }

  /**
   * The stored member agrees with the exact reading wherever that reading
   * succeeds, and ignores the case of the value: "m" is stored as "M".
   */
  lemma {:induction false} StoredGenderIgnoresCase(s: string)
    ensures ParseGender(s).Some? ==> StoredGender(s) == ParseGender(s)
    ensures StoredGender(Text.Upper(s)) == StoredGender(s)
    ensures StoredGender("m") == Some(Male) && ParseGender("m") == None
  {
    GenderKeys();
    StoredGenderFollowsKey(Text.Upper(s), s);
  }

  /** Values with the same collation key are stored as the same member. */
  lemma {:induction false} StoredGenderFollowsKey(a: string, b: string)
    requires CollationKey(a) == CollationKey(b) || a == Text.Upper(b)
    ensures StoredGender(a) == StoredGender(b)
  {
    if a == Text.Upper(b) {
      CollationKeyIsLower(b);
    }
  }

  /** The keys of the gender members. */
  lemma GenderKeys()
    ensures CollationKey("M") == CollationKey("m") == "m"
    ensures CollationKey("F") == "f" && CollationKey("UNKNOWN") == "unknown"
  {
    assert CollationKey("M") == [Text.LowerChar('M')] + CollationKey([]);
    assert CollationKey("m") == [Text.LowerChar('m')] + CollationKey([]);
    assert CollationKey("F") == [Text.LowerChar('F')] + CollationKey([]);
    assert CollationKey("N") == "n";
    assert CollationKey("WN") == "wn";
    assert CollationKey("OWN") == "own";
    assert CollationKey("NOWN") == "nown";
    assert CollationKey("KNOWN") == "known";
    assert CollationKey("NKNOWN") == "nknown";
  }

  /** `experience_level` (and `ExperienceEnum` of the request schema). */
  datatype Experience = NoExperience | Minimal | FairlyExperienced | GoodWithCats

  function ExperienceWire(e: Experience): string {
    match e
    case NoExperience => "None"
    case Minimal => "Minimal"
    case FairlyExperienced => "Fairly experienced"
    case GoodWithCats => "Good with cats"
  }

  function ParseExperience(s: string): (r: Option<Experience>)
    ensures r.Some? ==> ExperienceWire(r.value) == s
  {
    if s == "None" then Some(NoExperience)
    else if s == "Minimal" then Some(Minimal)
    else if s == "Fairly experienced" then Some(FairlyExperienced)
    else if s == "Good with cats" then Some(GoodWithCats)
    else None
  }

  const DefaultExperience: Experience := NoExperience

  const ExperienceValues: seq<Experience> := [NoExperience, Minimal, FairlyExperienced, GoodWithCats]

  /** `ExperienceEnum` has exactly four members, with four distinct wire strings. */
  lemma ExperienceEnumerated(e: Experience)
    ensures e in ExperienceValues && ParseExperience(ExperienceWire(e)) == Some(e)
    ensures forall i, j :: 0 <= i < j < |ExperienceValues| ==> ExperienceWire(ExperienceValues[i]) != ExperienceWire(ExperienceValues[j])
  {
  }

  /** `request_status_enum` (and `StatusEnum`). */
  datatype RequestStatus = Pending | Accepted | Rejected

  function StatusWire(s: RequestStatus): string {
    match s
    case Pending => "Pending"
    case Accepted => "Accepted"
    case Rejected => "Rejected"
  }

  function ParseStatus(s: string): (r: Option<RequestStatus>)
    ensures r.Some? ==> StatusWire(r.value) == s
  {
    if s == "Pending" then Some(Pending)
    else if s == "Accepted" then Some(Accepted)
    else if s == "Rejected" then Some(Rejected)
    else None
  }

  const DefaultStatus: RequestStatus := Pending

  const StatusValues: seq<RequestStatus> := [Pending, Accepted, Rejected]

  /** `StatusEnum` has exactly three members, with three distinct wire strings. */
  lemma StatusEnumerated(s: RequestStatus)
    ensures s in StatusValues && ParseStatus(StatusWire(s)) == Some(s)
    ensures forall i, j :: 0 <= i < j < |StatusValues| ==> StatusWire(StatusValues[i]) != StatusWire(StatusValues[j])
  {
  }

  /** `users`. Timestamps are naturals. */
  datatype User = User(
    userId: int,
    username: string,
    fullName: Option<string>,
    passwordHash: string,
    email: Option<string>,
    phone: Option<string>,
    createdAt: nat,
    profilePictureUrl: Option<string>)

  /** `cats`. `addingUser` is nullable (`ON DELETE SET NULL`). */
  datatype Cat = Cat(
    catId: int,
    name: Option<string>,
    gender: Gender,
    age: Option<int>,
    notes: Option<string>,
    imageUrl: Option<string>,
    addingUser: Option<int>)

  /** `cat_locations`: a map pin. */
  datatype CatLocation = CatLocation(
    locationId: int,
    catId: int,
    coord: Coord,
    condition: Condition,
    createdAt: nat)

  /** Column defaults of `adoption_listings`, `adoption_requests` and `notifications`. */
  const DefaultVaccinated := false
  const DefaultSterilized := false
  const DefaultIsActive := true
  const DefaultHasOtherPets := false
  const DefaultIsRead := false

  /** `adoption_listings`. */
  datatype AdoptionListing = AdoptionListing(
    listingId: int,
    vaccinated: bool,
    sterilized: bool,
    isActive: bool,
    notes: Option<string>,
    createdAt: nat,
    uploaderId: int,
    catId: int)

  /** `adoption_requests`. */
  datatype AdoptionRequest = AdoptionRequest(
    requestId: int,
    listingId: int,
    senderId: int,
    receiverId: int,
    city: string,
    age: int,
    fullName: string,
    reasonForAdoption: string,
    livingSituation: string,
    experienceLevel: Experience,
    hasOtherPets: bool,
    status: RequestStatus,
    submittedAt: nat)

  /** `notifications`. */
  datatype Notification = Notification(
    notificationId: int,
    message: string,
    isRead: bool,
    createdAt: nat,
    userId: int)

  /**
   * `activity_logs`, with the columns the activity router reads (the table's
   * declaration is not part of this model).
   */
  datatype ActivityLog = ActivityLog(
    logId: int,
    catId: int,
    userId: int,
    description: string,
    activityTime: nat)

  /**
   * The widths of the columns a request can overflow. The server runs MySQL
   * in strict mode, which refuses a value too wide for its column instead of
   * truncating it: an `Integer` column holds a signed 32-bit value, a
   * `String(n)` column at most n characters.
   */
  const IntegerMin := -0x8000_0000
  const IntegerMax := 0x7FFF_FFFF
  const CatNameWidth := 80
  const ImageUrlWidth := 255
  const EmailWidth := 100
  const PasswordHashWidth := 255
  const CityWidth := 100
  const FullNameWidth := 100

  /** An absent value, or one an `Integer` column holds. */
  predicate FitsInteger(n: Option<int>) {
    n.None? || IntegerMin <= n.value <= IntegerMax
  }

  /** An absent value, or one a `String(width)` column holds. */
  predicate FitsString(s: Option<string>, width: nat) {
    s.None? || |s.value| <= width
  }
}

=== FILE: notifications_api.dfy ===
/**
 * The notification router, wasn/app/api/notifications.py: a user reads
 * their own notifications and marks them read. The read flag only ever
 * goes from unread to read.
 */
module NotificationsApi {
  import opened Common
  import opened Models
  import opened Db
  import opened Query

  /** The ids of `user`'s unread notifications. */
  ghost function UnreadOf(ns: map<int, Notification>, user: int): set<int> {
    set k | k in ns && ns[k].userId == user && !ns[k].isRead
  }

  /** No notification that was read has become unread, and none has gone. */
  ghost predicate ReadStaysRead(before: map<int, Notification>, after: map<int, Notification>) {
    forall k :: k in before ==> k in after && (before[k].isRead ==> after[k].isRead)
  }

  /** `UPDATE notifications SET is_read = true WHERE user_id = user AND is_read = false`. */
  function ReadAll(ns: map<int, Notification>, user: int): (r: map<int, Notification>)
    ensures r.Keys == ns.Keys
  {
    map k | k in ns :: if ns[k].userId == user && !ns[k].isRead then ns[k].(isRead := true) else ns[k]
  }

  /**
   * Marking all read leaves the user nothing unread, touches no other
   * user's notification and no other column, unreads nothing, and a second
   * call changes nothing.
   */
  lemma ReadAllProperties(ns: map<int, Notification>, user: int)
    ensures UnreadOf(ReadAll(ns, user), user) == {}
    ensures forall k :: k in ns && ns[k].userId != user ==> ReadAll(ns, user)[k] == ns[k]
    ensures forall k :: k in ns ==> ReadAll(ns, user)[k] == ns[k].(isRead := ReadAll(ns, user)[k].isRead)
    ensures ReadStaysRead(ns, ReadAll(ns, user))
    ensures ReadAll(ReadAll(ns, user), user) == ReadAll(ns, user)
  {
    var r := ReadAll(ns, user);
    assert forall k :: k !in UnreadOf(r, user);
  }

  /** GET /notifications/: the caller's notifications, newest first. */
  method ListNotifications(db: Database, caller: int) returns (rows: seq<Notification>)
    requires db.Valid()
    ensures Selects(rows, db.notifications, (n: Notification) => n.notificationId, (n: Notification) => n.userId == caller)
    ensures Descending(rows, (n: Notification) => n.createdAt)
  {
    rows := Select(db.notifications, (n: Notification) => n.notificationId, (n: Notification) => n.userId == caller,
                   (n: Notification) => n.createdAt);
  }

  /** GET /notifications/unread-count: how many of the caller's notifications are unread. */
  method UnreadCount(db: Database, caller: int) returns (count: nat)
    requires db.Valid()
    ensures count == |UnreadOf(db.notifications, caller)|
  {
    var unread := (n: Notification) => n.userId == caller && !n.isRead;
    var rows := Select(db.notifications, (n: Notification) => n.notificationId, unread, (n: Notification) => n.createdAt);
    SelectsCount(rows, db.notifications, (n: Notification) => n.notificationId, unread);
    assert Matching(db.notifications, unread) == UnreadOf(db.notifications, caller);
    count := |rows|;
  }

  /** POST /notifications/mark-all-read. */
  method MarkAllRead(db: Database, caller: int)
    requires db.Valid()
    modifies db
    ensures db.Valid()
    ensures db.Snapshot() == old(db.Snapshot()).(notifications := ReadAll(old(db.notifications), caller))
    ensures UnreadOf(db.notifications, caller) == {}
    ensures ReadStaysRead(old(db.notifications), db.notifications)
  {
    var ns := ReadAll(db.notifications, caller);
    ReadAllProperties(db.notifications, caller);
    db.SetNotifications(ns);
  }

  /**
   * POST /notifications/{id}/read: another user's notification is as good
   * as missing; an unread one becomes read, a read one is left alone.
   */
  method MarkRead(db: Database, caller: int, notificationId: int) returns (r: Response<()>)
    requires db.Valid()
    modifies db
    ensures db.Valid()
    ensures !(notificationId in old(db.notifications) && old(db.notifications)[notificationId].userId == caller) <==>
      r == Err(404, "Notification not found")
    ensures notificationId in old(db.notifications) && old(db.notifications)[notificationId].userId == caller ==> r.Ok?
    ensures r.Err? || old(db.notifications)[notificationId].isRead ==> db.Snapshot() == old(db.Snapshot())
    ensures r.Ok? ==>
      db.Snapshot() == old(db.Snapshot()).(notifications :=
        old(db.notifications)[notificationId := old(db.notifications)[notificationId].(isRead := true)])
    ensures ReadStaysRead(old(db.notifications), db.notifications)
  {
    if !(notificationId in db.notifications && db.notifications[notificationId].userId == caller) {
      return Err(404, "Notification not found");
    }
    var n := db.notifications[notificationId];
    if !n.isRead {
      db.SetNotifications(db.notifications[notificationId := n.(isRead := true)]);
    }
    r := Ok(());
  }
}

=== FILE: notifications_page.dfy ===
/**
 * The notifications page, safepaws-frontend/src/pages/NotificationsPage.js:
 * the incoming-request filter and counts, the cat name shown for a
 * request, the read filter, the displayed message text, the local patch
 * after marking a notification read, and the contact-availability note.
 */
module NotificationsPage {
  import opened Common
  import opened Text
  import opened Lists
  import opened Models
  import opened ClientRecords
  import RequestsApi
  import Db

  /** The request list under the status filter: "All" keeps everything. */
  function FilteredRequests(requests: seq<RequestView>, filter: string): (r: seq<RequestView>)
    ensures filter == "All" ==> r == requests
    ensures forall i :: 0 <= i < |r| ==> r[i] in requests && (filter != "All" ==> r[i].status == filter)
  {
    if filter == "All" then requests else Filter(requests, (r: RequestView) => r.status == filter)
  }

  /**
   * "All" leaves the list as it is; any other filter keeps exactly the
   * requests with that status, in their order.
   */
  lemma FilteredRequestsMeaning(requests: seq<RequestView>, filter: string, more: seq<RequestView>)
    ensures filter == "All" ==> FilteredRequests(requests, filter) == requests
    ensures filter != "All" ==>
      (forall i :: 0 <= i < |FilteredRequests(requests, filter)| ==> FilteredRequests(requests, filter)[i].status == filter)
      && (forall i :: 0 <= i < |requests| && requests[i].status == filter ==> requests[i] in FilteredRequests(requests, filter))
      && FilteredRequests(requests + more, filter) == FilteredRequests(requests, filter) + FilteredRequests(more, filter)
  {
    if filter != "All" {
      FilterAppend(requests, more, (r: RequestView) => r.status == filter);
    }
  }

  /** The per-status badge counts and the total. */
  function StatusCount(requests: seq<RequestView>, status: string): (n: nat)
    ensures n <= |requests|
    ensures n == 0 <==> forall i :: 0 <= i < |requests| ==> requests[i].status != status
  {
    var keep := (r: RequestView) => r.status == status;
    assert Filter(requests, keep) != [] ==> Filter(requests, keep)[0] in requests;
    Count(requests, keep)
  }

  /**
   * When every request carries one of the three wire statuses, the three
   * badges add up to the total.
   */
  lemma CountsAddUp(requests: seq<RequestView>)
    requires forall i :: 0 <= i < |requests| ==> ParseStatus(requests[i].status).Some?
    ensures StatusCount(requests, "Pending") + StatusCount(requests, "Accepted") + StatusCount(requests, "Rejected")
            == |requests|
  {
    forall i | 0 <= i < |requests| ensures requests[i].status in ["Pending", "Accepted", "Rejected"] {
      assert StatusWire(ParseStatus(requests[i].status).value) == requests[i].status;
    }
    CountPartition(requests, (r: RequestView) => r.status == "Pending", (r: RequestView) => r.status == "Accepted",
                   (r: RequestView) => r.status == "Rejected");
  }

  /** `listings.find(l => l.listing_id === id)`: the first listing with that id. */
  function FindListing(listings: seq<ListingView>, listingId: int): (r: Option<ListingView>)
    ensures r.None? <==> forall i :: 0 <= i < |listings| ==> listings[i].listingId != listingId
    ensures r.Some? ==> r.value in listings && r.value.listingId == listingId
    ensures r.Some? ==> exists i :: 0 <= i < |listings| && listings[i] == r.value
                                  && forall j :: 0 <= j < i ==> listings[j].listingId != listingId
  {
    if listings == [] then None
    else if listings[0].listingId == listingId then Some(listings[0])
    else FindListing(listings[1..], listingId)
  }

  /** `getCatName`: the first matching listing's non-empty name, else "Unknown Cat". */
  function CatName(listings: seq<ListingView>, request: RequestView): (r: string)
    ensures r != []
    ensures r != "Unknown Cat" ==> exists l :: l in listings && l.listingId == request.listingId && l.name == Some(r)
    ensures var l := FindListing(listings, request.listingId);
      (l.Some? && Truthy(l.value.name) ==> r == l.value.name.value)
      && (l.None? || !Truthy(l.value.name) ==> r == "Unknown Cat")
  {
    var l := FindListing(listings, request.listingId);
    if l.Some? && Truthy(l.value.name) then l.value.name.value else "Unknown Cat"
  }

  /** The notification list with "hide read" on or off. */
  function Displayed(ns: seq<NotificationView>, hideRead: bool): (r: seq<NotificationView>)
    ensures !hideRead ==> r == ns
    ensures hideRead ==> forall i :: 0 <= i < |r| ==> !r[i].isRead && r[i] in ns
    ensures hideRead ==> forall i :: 0 <= i < |ns| && !ns[i].isRead ==> ns[i] in r
  {
    if hideRead then Filter(ns, (n: NotificationView) => !n.isRead) else ns
  }

  /** " [REQUEST_ID:", the start of a request marker. */
  const MarkerStart := " [REQUEST_ID:"

  /**
   * The length of the marker ` \[REQUEST_ID:\d+\]` at the start of `s`, if
   * one starts there: the digits are taken greedily and must be followed
   * by "]".
   */
  function MarkerAt(s: string): (r: Option<nat>)
    ensures r.Some? ==> |MarkerStart| + 2 <= r.value <= |s| && s[..|MarkerStart|] == MarkerStart
  {
    if |s| >= |MarkerStart| && s[..|MarkerStart|] == MarkerStart then
      var digits := LeadingDigits(s[|MarkerStart|..]);
      var end := |MarkerStart| + |digits|;
      if digits != [] && end < |s| && s[end] == ']' then Some(end + 1) else None
    else None
  }

  /** `message.replace(/ \[REQUEST_ID:\d+\]/g, '')`: markers removed in one left-to-right pass. */
  function StripMarkers(s: string): (r: string)
    ensures |r| <= |s|
    decreases |s|
  {
    if s == [] then []
    else match MarkerAt(s)
      case Some(n) => StripMarkers(s[n..])
      case None => [s[0]] + StripMarkers(s[1..])
  }

  /** The marker the server appends is recognised whole. */
  lemma MarkerRecognised(id: nat)
    ensures MarkerAt(RequestsApi.RequestMarker(id)) == Some(|RequestsApi.RequestMarker(id)|)
  {
    var m := RequestsApi.RequestMarker(id);
    var ds := DecimalString(id);
    assert m[..|MarkerStart|] == MarkerStart;
    assert m[|MarkerStart|..] == ds + "]";
    LeadingDigitsOfDigits(ds, "]");
  }

  lemma {:induction false} LeadingDigitsOfDigits(ds: string, rest: string)
    requires AllDigits(ds) && (rest == [] || !IsDigit(rest[0]))
    ensures LeadingDigits(ds + rest) == ds
  {
    if ds != [] {
      assert (ds + rest)[1..] == ds[1..] + rest;
      LeadingDigitsOfDigits(ds[1..], rest);
    } else {
      assert ds + rest == rest;
    }
  }

  /**
   * Text with no "[" followed by a marker displays as the text alone: no
   * marker can start inside such text.
   */
  lemma {:induction false} StripTrailingMarker(a: string, id: nat)
    requires forall i :: 0 <= i < |a| ==> a[i] != '['
    ensures StripMarkers(a + RequestsApi.RequestMarker(id)) == a
  {
    var m := RequestsApi.RequestMarker(id);
    if a == [] {
      assert a + m == m;
      MarkerRecognised(id);
      assert m[|m|..] == [];
    } else {
      var s := a + m;
      assert s[1] == '[' ==> false by {
        if |a| >= 2 { assert s[1] == a[1]; } else { assert s[1] == m[0]; }
      }
      assert MarkerAt(s).None? by {
        assert s[..|MarkerStart|] != MarkerStart by {
          if |s| >= |MarkerStart| { assert s[..|MarkerStart|][1] == s[1]; }
        }
      }
      assert s[1..] == a[1..] + m;
      StripTrailingMarker(a[1..], id);
    }
  }

  /**
   * The receiver of a new request reads the server's notice without its
   * marker, provided the cat's and the sender's names hold no "[".
   */
  lemma NewRequestNoticeDisplaysWithoutMarker(catName: Option<string>, sender: User, receiverId: int, requestId: nat)
    requires forall i :: 0 <= i < |PyStr(catName)| ==> PyStr(catName)[i] != '['
    requires forall i :: 0 <= i < |RequestsApi.DisplayName(sender)| ==> RequestsApi.DisplayName(sender)[i] != '['
    ensures StripMarkers(RequestsApi.CreateNotices(catName, sender, receiverId, requestId)[1].message)
            == "New adoption request for " + PyStr(catName) + " from " + RequestsApi.DisplayName(sender)
  {
    var a := "New adoption request for " + PyStr(catName) + " from " + RequestsApi.DisplayName(sender);
    forall i | 0 <= i < |a| ensures a[i] != '[' {
      var p := "New adoption request for ";
      var c := PyStr(catName);
      var f := " from ";
      var d := RequestsApi.DisplayName(sender);
      assert a == p + c + f + d;
      if i < |p| { assert a[i] == p[i]; }
      else if i < |p| + |c| { assert a[i] == c[i - |p|]; }
      else if i < |p| + |c| + |f| { assert a[i] == f[i - |p| - |c|]; }
      else { assert a[i] == d[i - |p| - |c| - |f|]; }
    }
    StripTrailingMarker(a, requestId);
  }

  /** `prev.map(n => n.notification_id === id ? { ...n, is_read: true } : n)`. */
  function MarkedRead(ns: seq<NotificationView>, id: int): (r: seq<NotificationView>)
    ensures |r| == |ns|
    ensures forall i :: 0 <= i < |ns| ==> r[i] == if ns[i].notificationId == id then ns[i].(isRead := true) else ns[i]
  {
    seq(|ns|, i requires 0 <= i < |ns| => if ns[i].notificationId == id then ns[i].(isRead := true) else ns[i])
  }

  /** The page's notification list and unread badge. */
  class NotificationsView {
    var notifications: seq<NotificationView>
    var unreadCount: nat

    /** The local patch `handleMarkAsRead` applies once the server has answered. */
    method MarkAsReadLocally(id: int)
      modifies this
      ensures notifications == MarkedRead(old(notifications), id)
      ensures unreadCount == if old(unreadCount) > 0 then old(unreadCount) - 1 else 0
    {
      notifications := MarkedRead(notifications, id);
      unreadCount := if unreadCount - 1 > 0 then unreadCount - 1 else 0;
    }
  }

  /** The local patch only ever turns notifications read, and a second patch changes nothing more. */
  lemma MarkedReadProperties(ns: seq<NotificationView>, id: int)
    ensures forall i :: 0 <= i < |ns| ==> MarkedRead(ns, id)[i].notificationId == ns[i].notificationId
    ensures forall i :: 0 <= i < |ns| && ns[i].isRead ==> MarkedRead(ns, id)[i].isRead
    ensures MarkedRead(MarkedRead(ns, id), id) == MarkedRead(ns, id)
    ensures Count(MarkedRead(ns, id), (n: NotificationView) => !n.isRead) <= Count(ns, (n: NotificationView) => !n.isRead)
  {
    UnreadNotMore(ns, id);
  }

  lemma {:induction false} UnreadNotMore(ns: seq<NotificationView>, id: int)
    ensures Count(MarkedRead(ns, id), (n: NotificationView) => !n.isRead) <= Count(ns, (n: NotificationView) => !n.isRead)
  {
    if ns != [] {
      assert MarkedRead(ns, id)[1..] == MarkedRead(ns[1..], id);
      UnreadNotMore(ns[1..], id);
    }
  }

  /** "Contact information not available" shows when the receiver has neither an e-mail nor a phone. */
  predicate ContactUnavailable(row: RequestsApi.ContactRow) {
    !Truthy(row.receiverEmail) && !Truthy(row.receiverPhone)
  }

  /**
   * For an accepted request answered by the server, the note shows exactly
   * when the receiver's stored e-mail and phone are both missing or empty.
   */
  lemma ContactUnavailableMeaning(t: Db.Tables, q: AdoptionRequest)
    requires q.receiverId in t.users
    ensures ContactUnavailable(RequestsApi.ContactRowOf(t, q)) <==>
      !Truthy(t.users[q.receiverId].email) && !Truthy(t.users[q.receiverId].phone)
  {
  }
}

=== FILE: pins_api.dfy ===
/**
 * The street-map pin router, wasn/app/api/pins.py: a cat has at most one
 * pin; posting a pin for a cat that has one moves it. The router has no
 * authentication.
 */
module PinsApi {
  import opened Common
  import opened Text
  import opened Models
  import opened Db
  import opened Query

  /** The `detail` texts of this router's refusals. */
  const CatListed := "This cat is currently listed for adoption and cannot receive new location pins"
  const CatIdTooSmall := "Input should be greater than or equal to 1"

  /** The body of POST /pins/; the coordinates' range checks are not modelled. */
  datatype PinIn = PinIn(catId: int, coord: Coord)

  /** A pin as the router returns it, with its condition as text. */
  datatype PinOut = PinOut(locationId: int, catId: int, coord: Coord, createdAt: nat, condition: string)

  /** `list_pins` answers at most this many pins. */
  const PinLimit := 100

  /** The listing's condition normalisation: a missing, empty or blank condition reads as "NORMAL". */
  function ReportedCondition(c: Option<string>): (r: string)
    ensures r != []
    ensures c.None? || PyStrip(c.value) == [] ==> r == "NORMAL"
    ensures c.Some? && PyStrip(c.value) != [] ==> r == c.value
  {
    if c.None? || c.value == [] || PyStrip(c.value) == [] then "NORMAL" else c.value
  }

  /** `condition or "NORMAL"` after an insert or a move. */
  function OrNormal(s: string): (r: string)
    ensures r != [] && (s != [] ==> r == s)
  {
    if s == [] then "NORMAL" else s
  }

  /**
   * The normalisation never changes a stored condition: every value of the
   * column's enumeration is non-blank, so the pin reports it as stored.
   */
  lemma StoredConditionReportedAsIs(c: Condition)
    ensures ReportedCondition(Some(ConditionWire(c))) == ConditionWire(c)
    ensures OrNormal(ConditionWire(c)) == ConditionWire(c)
  {
    var w := ConditionWire(c);
    assert !IsPySpace(w[0]);
  }

  /** A stored pin with its condition as stored. */
  function PinOutOf(l: CatLocation): PinOut {
    PinOut(l.locationId, l.catId, l.coord, l.createdAt, ConditionWire(l.condition))
  }

  /** One row of the answer: the pin with its condition normalised, which leaves it as stored. */
  method Normalised(r: CatLocation) returns (o: PinOut)
    ensures o == PinOutOf(r)
  {
    var condition := ReportedCondition(Some(ConditionWire(r.condition)));
    StoredConditionReportedAsIs(r.condition);
    o := PinOut(r.locationId, r.catId, r.coord, r.createdAt, condition);
  }

  /**
   * The loop building the answer: the first `n` pins, each with its
   * condition normalised, which leaves it as stored.
   */
  method Report(rows: seq<CatLocation>, n: nat) returns (out: seq<PinOut>)
    requires n <= |rows|
    ensures |out| == n
    ensures forall j :: 0 <= j < n ==> out[j] == PinOutOf(rows[j])
  {
    out := [];
    var i := 0;
    while i < n
      invariant 0 <= i <= n
      invariant |out| == i
      invariant forall j :: 0 <= j < i ==> out[j] == PinOutOf(rows[j])
    {
      var o := Normalised(rows[i]);
      out := out + [o];
      i := i + 1;
    }
  }

  /**
   * GET /pins/: the 100 pins with the largest location ids, largest first,
   * each with its condition normalised.
   */
  method ListPins(db: Database) returns (out: seq<PinOut>)
    requires db.Valid()
    ensures |out| == if |db.pins.Keys| < PinLimit then |db.pins.Keys| else PinLimit
    ensures forall i :: 0 <= i < |out| ==> out[i].locationId in db.pins && out[i] == PinOutOf(db.pins[out[i].locationId])
    ensures forall i, j :: 0 <= i < j < |out| ==> out[i].locationId > out[j].locationId
    ensures forall k :: k in db.pins && (forall i :: 0 <= i < |out| ==> out[i].locationId != k) ==>
      forall i :: 0 <= i < |out| ==> k < out[i].locationId
  {
    out := LatestPins(db.pins);
  }

  /** The query behind `ListPins`, over the pins table alone. */
  method LatestPins(pins: map<int, CatLocation>) returns (out: seq<PinOut>)
    requires forall k :: k in pins ==> pins[k].locationId == k
    ensures |out| == if |pins.Keys| < PinLimit then |pins.Keys| else PinLimit
    ensures forall i :: 0 <= i < |out| ==> out[i].locationId in pins && out[i] == PinOutOf(pins[out[i].locationId])
    ensures forall i, j :: 0 <= i < j < |out| ==> out[i].locationId > out[j].locationId
    ensures forall k :: k in pins && (forall i :: 0 <= i < |out| ==> out[i].locationId != k) ==>
      forall i :: 0 <= i < |out| ==> k < out[i].locationId
  {
    var all := (l: CatLocation) => true;
    var rows := Select(pins, (l: CatLocation) => l.locationId, all, (l: CatLocation) => l.locationId);
    SelectsCount(rows, pins, (l: CatLocation) => l.locationId, all);
    assert Matching(pins, all) == pins.Keys;
    var n := if |rows| < PinLimit then |rows| else PinLimit;
    out := Report(rows, n);
    PrefixHoldsLargestKeys(rows, pins, (l: CatLocation) => l.locationId, n);
  }

  /** The cat has a listing that is still active. */
  predicate ActivelyListed(listings: map<int, AdoptionListing>, catId: int) {
    exists k | k in listings :: listings[k].catId == catId && listings[k].isActive
  }

  /** The cat's pin, if it has one. */
  method FindPin(db: Database, catId: int) returns (r: Option<CatLocation>)
    requires db.Valid()
    ensures r.None? <==> forall k :: k in db.pins ==> db.pins[k].catId != catId
    ensures r.Some? ==> r.value.locationId in db.pins && db.pins[r.value.locationId] == r.value && r.value.catId == catId
  {
    if exists k :: k in db.pins && db.pins[k].catId == catId {
      var k :| k in db.pins && db.pins[k].catId == catId;
      r := Some(db.pins[k]);
    } else {
      r := None;
    }
  }

  /**
   * POST /pins/: a cat id below 1 is refused by the body's bound; then the
   * cat must exist and must not be actively listed; a pinned cat's pin is
   * moved, an unpinned cat gets a new pin with the default condition.
   */
  method CreatePin(db: Database, p: PinIn, now: nat) returns (r: Response<PinOut>)
    requires db.Valid()
    modifies db
    ensures db.Valid()
    ensures p.catId < 1 ==> r == Err(422, CatIdTooSmall)
    ensures p.catId >= 1 && p.catId !in old(db.cats) ==> r == Err(404, "Cat not found")
    ensures p.catId >= 1 && p.catId in old(db.cats) && ActivelyListed(old(db.listings), p.catId) ==>
      r == Err(403, CatListed)
    ensures p.catId >= 1 && p.catId in old(db.cats) && !ActivelyListed(old(db.listings), p.catId) ==> r.Ok?
    ensures r.Err? ==> db.Snapshot() == old(db.Snapshot())
    ensures r.Ok? ==> p.catId >= 1 && p.catId in old(db.cats) && !ActivelyListed(old(db.listings), p.catId)
    ensures r.Ok? ==> r.value.catId == p.catId && r.value.coord == p.coord
    ensures r.Ok? && (exists k :: k in old(db.pins) && old(db.pins)[k].catId == p.catId) ==>
      r.value.locationId in old(db.pins) && old(db.pins)[r.value.locationId].catId == p.catId
      && var moved := old(db.pins)[r.value.locationId].(coord := p.coord);
         r.value == PinOutOf(moved)
         && db.Snapshot() == old(db.Snapshot()).(pins := old(db.pins)[r.value.locationId := moved])
    ensures r.Ok? && (forall k :: k in old(db.pins) ==> old(db.pins)[k].catId != p.catId) ==>
      var id := old(db.nextLocationId);
      var pin := CatLocation(id, p.catId, p.coord, DefaultCondition, now);
      r.value == PinOutOf(pin)
      && db.Snapshot() == old(db.Snapshot()).(pins := old(db.pins)[id := pin], nextLocationId := id + 1)
  {
    if p.catId < 1 {
      return Err(422, CatIdTooSmall);
    }
    if p.catId !in db.cats {
      return Err(404, "Cat not found");
    }
    var existing := FindPin(db, p.catId);
    if ActivelyListed(db.listings, p.catId) {
      return Err(403, CatListed);
    }
    if existing.Some? {
      var moved := existing.value.(coord := p.coord);
      db.UpdatePin(moved);
      StoredConditionReportedAsIs(moved.condition);
      return Ok(PinOut(moved.locationId, moved.catId, moved.coord, moved.createdAt, OrNormal(ConditionWire(moved.condition))));
    }
    var pin := CatLocation(db.nextLocationId, p.catId, p.coord, DefaultCondition, now);
    db.InsertPin(pin);
    StoredConditionReportedAsIs(pin.condition);
    r := Ok(PinOut(pin.locationId, pin.catId, pin.coord, pin.createdAt, OrNormal(ConditionWire(pin.condition))));
  }

  /** DELETE /pins/{id}: removes that pin and nothing else. */
  method DeletePin(db: Database, pinId: int) returns (r: Response<()>)
    requires db.Valid()
    modifies db
    ensures db.Valid()
    ensures pinId !in old(db.pins) <==> r == Err(404, "Pin not found")
    ensures pinId !in old(db.pins) ==> db.Snapshot() == old(db.Snapshot())
    ensures pinId in old(db.pins) ==> r.Ok? && db.Snapshot() == old(db.Snapshot()).(pins := old(db.pins) - {pinId})
  {
    if pinId !in db.pins {
      return Err(404, "Pin not found");
    }
    db.DeletePin(pinId);
    r := Ok(());
  }
}

=== FILE: query.dfy ===
/**
 * The shape of the handlers' SQL reads, `db.query(T).filter(...).order_by(...)`:
 * the rows of a table that satisfy a filter, each exactly once, in a
 * requested order.
 */
module Query {

  /** No key occurs twice. */
  predicate Distinct(ks: seq<int>) {
    forall i, j :: 0 <= i < j < |ks| ==> ks[i] != ks[j]
  }

  /**
   * `rows` holds exactly the rows of table `m` that satisfy `keep`, each
   * once; `key` gives a row's primary key.
   */
  ghost predicate Selects<T>(rows: seq<T>, m: map<int, T>, key: T -> int, keep: T -> bool) {
    (forall i :: 0 <= i < |rows| ==> key(rows[i]) in m && m[key(rows[i])] == rows[i] && keep(rows[i]))
    && (forall k :: k in m && keep(m[k]) ==> exists i :: 0 <= i < |rows| && key(rows[i]) == k)
    && (forall i, j :: 0 <= i < j < |rows| ==> key(rows[i]) != key(rows[j]))
  }

  /** `ORDER BY rank DESC`. */
  ghost predicate Descending<T>(rows: seq<T>, rank: T -> int) {
    forall i, j :: 0 <= i < j < |rows| ==> rank(rows[i]) >= rank(rows[j])
  }

  /** Every key of the table is the row's own primary key. */
  ghost predicate Keyed<T>(m: map<int, T>, key: T -> int) {
    forall k :: k in m ==> key(m[k]) == k
  }

  /** A set with no member is empty (set extensionality, for `:|` on a set). */
  lemma Member(ks: set<int>)
    ensures (forall k :: k !in ks) ==> ks == {}
  {
    if forall k :: k !in ks {
      assert ks == {};
    }
  }

  /** A key of `ks` with the largest rank. */
  method ArgMax(ks: set<int>, rank: int -> int) returns (best: int)
    requires ks != {}
    ensures best in ks
    ensures forall k :: k in ks ==> rank(k) <= rank(best)
  {
    Member(ks);
    best :| best in ks;
    var rest := ks - {best};
    while rest != {}
      invariant rest <= ks && best in ks
      invariant forall k :: k in ks && k !in rest ==> rank(k) <= rank(best)
      decreases rest
    {
      Member(rest);
      var k :| k in rest;
      if rank(k) > rank(best) {
        best := k;
      }
      rest := rest - {k};
    }
  }

  /** The keys of `ks`, each once, largest rank first. */
  method SortKeysDescending(ks: set<int>, rank: int -> int) returns (order: seq<int>)
    ensures Distinct(order)
    ensures forall k :: k in order <==> k in ks
    ensures forall i, j :: 0 <= i < j < |order| ==> rank(order[i]) >= rank(order[j])
  {
    order := [];
    var rest := ks;
    while rest != {}
      invariant rest <= ks
      invariant forall k :: k in order <==> k in ks && k !in rest
      invariant Distinct(order)
      invariant forall i, j :: 0 <= i < j < |order| ==> rank(order[i]) >= rank(order[j])
      invariant forall i, k :: 0 <= i < |order| && k in rest ==> rank(order[i]) >= rank(k)
      decreases rest
    {
      var m := ArgMax(rest, rank);
      order := order + [m];
      rest := rest - {m};
    }
  }

  /**
   * `SELECT * FROM m WHERE keep ORDER BY rank DESC`. Rows with equal rank
   * come out in no promised order.
   */
  method Select<T>(m: map<int, T>, key: T -> int, keep: T -> bool, rank: T -> int) returns (rows: seq<T>)
    requires Keyed(m, key)
    ensures Selects(rows, m, key, keep)
    ensures Descending(rows, rank)
  {
    var ks := set k | k in m && keep(m[k]);
    var order := SortKeysDescending(ks, k => if k in m then rank(m[k]) else 0);
    assert forall i :: 0 <= i < |order| ==> order[i] in ks && order[i] in m by {
      forall i | 0 <= i < |order| ensures order[i] in ks { assert order[i] in order; }
    }
    rows := [];
    for n := 0 to |order|
      invariant |rows| == n
      invariant forall i :: 0 <= i < n ==> rows[i] == m[order[i]] && key(rows[i]) == order[i]
    {
      rows := rows + [m[order[n]]];
    }
    forall k | k in m && keep(m[k]) ensures exists i :: 0 <= i < |rows| && key(rows[i]) == k {
      assert k in ks;
      assert k in order;
      var i :| 0 <= i < |order| && order[i] == k;
      assert key(rows[i]) == k;
    }
  }

  /** The keys of the rows of `m` that satisfy `keep`. */
  ghost function Matching<T>(m: map<int, T>, keep: T -> bool): set<int> {
    set k | k in m && keep(m[k])
  }

  /** A selection has as many rows as the table has matching keys. */
  lemma {:induction false} SelectsCount<T>(rows: seq<T>, m: map<int, T>, key: T -> int, keep: T -> bool)
    requires Selects(rows, m, key, keep)
    ensures |rows| == |Matching(m, keep)|
  {
    var ks := Matching(m, keep);
    var keys := seq(|rows|, i requires 0 <= i < |rows| => key(rows[i]));
    assert Distinct(keys);
    assert forall k :: k in keys <==> k in ks by {
      forall k | k in ks ensures k in keys {
        var i :| 0 <= i < |rows| && key(rows[i]) == k;
        assert keys[i] == k;
      }
    }
    DistinctCard(keys, ks);
  }

  /** A duplicate-free sequence is as long as the set of its elements. */
  lemma {:induction false} DistinctCard(ks: seq<int>, s: set<int>)
    requires Distinct(ks)
    requires forall k :: k in ks <==> k in s
    ensures |ks| == |s|
  {
    if ks == [] {
      assert forall k :: k !in s;
      assert s == {};
    } else {
      var last := ks[|ks| - 1];
      var init := ks[..|ks| - 1];
      assert forall k :: k in init <==> k in s - {last} by {
        forall k | k in init ensures k != last {
          var i :| 0 <= i < |init| && init[i] == k;
          assert ks[i] == k;
        }
        forall k | k in s - {last} ensures k in init {
          var i :| 0 <= i < |ks| && ks[i] == k;
          assert i != |ks| - 1;
          assert init[i] == k;
        }
      }
      DistinctCard(init, s - {last});
      assert last in ks;
      assert |s| == |s - {last}| + 1;
    }
  }

  /**
   * The first `n` rows of a selection of the whole table in descending key
   * order are the `n` largest keys: every row left out has a smaller key.
   */
  lemma {:induction false} PrefixHoldsLargestKeys<T>(rows: seq<T>, m: map<int, T>, key: T -> int, n: nat)
    requires Selects(rows, m, key, (x: T) => true) && Descending(rows, key) && n <= |rows|
    ensures forall k :: k in m && (forall i :: 0 <= i < n ==> key(rows[i]) != k) ==>
      forall i :: 0 <= i < n ==> k < key(rows[i])
  {
    forall k | k in m && (forall i :: 0 <= i < n ==> key(rows[i]) != k)
      ensures forall i :: 0 <= i < n ==> k < key(rows[i])
    {
      var j :| 0 <= j < |rows| && key(rows[j]) == k;
      forall i | 0 <= i < n ensures k < key(rows[i]) {
        assert i < j;
      }
    }
  }
}

=== FILE: requests_api.dfy ===
/**
 * The adoption-request router of safepaws-backend/app/api/adoptionsRequest.py:
 * the request lifecycle (create as Pending, decide, delete while Pending),
 * the notifications that accompany a new request and a first decision,
 * and the read endpoints.
 */
module RequestsApi {
  import opened Common
  import opened Text
  import opened Models
  import opened Db
  import opened Query

  /** The `detail` texts of this router's refusals. */
  const SelfAdoption := "You cannot adopt your own cat"
  const NotParty := "You are not allowed to view this request"
  const NotSender := "You are not allowed to delete this request"
  const RequestDeleted := "Request deleted successfully"
  const OnlyPending := "Only pending requests can be deleted"
  const NoActiveListing := "Listing not found or inactive"
  const RequestNotFound := "Request not found"
  const UpdatedTo := "Request updated to "
  const AlreadyRequested := "Request already exists"

  /** `AdoptionRequestCreate`. */
  datatype RequestCreate = RequestCreate(
    listingId: int,
    city: string,
    age: int,
    fullName: string,
    reasonForAdoption: string,
    livingSituation: string,
    experienceLevel: Experience,
    hasOtherPets: bool)

  /** `user.full_name or user.username`. */
  function DisplayName(u: User): string { PyOr(u.fullName, u.username) }

  /** The suffix the receiver's message carries so the client can find the request. */
  function RequestMarker(requestId: nat): string { " [REQUEST_ID:" + DecimalString(requestId) + "]" }

  /**
   * The two notifications of a new request: the sender's confirmation and
   * the receiver's notice, which names the sender and ends in the marker.
   */
  function CreateNotices(catName: Option<string>, sender: User, receiverId: int, requestId: nat): (ns: seq<Notice>)
    ensures |ns| == 2 && ns[0].userId == sender.userId && ns[1].userId == receiverId
    ensures ns[1].message == "New adoption request for " + PyStr(catName) + " from " + DisplayName(sender) + RequestMarker(requestId)
  {
    [Notice(sender.userId, "Your adoption request for " + PyStr(catName) + " has been submitted"),
     Notice(receiverId, "New adoption request for " + PyStr(catName) + " from " + DisplayName(sender) + RequestMarker(requestId))]
  }

  /**
   * The notifications of a decision: none unless the request was Pending
   * and the action is Accepted or Rejected; then one to the sender and one
   * to the receiver.
   */
  function ActionNotices(was: RequestStatus, action: RequestStatus, catName: Option<string>, sender: User, receiverId: int): seq<Notice> {
    if was != Pending then []
    else if action == Accepted then
      [Notice(sender.userId, "Your adoption request for " + PyStr(catName) + " has been accepted!"),
       Notice(receiverId, "You accepted the adoption request from " + DisplayName(sender) + " for " + PyStr(catName))]
    else if action == Rejected then
      [Notice(sender.userId, "Your adoption request for " + PyStr(catName) + " was rejected"),
       Notice(receiverId, "You rejected the adoption request from " + DisplayName(sender) + " for " + PyStr(catName))]
    else []
  }

  /** Who is told what about a decision: exactly two notices on a first decision, none otherwise. */
  lemma ActionNoticesShape(was: RequestStatus, action: RequestStatus, catName: Option<string>, sender: User, receiverId: int)
    ensures var ns := ActionNotices(was, action, catName, sender, receiverId);
      (ns != [] <==> was == Pending && action != Pending)
      && (ns != [] ==> |ns| == 2 && ns[0].userId == sender.userId && ns[1].userId == receiverId)
  {
  }

  /** The active listing a request may be made for. */
  ghost predicate OpenListing(t: Tables, listingId: int) {
    listingId in t.listings && t.listings[listingId].isActive
  }

  /** The listing's cat was added by `caller`. */
  ghost predicate OwnCat(t: Tables, listingId: int, caller: int) {
    listingId in t.listings && t.listings[listingId].catId in t.cats
    && t.cats[t.listings[listingId].catId].addingUser == Some(caller)
  }

  /** `caller` already has a request for the listing, whatever its status. */
  predicate HasRequest(requests: map<int, AdoptionRequest>, listingId: int, caller: int) {
    exists k :: k in requests && requests[k].listingId == listingId && requests[k].senderId == caller
  }

  /** The decision on a request goes to its receiver only. */
  ghost predicate Decidable(t: Tables, requestId: int, caller: int) {
    requestId in t.requests && t.requests[requestId].receiverId == caller
  }

  /** Sender or receiver of the request. */
  ghost predicate Party(t: Tables, requestId: int, caller: int) {
    requestId in t.requests && (t.requests[requestId].senderId == caller || t.requests[requestId].receiverId == caller)
  }

  /**
   * The values a new request writes fit their columns (wasn/app/db/models.py:67-69):
   * the city and the full name are `String(100)`, the age an `Integer`.
   */
  predicate RequestFits(p: RequestCreate) {
    |p.city| <= CityWidth && FitsInteger(Some(p.age)) && |p.fullName| <= FullNameWidth
  }

  /**
   * POST /adoption-requests/: the three guards, then the insert, which the
   * database refuses with `dbError` when a value is too wide for its column.
   */
  method CreateRequest(db: Database, caller: int, p: RequestCreate, now: nat, dbError: string)
    returns (r: Response<AdoptionRequest>)
    requires db.Valid() && caller in db.users
    modifies db
    ensures db.Valid()
    ensures !OpenListing(old(db.Snapshot()), p.listingId) ==> r == Err(404, NoActiveListing)
    ensures OpenListing(old(db.Snapshot()), p.listingId) && OwnCat(old(db.Snapshot()), p.listingId, caller) ==>
      r == Err(400, SelfAdoption)
    ensures OpenListing(old(db.Snapshot()), p.listingId) && !OwnCat(old(db.Snapshot()), p.listingId, caller)
            && HasRequest(old(db.requests), p.listingId, caller) ==>
      r == Err(400, AlreadyRequested)
    ensures OpenListing(old(db.Snapshot()), p.listingId) && !OwnCat(old(db.Snapshot()), p.listingId, caller)
            && !HasRequest(old(db.requests), p.listingId, caller) && !RequestFits(p) ==>
      r == Err(500, dbError)
    ensures OpenListing(old(db.Snapshot()), p.listingId) && !OwnCat(old(db.Snapshot()), p.listingId, caller)
            && !HasRequest(old(db.requests), p.listingId, caller) && RequestFits(p) ==>
      r.Ok?
    ensures r.Err? ==> db.Snapshot() == old(db.Snapshot())
    ensures r.Ok? ==>
      OpenListing(old(db.Snapshot()), p.listingId) && !OwnCat(old(db.Snapshot()), p.listingId, caller)
      && !HasRequest(old(db.requests), p.listingId, caller) && RequestFits(p)
      && Submitted(old(db.Snapshot()), db.Snapshot(), caller, p, now, r.value)
  {
    if !(p.listingId in db.listings && db.listings[p.listingId].isActive) {
      return Err(404, NoActiveListing);
    }
    var listing := db.listings[p.listingId];
    var cat := db.cats[listing.catId];
    if cat.addingUser == Some(caller) {
      return Err(400, SelfAdoption);
    }
    if exists k :: k in db.requests && db.requests[k].listingId == p.listingId && db.requests[k].senderId == caller {
      return Err(400, AlreadyRequested);
    }
    r := Submit(db, caller, p, now, dbError);
  }

  /**
   * The insert and the two notifications of a request that passed the
   * guards; a refused insert commits nothing and is answered 500.
   */
  method Submit(db: Database, caller: int, p: RequestCreate, now: nat, dbError: string)
    returns (r: Response<AdoptionRequest>)
    requires db.Valid() && caller in db.users && p.listingId in db.listings
    modifies db
    ensures db.Valid()
    ensures !RequestFits(p) ==> r == Err(500, dbError) && db.Snapshot() == old(db.Snapshot())
    ensures RequestFits(p) ==> r.Ok?
    ensures r.Ok? ==> Submitted(old(db.Snapshot()), db.Snapshot(), caller, p, now, r.value)
  {
    if !RequestFits(p) {
      return Err(500, dbError);
    }
    var req := InsertWithNotices(db, caller, p, now);
    r := Ok(req);
  }

  /**
   * `after` is `before` with the request `req` stored under the next id,
   * Pending and addressed to the listing's uploader, and its two notices.
   */
  ghost predicate Submitted(before: Tables, after: Tables, caller: int, p: RequestCreate, now: nat, req: AdoptionRequest)
    requires p.listingId in before.listings && caller in before.users && before.listings[p.listingId].catId in before.cats
    requires before.nextRequestId >= 0
  {
    var id := before.nextRequestId;
    var listing := before.listings[p.listingId];
    req == AdoptionRequest(id, p.listingId, caller, listing.uploaderId, p.city, p.age, p.fullName,
                           p.reasonForAdoption, p.livingSituation, p.experienceLevel, p.hasOtherPets, Pending, now)
    && after == before.(
         requests := before.requests[id := req],
         nextRequestId := id + 1,
         notifications := WithNotices(before.notifications, before.nextNotificationId,
           CreateNotices(before.cats[listing.catId].name, before.users[caller], listing.uploaderId, id), now),
         nextNotificationId := before.nextNotificationId + 2)
  }

  /** The committed insert and its notices. */
  method InsertWithNotices(db: Database, caller: int, p: RequestCreate, now: nat) returns (req: AdoptionRequest)
    requires db.Valid() && caller in db.users && p.listingId in db.listings
    modifies db
    ensures db.Valid()
    ensures Submitted(old(db.Snapshot()), db.Snapshot(), caller, p, now, req)
  {
    var listing := db.listings[p.listingId];
    var cat := db.cats[listing.catId];
    var id := db.nextRequestId;
    req := AdoptionRequest(id, p.listingId, caller, listing.uploaderId, p.city, p.age, p.fullName,
                           p.reasonForAdoption, p.livingSituation, p.experienceLevel, p.hasOtherPets, Pending, now);
    ghost var t0 := db.Snapshot();
    db.InsertRequest(req);
    ghost var t1 := db.Snapshot();
    var sender := db.users[caller];
    var ns := CreateNotices(cat.name, sender, listing.uploaderId, id);
    db.AddTwoNotices(ns, now);
    assert t1.users == t0.users && t1.notifications == t0.notifications && t1.nextNotificationId == t0.nextNotificationId;
    assert db.Snapshot() == t0.(requests := t0.requests[id := req], nextRequestId := id + 1,
      notifications := WithNotices(t0.notifications, t0.nextNotificationId, ns, now),
      nextNotificationId := t0.nextNotificationId + 2);
  }

  /** GET /adoption-requests/sent: the caller's requests, in no promised order. */
  method ListSent(db: Database, caller: int) returns (rs: seq<AdoptionRequest>)
    requires db.Valid()
    ensures Selects(rs, db.requests, (q: AdoptionRequest) => q.requestId, (q: AdoptionRequest) => q.senderId == caller)
  {
    rs := Select(db.requests, (q: AdoptionRequest) => q.requestId, (q: AdoptionRequest) => q.senderId == caller,
                 (q: AdoptionRequest) => -q.requestId);
  }

  /** A row of /sent/accepted: the request with the receiver's contact details. */
  datatype ContactRow = ContactRow(
    requestId: int,
    listingId: int,
    catName: Option<string>,
    receiverId: int,
    receiverName: Option<string>,
    receiverEmail: Option<string>,
    receiverPhone: Option<string>,
    submittedAt: nat)

  /** The contact row for `q`; a missing listing, cat or receiver leaves its fields null. */
  function ContactRowOf(t: Tables, q: AdoptionRequest): ContactRow {
    var catName :=
      if q.listingId in t.listings && t.listings[q.listingId].catId in t.cats
      then t.cats[t.listings[q.listingId].catId].name else None;
    var known := q.receiverId in t.users;
    ContactRow(q.requestId, q.listingId, catName, q.receiverId,
      if known then Some(DisplayName(t.users[q.receiverId])) else None,
      if known then t.users[q.receiverId].email else None,
      if known then t.users[q.receiverId].phone else None,
      q.submittedAt)
  }

  /** GET /adoption-requests/sent/accepted: the caller's accepted requests, newest first, with contacts. */
  method ListAcceptedSent(db: Database, caller: int) returns (rows: seq<ContactRow>, reqs: seq<AdoptionRequest>)
    requires db.Valid()
    ensures Selects(reqs, db.requests, (q: AdoptionRequest) => q.requestId,
                    (q: AdoptionRequest) => q.senderId == caller && q.status == Accepted)
    ensures Descending(reqs, (q: AdoptionRequest) => q.submittedAt)
    ensures |rows| == |reqs| && forall i :: 0 <= i < |rows| ==> rows[i] == ContactRowOf(db.Snapshot(), reqs[i])
  {
    var found := Select(db.requests, (q: AdoptionRequest) => q.requestId,
                        (q: AdoptionRequest) => q.senderId == caller && q.status == Accepted,
                        (q: AdoptionRequest) => q.submittedAt);
    reqs := found;
    rows := [];
    for i := 0 to |found|
      invariant |rows| == i
      invariant forall j :: 0 <= j < i ==> rows[j] == ContactRowOf(db.Snapshot(), found[j])
    {
      var q := found[i];
      var catName: Option<string> := None;
      if q.listingId in db.listings {
        var listing := db.listings[q.listingId];
        if listing.catId in db.cats {
          catName := db.cats[listing.catId].name;
        }
      }
      var row := ContactRow(q.requestId, q.listingId, catName, q.receiverId, None, None, None, q.submittedAt);
      if q.receiverId in db.users {
        var receiver := db.users[q.receiverId];
        row := row.(receiverName := Some(DisplayName(receiver)), receiverEmail := receiver.email, receiverPhone := receiver.phone);
      }
      rows := rows + [row];
    }
  }

  /** A row of /incoming and /incoming/all: the request with its sender's display name. */
  datatype IncomingRow = IncomingRow(request: AdoptionRequest, senderName: Option<string>)

  function IncomingRowOf(t: Tables, q: AdoptionRequest): IncomingRow {
    IncomingRow(q, if q.senderId in t.users then Some(DisplayName(t.users[q.senderId])) else None)
  }

  /** The requests the rows show, in row order. */
  function RequestsShown(rows: seq<IncomingRow>): (qs: seq<AdoptionRequest>)
    ensures |qs| == |rows| && forall i :: 0 <= i < |rows| ==> qs[i] == rows[i].request
  {
    if rows == [] then [] else [rows[0].request] + RequestsShown(rows[1..])
  }

  /** The loop both incoming endpoints share: one row per request, in order. */
  method WithSenderNames(db: Database, found: seq<AdoptionRequest>) returns (rows: seq<IncomingRow>)
    ensures |rows| == |found|
    ensures forall i :: 0 <= i < |rows| ==> rows[i] == IncomingRowOf(db.Snapshot(), found[i])
  {
    rows := [];
    for i := 0 to |found|
      invariant |rows| == i
      invariant forall j :: 0 <= j < i ==> rows[j] == IncomingRowOf(db.Snapshot(), found[j])
    {
      var q := found[i];
      var name: Option<string> := None;
      if q.senderId in db.users {
        name := Some(DisplayName(db.users[q.senderId]));
      }
      rows := rows + [IncomingRow(q, name)];
    }
  }

  /** GET /adoption-requests/incoming: Pending requests addressed to the caller, in no promised order. */
  method ListIncoming(db: Database, caller: int) returns (rows: seq<IncomingRow>)
    requires db.Valid()
    ensures Selects(RequestsShown(rows), db.requests, (q: AdoptionRequest) => q.requestId,
                    (q: AdoptionRequest) => q.receiverId == caller && q.status == Pending)
    ensures forall i :: 0 <= i < |rows| ==> rows[i] == IncomingRowOf(db.Snapshot(), rows[i].request)
  {
    var found := Select(db.requests, (q: AdoptionRequest) => q.requestId,
                        (q: AdoptionRequest) => q.receiverId == caller && q.status == Pending,
                        (q: AdoptionRequest) => -q.requestId);
    rows := WithSenderNames(db, found);
    assert RequestsShown(rows) == found;
  }

  /** GET /adoption-requests/incoming/all: every request addressed to the caller, newest first. */
  method ListAllIncoming(db: Database, caller: int) returns (rows: seq<IncomingRow>)
    requires db.Valid()
    ensures Selects(RequestsShown(rows), db.requests, (q: AdoptionRequest) => q.requestId, (q: AdoptionRequest) => q.receiverId == caller)
    ensures Descending(RequestsShown(rows), (q: AdoptionRequest) => q.submittedAt)
    ensures forall i :: 0 <= i < |rows| ==> rows[i] == IncomingRowOf(db.Snapshot(), rows[i].request)
  {
    var found := Select(db.requests, (q: AdoptionRequest) => q.requestId,
                        (q: AdoptionRequest) => q.receiverId == caller,
                        (q: AdoptionRequest) => q.submittedAt);
    rows := WithSenderNames(db, found);
    assert RequestsShown(rows) == found;
  }

  /** GET /adoption-requests/{id}: visible to its sender and its receiver only. */
  method GetRequest(db: Database, caller: int, requestId: int) returns (r: Response<AdoptionRequest>)
    requires db.Valid()
    ensures requestId !in db.requests ==> r == Err(404, RequestNotFound)
    ensures requestId in db.requests && !Party(db.Snapshot(), requestId, caller) ==>
      r == Err(403, NotParty)
    ensures Party(db.Snapshot(), requestId, caller) ==> r == Ok(db.requests[requestId])
  {
    if requestId !in db.requests {
      return Err(404, RequestNotFound);
    }
    var q := db.requests[requestId];
    if q.senderId != caller && q.receiverId != caller {
      return Err(403, NotParty);
    }
    r := Ok(q);
  }

  /**
   * PUT /adoption-requests/action: the receiver sets the status to `action`
   * whatever it was; a first decision on a Pending request notifies both sides.
   */
  method HandleAction(db: Database, caller: int, requestId: int, action: RequestStatus, now: nat) returns (r: Response<string>)
    requires db.Valid() && caller in db.users
    modifies db
    ensures db.Valid()
    ensures !Decidable(old(db.Snapshot()), requestId, caller) ==>
      r == Err(404, RequestNotFound) && db.Snapshot() == old(db.Snapshot())
    ensures Decidable(old(db.Snapshot()), requestId, caller) ==>
      var q := old(db.requests)[requestId];
      var catName := old(db.cats)[old(db.listings)[q.listingId].catId].name;
      var ns := ActionNotices(q.status, action, catName, old(db.users)[q.senderId], caller);
      r == Ok(UpdatedTo + StatusWire(action))
      && db.Snapshot() == old(db.Snapshot()).(
           requests := old(db.requests)[requestId := q.(status := action)],
           notifications := WithNotices(old(db.notifications), old(db.nextNotificationId), ns, now),
           nextNotificationId := old(db.nextNotificationId) + |ns|)
  {
    if !(requestId in db.requests && db.requests[requestId].receiverId == caller) {
      return Err(404, RequestNotFound);
    }
    var q := db.requests[requestId];
    var was := q.status;
    db.UpdateRequest(q.(status := action));
    var listing := db.listings[q.listingId];
    var cat := db.cats[listing.catId];
    var sender := db.users[q.senderId];
    var ns := ActionNotices(was, action, cat.name, sender, caller);
    ActionNoticesShape(was, action, cat.name, sender, caller);
    db.AddNotices(ns, now);
    r := Ok(UpdatedTo + StatusWire(action));
  }

  /** DELETE /adoption-requests/{id}: either party may withdraw a request while it is Pending. */
  method DeleteRequest(db: Database, caller: int, requestId: int) returns (r: Response<string>)
    requires db.Valid()
    modifies db
    ensures db.Valid()
    ensures requestId !in old(db.requests) ==> r == Err(404, RequestNotFound)
    ensures requestId in old(db.requests) && !Party(old(db.Snapshot()), requestId, caller) ==>
      r == Err(403, NotSender)
    ensures Party(old(db.Snapshot()), requestId, caller) && old(db.requests)[requestId].status != Pending ==>
      r == Err(400, OnlyPending)
    ensures Party(old(db.Snapshot()), requestId, caller) && old(db.requests)[requestId].status == Pending ==> r.Ok?
    ensures r.Err? ==> db.Snapshot() == old(db.Snapshot())
    ensures r.Ok? ==>
      Party(old(db.Snapshot()), requestId, caller) && old(db.requests)[requestId].status == Pending
      && r.value == RequestDeleted
      && db.Snapshot() == old(db.Snapshot()).(requests := old(db.requests) - {requestId})
  {
    if requestId !in db.requests {
      return Err(404, RequestNotFound);
    }
    var q := db.requests[requestId];
    if q.senderId != caller && q.receiverId != caller {
      return Err(403, NotSender);
    }
    if q.status != Pending {
      return Err(400, OnlyPending);
    }
    db.DeleteRequest(requestId);
    r := Ok(RequestDeleted);
  }
}

=== FILE: requests_api_wasn.dfy ===
/**
 * The earlier adoption-request router, wasn/app/api/adoptionsRequest.py:
 * the same guards as the later one, but no notifications, and incoming
 * requests are returned without the sender's name. Its list-sent and
 * delete endpoints are the same code as the later router's and are
 * modelled by `RequestsApi.ListSent` and `RequestsApi.DeleteRequest`.
 */
module RequestsApiWasn {
  import opened Common
  import opened Models
  import opened Db
  import opened Query
  import opened RequestsApi

  /** POST /adoption-requests/ without notifications; a value too wide for its column is refused with `dbError`. */
  method CreateRequest(db: Database, caller: int, p: RequestCreate, now: nat, dbError: string)
    returns (r: Response<AdoptionRequest>)
    requires db.Valid() && caller in db.users
    modifies db
    ensures db.Valid()
    ensures !OpenListing(old(db.Snapshot()), p.listingId) ==> r == Err(404, NoActiveListing)
    ensures OpenListing(old(db.Snapshot()), p.listingId) && OwnCat(old(db.Snapshot()), p.listingId, caller) ==>
      r == Err(400, SelfAdoption)
    ensures OpenListing(old(db.Snapshot()), p.listingId) && !OwnCat(old(db.Snapshot()), p.listingId, caller)
            && HasRequest(old(db.requests), p.listingId, caller) ==>
      r == Err(400, AlreadyRequested)
    ensures OpenListing(old(db.Snapshot()), p.listingId) && !OwnCat(old(db.Snapshot()), p.listingId, caller)
            && !HasRequest(old(db.requests), p.listingId, caller) && !RequestFits(p) ==>
      r == Err(500, dbError)
    ensures OpenListing(old(db.Snapshot()), p.listingId) && !OwnCat(old(db.Snapshot()), p.listingId, caller)
            && !HasRequest(old(db.requests), p.listingId, caller) && RequestFits(p) ==>
      r.Ok?
    ensures r.Err? ==> db.Snapshot() == old(db.Snapshot())
    ensures r.Ok? ==>
      OpenListing(old(db.Snapshot()), p.listingId) && !OwnCat(old(db.Snapshot()), p.listingId, caller)
      && !HasRequest(old(db.requests), p.listingId, caller) && RequestFits(p)
      && var id := old(db.nextRequestId);
         r.value == AdoptionRequest(id, p.listingId, caller, old(db.listings)[p.listingId].uploaderId, p.city, p.age,
                                    p.fullName, p.reasonForAdoption, p.livingSituation, p.experienceLevel,
                                    p.hasOtherPets, Pending, now)
         && db.Snapshot() == old(db.Snapshot()).(requests := old(db.requests)[id := r.value], nextRequestId := id + 1)
  {
    if !(p.listingId in db.listings && db.listings[p.listingId].isActive) {
      return Err(404, NoActiveListing);
    }
    var listing := db.listings[p.listingId];
    var cat := db.cats[listing.catId];
    if cat.addingUser == Some(caller) {
      return Err(400, SelfAdoption);
    }
    if exists k :: k in db.requests && db.requests[k].listingId == p.listingId && db.requests[k].senderId == caller {
      return Err(400, AlreadyRequested);
    }
    if !RequestFits(p) {
      return Err(500, dbError);
    }
    var id := db.nextRequestId;
    var req := AdoptionRequest(id, p.listingId, caller, listing.uploaderId, p.city, p.age, p.fullName,
                               p.reasonForAdoption, p.livingSituation, p.experienceLevel, p.hasOtherPets, Pending, now);
    db.InsertRequest(req);
    r := Ok(req);
  }

  /** GET /adoption-requests/incoming: the Pending requests addressed to the caller, as stored. */
  method ListIncoming(db: Database, caller: int) returns (rs: seq<AdoptionRequest>)
    requires db.Valid()
    ensures Selects(rs, db.requests, (q: AdoptionRequest) => q.requestId,
                    (q: AdoptionRequest) => q.receiverId == caller && q.status == Pending)
  {
    rs := Select(db.requests, (q: AdoptionRequest) => q.requestId,
                 (q: AdoptionRequest) => q.receiverId == caller && q.status == Pending,
                 (q: AdoptionRequest) => -q.requestId);
  }

  /** PUT /adoption-requests/action: the receiver overwrites the status; nothing else happens. */
  method HandleAction(db: Database, caller: int, requestId: int, action: RequestStatus) returns (r: Response<string>)
    requires db.Valid()
    modifies db
    ensures db.Valid()
    ensures !Decidable(old(db.Snapshot()), requestId, caller) ==>
      r == Err(404, RequestNotFound) && db.Snapshot() == old(db.Snapshot())
    ensures Decidable(old(db.Snapshot()), requestId, caller) ==>
      r == Ok(UpdatedTo + StatusWire(action))
      && db.Snapshot() == old(db.Snapshot()).(
           requests := old(db.requests)[requestId := old(db.requests)[requestId].(status := action)])
  {
    if !(requestId in db.requests && db.requests[requestId].receiverId == caller) {
      return Err(404, RequestNotFound);
    }
    var q := db.requests[requestId];
    db.UpdateRequest(q.(status := action));
    r := Ok(UpdatedTo + StatusWire(action));
  }
}

=== FILE: schemas.dfy ===
/**
 * Request-body validation of wasn/app/db/schemas.py: the `UserCreate`
 * field constraints and validators, the optional fields of `UserUpdate`,
 * and the error list a 422 answer carries (pydantic checks every field and
 * reports each failing one, in declaration order).
 */
module Schemas {
  import opened Common
  import opened Text

  /** One entry of the 422 error list: the field and its message. */
  datatype FieldError = FieldError(field: string, message: string)

  datatype UserCreate = UserCreate(username: string, password: string, fullName: string, email: string, phone: string)

  /**
   * A profile-update body. `email` has no default in the schema, so its key
   * must be present (`emailSent`), though its value may be null; the other
   * fields default to null when left out.
   */
  datatype UserUpdate = UserUpdate(fullName: Option<string>, emailSent: bool, email: Option<string>, phone: Option<string>,
                                   password: Option<string>)

  predicate IsAsciiLetter(c: char) { ('A' <= c <= 'Z') || ('a' <= c <= 'z') }

  /** `[A-Za-z0-9_]`. */
  predicate IsWordChar(c: char) { IsAsciiLetter(c) || IsDigit(c) || c == '_' }

  /** The whole string matches `[A-Za-z0-9_]+`. */
  predicate UsernameBody(s: string) { s != [] && forall i :: 0 <= i < |s| ==> IsWordChar(s[i]) }

  /** The whole string matches `(05)[0-9]{8}`. */
  predicate PhoneBody(s: string) { |s| == 10 && s[0] == '0' && s[1] == '5' && AllDigits(s[2..]) }

  /**
   * Python's `re.match(r"^...$", s)`: `$` matches at the very end or just
   * before a final newline, so the body may be followed by one "\n".
   */
  predicate PyAnchoredMatch(s: string, body: string -> bool) {
    body(s) || (s != [] && s[|s| - 1] == '\n' && body(s[..|s| - 1]))
  }

  /** `validate_username` as written. */
  predicate UsernamePatternAsWritten(s: string) { PyAnchoredMatch(s, UsernameBody) }

  /** `validate_phone` as written. */
  predicate PhonePatternAsWritten(s: string) { PyAnchoredMatch(s, PhoneBody) }

  /** `re.search(r"[A-Za-z]", s)`. */
  predicate HasLetter(s: string) { exists i | 0 <= i < |s| :: IsAsciiLetter(s[i]) }

  /** `re.search(r"\d", s)`, on ASCII digits. */
  predicate HasDigit(s: string) { exists i | 0 <= i < |s| :: IsDigit(s[i]) }

  /** The `min_length`/`max_length` message, or none. */
  function LengthError(s: string, lo: nat, hi: nat): (r: Option<string>)
    requires 2 <= lo <= hi
    ensures r.None? <==> lo <= |s| <= hi
  {
    if |s| < lo then Some("String should have at least " + DecimalString(lo) + " characters")
    else if |s| > hi then Some("String should have at most " + DecimalString(hi) + " characters")
    else None
  }

  /** A `ValueError` raised by a field validator, as pydantic reports it. */
  function ValueError(msg: string): string { "Value error, " + msg }

  /**
   * The username check with the pattern read as the whole-string match the
   * message describes (no trailing newline); the length constraint runs
   * first and a failing length skips the validator.
   */
  function UsernameError(s: string): (r: Option<string>)
    ensures r.None? <==> 3 <= |s| <= 20 && UsernameBody(s)
  {
    match LengthError(s, 3, 20)
    case Some(e) => Some(e)
    case None =>
      if UsernameBody(s) then None
      else Some(ValueError("Username can only contain letters, numbers, and _"))
  }

  /** `validate_username` exactly as written, after the length constraint. */
  function UsernameErrorAsWritten(s: string): (r: Option<string>)
    ensures r.None? <==> 3 <= |s| <= 20 && UsernamePatternAsWritten(s)
  {
    match LengthError(s, 3, 20)
    case Some(e) => Some(e)
    case None =>
      if UsernamePatternAsWritten(s) then None
      else Some(ValueError("Username can only contain letters, numbers, and _"))
  }

  function PasswordError(s: string): (r: Option<string>)
    ensures r.None? <==> 8 <= |s| <= 20 && HasLetter(s) && HasDigit(s)
  {
    match LengthError(s, 8, 20)
    case Some(e) => Some(e)
    case None =>
      if !HasLetter(s) then Some(ValueError("Password must contain at least one letter"))
      else if !HasDigit(s) then Some(ValueError("Password must contain at least one number"))
      else None
  }

  function FullNameError(s: string): (r: Option<string>)
    ensures r.None? <==> 2 <= |s| <= 50
  {
    LengthError(s, 2, 50)
  }

  /** The phone check, with the pattern read as a whole-string match. */
  function PhoneError(s: string): (r: Option<string>)
    ensures r.None? <==> PhoneBody(s)
  {
    match LengthError(s, 10, 13)
    case Some(e) => Some(e)
    case None =>
      if PhoneBody(s) then None
      else Some(ValueError("Phone must start with 05 and be 10 digits long"))
  }

  /** `validate_phone` exactly as written, after the length constraint. */
  function PhoneErrorAsWritten(s: string): (r: Option<string>)
    ensures r.None? <==> 10 <= |s| <= 13 && PhonePatternAsWritten(s)
  {
    match LengthError(s, 10, 13)
    case Some(e) => Some(e)
    case None =>
      if PhonePatternAsWritten(s) then None
      else Some(ValueError("Phone must start with 05 and be 10 digits long"))
  }

  function Report(field: string, e: Option<string>): (r: seq<FieldError>)
    ensures |r| == if e.Some? then 1 else 0
    ensures forall i :: 0 <= i < |r| ==> r[i].field == field
  {
    if e.Some? then [FieldError(field, e.value)] else []
  }

  /**
   * The 422 error list for a registration body. `isEmail` is the e-mail
   * syntax check of `EmailStr`, which belongs to an outside library.
   */
  function UserCreateErrors(u: UserCreate, isEmail: string -> bool): (r: seq<FieldError>)
    ensures r == [] <==>
      (3 <= |u.username| <= 20 && UsernameBody(u.username))
      && (8 <= |u.password| <= 20 && HasLetter(u.password) && HasDigit(u.password))
      && 2 <= |u.fullName| <= 50
      && isEmail(u.email)
      && PhoneBody(u.phone)
  {
    var a := Report("username", UsernameError(u.username));
    var b := Report("password", PasswordError(u.password));
    var c := Report("full_name", FullNameError(u.fullName));
    var d := Report("email", if isEmail(u.email) then None else Some("value is not a valid email address"));
    var e := Report("phone", PhoneError(u.phone));
    a + b + c + d + e
  }

  /** The `^05\d{8}$` pattern constraint: pydantic's regex engine has no trailing-newline case. */
  function UpdatePhoneError(s: string): (r: Option<string>)
    ensures r.None? <==> PhoneBody(s)
  {
    if PhoneBody(s) then None else Some("String should match pattern '^05\\d{8}$'")
  }

  /**
   * The 422 error list for a profile-update body: a missing email key is an
   * error; null fields are not checked.
   */
  function UserUpdateErrors(u: UserUpdate, isEmail: string -> bool): (r: seq<FieldError>)
    ensures !u.emailSent ==> FieldError("email", "Field required") in r
    ensures r == [] <==>
      (u.fullName.Some? ==> 2 <= |u.fullName.value| <= 50)
      && u.emailSent
      && (u.email.Some? ==> isEmail(u.email.value))
      && (u.phone.Some? ==> PhoneBody(u.phone.value))
      && (u.password.Some? ==> 8 <= |u.password.value| <= 20)
  {
    (if u.fullName.Some? then Report("full_name", LengthError(u.fullName.value, 2, 50)) else [])
    + (if !u.emailSent then [FieldError("email", "Field required")]
       else if u.email.Some? && !isEmail(u.email.value) then [FieldError("email", "value is not a valid email address")] else [])
    + (if u.phone.Some? then Report("phone", UpdatePhoneError(u.phone.value)) else [])
    + (if u.password.Some? then Report("password", LengthError(u.password.value, 8, 20)) else [])
  }

  /**
   * An accepted phone is exactly 10 characters: "05" and eight digits. The
   * 10..13 length bound never decides anything on its own.
   */
  lemma PhoneIsTenCharacters(s: string)
    ensures PhoneError(s).None? <==> |s| == 10 && s[..2] == "05" && AllDigits(s[2..])
  {
    if |s| == 10 && s[..2] == "05" {
      assert s[0] == s[..2][0] && s[1] == s[..2][1];
    }
  }

  /**
   * A password the update accepts may lack a digit or a letter: the
   * composition rule of registration is not applied there.
   */
  lemma UpdateSkipsPasswordComposition()
    ensures UserUpdateErrors(UserUpdate(None, true, None, None, Some("abcdefgh")), s => true) == []
    ensures PasswordError("abcdefgh").Some?
  {
    assert !HasDigit("abcdefgh");
  }

  /**
   * As written, `re.match` with `$` lets a username end in a newline, and
   * that newline counts toward the length, so a two-character name passes.
   */
  lemma UsernameTrailingNewline()
    ensures UsernameErrorAsWritten("ab\n").None?
    ensures UsernameErrorAsWritten("abc\n").None?
    ensures UsernameError("ab\n").Some? && UsernameError("abc\n").Some?
  {
    assert "ab\n"[..2] == "ab";
    assert "abc\n"[..3] == "abc";
    assert !IsWordChar("ab\n"[2]) && !UsernameBody("ab\n");
    assert !IsWordChar("abc\n"[3]) && !UsernameBody("abc\n");
  }

  /** As written, an 11-character phone ending in a newline passes. */
  lemma PhoneTrailingNewline()
    ensures PhoneErrorAsWritten("0512345678\n").None?
    ensures PhoneError("0512345678\n").Some?
  {
    assert "0512345678\n"[..10] == "0512345678";
    assert "0512345678"[2..] == "12345678";
  }

  /**
   * The validators as written and the corrected ones differ exactly on
   * strings that end in a newline: a string without one is judged the
   * same way by both.
   */
  lemma {:induction false} AsWrittenAgreesWithoutNewline(s: string)
    requires s == [] || s[|s| - 1] != '\n'
    ensures UsernameErrorAsWritten(s).None? <==> UsernameError(s).None?
    ensures PhoneErrorAsWritten(s).None? <==> PhoneError(s).None?
  {
  }

  /** The corrected validators never accept a newline anywhere. */
  lemma CorrectedRejectNewline(s: string, i: int)
    requires 0 <= i < |s| && s[i] == '\n'
    ensures UsernameError(s).Some? && PhoneError(s).Some?
  {
    if i >= 2 {
      assert s[2..][i - 2] == '\n';
    }
  }
}

=== FILE: text.dfy ===
/**
 * The string primitives the source relies on, with the semantics of the
 * language each call is written in: JavaScript's `trim`, `toLowerCase`,
 * `includes`, `Number(...)` and `parseInt(...)`, Python's `str.strip` and
 * `str(int)`.
 */
module Text {
  import opened Common

  /** JavaScript's WhiteSpace and LineTerminator characters (what `trim` removes). */
  predicate IsJsSpace(c: char) {
    c == ' ' || c == '\t' || c == '\n' || c == '\r' || c == '\U{B}' || c == '\U{C}'
    || c == '\U{A0}' || c == '\U{FEFF}' || c == '\U{1680}'
    || ('\U{2000}' <= c <= '\U{200A}')
    || c == '\U{2028}' || c == '\U{2029}' || c == '\U{202F}' || c == '\U{205F}' || c == '\U{3000}'
  }

  /** Python's `str.isspace` characters (what `str.strip()` removes). */
  predicate IsPySpace(c: char) {
    ('\t' <= c <= '\r') || ('\U{1C}' <= c <= '\U{1F}') || c == ' '
    || c == '\U{85}' || c == '\U{A0}' || c == '\U{1680}'
    || ('\U{2000}' <= c <= '\U{200A}')
    || c == '\U{2028}' || c == '\U{2029}' || c == '\U{202F}' || c == '\U{205F}' || c == '\U{3000}'
  }

  /** Every character of `s` is a space in the sense of `space`. */
  predicate AllSpace(s: string, space: char -> bool) {
    forall i :: 0 <= i < |s| ==> space(s[i])
  }

  /** The number of spaces in `s` from index `lo` on, up to the first non-space. */
  function SpacesFrom(s: string, lo: nat, space: char -> bool): (n: nat)
    requires lo <= |s|
    ensures lo + n <= |s|
    ensures forall k :: lo <= k < lo + n ==> space(s[k])
    ensures lo + n == |s| || !space(s[lo + n])
    decreases |s| - lo
  {
    if lo == |s| || !space(s[lo]) then 0 else SpacesFrom(s, lo + 1, space) + 1
  }

  /** The number of spaces in `s` before index `hi`, back to the last non-space at or after `lo`. */
  function SpacesBefore(s: string, lo: nat, hi: nat, space: char -> bool): (n: nat)
    requires lo <= hi <= |s|
    ensures n <= hi - lo
    ensures forall k :: hi - n <= k < hi ==> space(s[k])
    ensures n == hi - lo || !space(s[hi - n - 1])
    decreases hi - lo
  {
    if hi == lo || !space(s[hi - 1]) then 0 else SpacesBefore(s, lo, hi - 1, space) + 1
  }

  /** The number of spaces `s` starts with. */
  function LeadingSpace(s: string, space: char -> bool): nat
    ensures LeadingSpace(s, space) <= |s|
  {
    SpacesFrom(s, 0, space)
  }

  /** Leading spaces removed. */
  function TrimStart(s: string, space: char -> bool): string {
    s[LeadingSpace(s, space)..]
  }

  /**
   * Leading and trailing spaces removed. The result is the slice of `s`
   * that starts and ends on a non-space; everything cut off is space.
   */
  function Trim(s: string, space: char -> bool): (r: string)
    ensures OccursAt(s, r, LeadingSpace(s, space))
    ensures r == [] || (!space(r[0]) && !space(r[|r| - 1]))
    ensures r == [] <==> AllSpace(s, space)
  {
    var i := SpacesFrom(s, 0, space);
    var j := SpacesBefore(s, i, |s|, space);
    s[i..|s| - j]
  }

  /** JavaScript `s.trim()`. */
  function JsTrim(s: string): string { Trim(s, IsJsSpace) }

  /** `!s.trim()` in JavaScript: empty or only whitespace. */
  predicate IsBlank(s: string) { JsTrim(s) == [] }

  /** Python `s.strip()`. */
  function PyStrip(s: string): string { Trim(s, IsPySpace) }

  lemma BlankIffAllSpace(s: string)
    ensures IsBlank(s) <==> AllSpace(s, IsJsSpace)
  {
  }

  function LowerChar(c: char): char {
    if 'A' <= c <= 'Z' then (c as int + 32) as char else c
  }

  function UpperChar(c: char): char {
    if 'a' <= c <= 'z' then (c as int - 32) as char else c
  }

  /** `toLowerCase()` on the ASCII letters; other characters are kept. */
  function Lower(s: string): (r: string)
    ensures |r| == |s|
    ensures forall i :: 0 <= i < |s| ==> r[i] == LowerChar(s[i])
  {
    seq(|s|, i requires 0 <= i < |s| => LowerChar(s[i]))
  }

  /** `toUpperCase()` on the ASCII letters; other characters are kept. */
  function Upper(s: string): (r: string)
    ensures |r| == |s|
    ensures forall i :: 0 <= i < |s| ==> r[i] == UpperChar(s[i])
  {
    seq(|s|, i requires 0 <= i < |s| => UpperChar(s[i]))
  }

  /** Case mapping never turns a space into a non-space or back. */
  lemma CaseKeepsSpace(c: char)
    ensures IsJsSpace(LowerChar(c)) <==> IsJsSpace(c)
    ensures IsJsSpace(UpperChar(c)) <==> IsJsSpace(c)
  {
  }

  /** So `trim` sees the same blanks before and after a case mapping. */
  lemma CaseKeepsBlank(s: string)
    ensures IsBlank(Lower(s)) <==> IsBlank(s)
    ensures IsBlank(Upper(s)) <==> IsBlank(s)
  {
    BlankIffAllSpace(s);
    BlankIffAllSpace(Lower(s));
    BlankIffAllSpace(Upper(s));
    forall i | 0 <= i < |s| ensures IsJsSpace(Lower(s)[i]) <==> IsJsSpace(s[i]) {
      CaseKeepsSpace(s[i]);
    }
    forall i | 0 <= i < |s| ensures IsJsSpace(Upper(s)[i]) <==> IsJsSpace(s[i]) {
      CaseKeepsSpace(s[i]);
    }
  }

  /** Upper-casing twice is upper-casing once, and lower-casing forgets a prior upper-casing. */
  lemma CaseMappingsAbsorb(s: string)
    ensures Upper(Upper(s)) == Upper(s)
    ensures Lower(Upper(s)) == Lower(s)
  {
  }

  /** `sub` appears in `s` starting at index `i`. */
  predicate OccursAt(s: string, sub: string, i: int) {
    0 <= i && i + |sub| <= |s| && s[i..i + |sub|] == sub
  }

  /** JavaScript `s.includes(sub)`. */
  predicate Contains(s: string, sub: string) {
    exists i | 0 <= i <= |s| :: OccursAt(s, sub, i)
  }

  lemma ContainsEmpty(s: string)
    ensures Contains(s, [])
  {
    assert OccursAt(s, [], 0);
  }

  lemma NothingInEmpty(sub: string)
    requires sub != []
    ensures !Contains([], sub)
  {
  }

  predicate IsDigit(c: char) { '0' <= c <= '9' }

  predicate AllDigits(s: string) { forall i :: 0 <= i < |s| ==> IsDigit(s[i]) }

  function DigitValue(c: char): nat
    requires IsDigit(c)
  {
    c as int - '0' as int
  }

  function DigitChar(d: nat): (c: char)
    requires d < 10
    ensures IsDigit(c) && DigitValue(c) == d
  {
    ('0' as int + d) as char
  }

  /** The number a run of decimal digits denotes. */
  function DigitsValue(ds: string): nat
    requires AllDigits(ds)
  {
    if ds == [] then 0 else DigitsValue(ds[..|ds| - 1]) * 10 + DigitValue(ds[|ds| - 1])
  }

  function Pow10(n: nat): (r: nat)
    ensures r >= 1
  {
    if n == 0 then 1 else 10 * Pow10(n - 1)
  }

  /** Python `str(n)` / an f-string field for a non-negative int. */
  function DecimalString(n: nat): (r: string)
    ensures r != [] && AllDigits(r)
    ensures DigitsValue(r) == n
  {
    if n < 10 then [DigitChar(n)]
    else
      var r := DecimalString(n / 10) + [DigitChar(n % 10)];
      assert r[..|r| - 1] == DecimalString(n / 10);
      r
  }

  /** The longest prefix of `s` made of decimal digits. */
  function LeadingDigits(s: string): (r: string)
    ensures AllDigits(r) && r <= s
    ensures |r| == |s| || !IsDigit(s[|r|])
  {
    if s == [] || !IsDigit(s[0]) then [] else [s[0]] + LeadingDigits(s[1..])
  }

  /** The value of a digit in base `radix` (2, 8, 10 or 16), letters in either case; `None` for any other character. */
  function DigitIn(c: char, radix: nat): (r: Option<nat>)
    ensures r.Some? ==> r.value < radix
    ensures IsDigit(c) && radix == 10 ==> r == Some(DigitValue(c))
  {
    var v: int :=
      if '0' <= c <= '9' then c as int - '0' as int
      else if 'a' <= c <= 'z' then c as int - 'a' as int + 10
      else if 'A' <= c <= 'Z' then c as int - 'A' as int + 10
      else radix;
    if 0 <= v < radix then Some(v) else None
  }

  predicate AllDigitsIn(s: string, radix: nat) { forall i :: 0 <= i < |s| ==> DigitIn(s[i], radix).Some? }

  /** The number a run of base-`radix` digits denotes. */
  function RadixValue(ds: string, radix: nat): nat
    requires AllDigitsIn(ds, radix)
  {
    if ds == [] then 0 else RadixValue(ds[..|ds| - 1], radix) * radix + DigitIn(ds[|ds| - 1], radix).value
  }

  /** The longest prefix of `s` made of base-`radix` digits. */
  function LeadingDigitsIn(s: string, radix: nat): (r: string)
    ensures AllDigitsIn(r, radix) && r <= s
    ensures |r| == |s| || DigitIn(s[|r|], radix).None?
  {
    if s == [] || DigitIn(s[0], radix).None? then [] else [s[0]] + LeadingDigitsIn(s[1..], radix)
  }

  /** `s` starts with "0" and then the lower- or upper-case letter `mark`. */
  predicate RadixPrefix(s: string, mark: char)
    requires 'a' <= mark <= 'z'
  {
    |s| >= 2 && s[0] == '0' && (s[1] == mark || s[1] as int == mark as int - 32)
  }

  /**
   * JavaScript `parseInt(s)` without a radix: leading whitespace is
   * skipped, an optional sign is read, a "0x" or "0X" then selects base 16
   * and anything else base 10, and the longest run of digits of that base
   * is read; the rest is ignored. `None` stands for `NaN` (no digit).
   */
  function ParseInt(s: string): (r: Option<int>)
  {
    var t := TrimStart(s, IsJsSpace);
    var neg := t != [] && t[0] == '-';
    var u := if t != [] && (t[0] == '-' || t[0] == '+') then t[1..] else t;
    match UnsignedInt(u)
    case None => None
    case Some(v) => if neg then Some(-(v as int)) else Some(v)
  }

  /** `parseInt` after the sign: "0x" or "0X" selects base 16, anything else base 10. */
  function UnsignedInt(u: string): Option<nat> {
    var radix := if RadixPrefix(u, 'x') then 16 else 10;
    var ds := LeadingDigitsIn(if radix == 16 then u[2..] else u, radix);
    if ds == [] then None else Some(RadixValue(ds, radix))
  }

  /** Base-10 digit runs have the same value read either way. */
  lemma {:induction false} DecimalRadixValue(ds: string)
    requires AllDigits(ds)
    ensures AllDigitsIn(ds, 10) && RadixValue(ds, 10) == DigitsValue(ds)
  {
    if ds != [] {
      DecimalRadixValue(ds[..|ds| - 1]);
    }
  }

  /** Text that starts with something other than whitespace is its own `trimStart()`. */
  lemma {:induction false} NoLeadingSpace(s: string)
    requires s != [] && !IsJsSpace(s[0])
    ensures TrimStart(s, IsJsSpace) == s
  {
    assert SpacesFrom(s, 0, IsJsSpace) == 0;
  }

  /** Text with something other than whitespace at both ends is its own `trim()`. */
  lemma NoSurroundingSpace(s: string)
    requires s != [] && !IsJsSpace(s[0]) && !IsJsSpace(s[|s| - 1])
    ensures JsTrim(s) == s
  {
    assert SpacesFrom(s, 0, IsJsSpace) == 0;
    assert SpacesBefore(s, 0, |s|, IsJsSpace) == 0;
  }

  /** Digits followed by text that neither continues them nor makes them a "0x" prefix are read as a decimal. */
  lemma {:induction false} DecimalRun(ds: string, rest: string)
    requires ds != [] && AllDigits(ds)
    requires rest == [] || (!IsDigit(rest[0]) && rest[0] != 'x' && rest[0] != 'X')
    ensures !RadixPrefix(ds + rest, 'x')
    ensures LeadingDigitsIn(ds + rest, 10) == ds
  {
    assert (ds + rest)[0] == ds[0];
    if |ds| >= 2 {
      assert (ds + rest)[1] == ds[1];
    }
    LeadingDigitsOfDecimal(ds, rest);
  }

  lemma {:induction false} LeadingDigitsOfDecimal(ds: string, rest: string)
    requires AllDigits(ds) && (rest == [] || !IsDigit(rest[0]))
    ensures LeadingDigitsIn(ds + rest, 10) == ds
  {
    if ds != [] {
      assert (ds + rest)[1..] == ds[1..] + rest;
      LeadingDigitsOfDecimal(ds[1..], rest);
    } else if rest != [] {
      assert ds + rest == rest;
      assert DigitIn(rest[0], 10).None?;
    }
  }

  /**
   * `parseInt` reads back the decimal text of an integer and stops at the
   * first character that is not a digit, so "12e3" and "12.5" read as 12.
   */
  lemma {:induction false} ParseIntReadsDecimal(n: nat, rest: string)
    requires rest == [] || (!IsDigit(rest[0]) && rest[0] != 'x' && rest[0] != 'X')
    ensures ParseInt(DecimalString(n) + rest) == Some(n)
  {
    UnsignedIntReadsDecimal(n, rest);
    ParseIntDigitLed(DecimalString(n) + rest, n);
  }

  /** Text that starts with a digit is read by `parseInt` as it is read after the sign. */
  lemma {:induction false} ParseIntDigitLed(s: string, v: nat)
    requires s != [] && IsDigit(s[0]) && UnsignedInt(s) == Some(v)
    ensures ParseInt(s) == Some(v)
    ensures ParseInt("-" + s) == Some(-(v as int))
  {
    ParseIntUnsigned(s);
    ParseIntAfterMinus(s);
  }

  /** Without whitespace or a sign in front, `parseInt` reads the text as it would after the sign. */
  lemma {:induction false} ParseIntUnsigned(s: string)
    requires s != [] && !IsJsSpace(s[0]) && s[0] != '-' && s[0] != '+'
    ensures ParseInt(s) == match UnsignedInt(s) case None => None case Some(v) => Some(v as int)
  {
    NoLeadingSpace(s);
  }

  /** After a minus sign, `parseInt` reads the rest as it would after the sign, negated. */
  lemma {:induction false} ParseIntAfterMinus(s: string)
    ensures ParseInt("-" + s) == match UnsignedInt(s) case None => None case Some(v) => Some(-(v as int))
  {
    var t := "-" + s;
    NoLeadingSpace(t);
    assert t[0] == '-' && t[1..] == s;
  }

  /** After the sign, the decimal text of a natural is read as that natural. */
  lemma {:induction false} UnsignedIntReadsDecimal(n: nat, rest: string)
    requires rest == [] || (!IsDigit(rest[0]) && rest[0] != 'x' && rest[0] != 'X')
    ensures var s := DecimalString(n) + rest; s != [] && IsDigit(s[0]) && UnsignedInt(s) == Some(n)
  {
    var ds := DecimalString(n);
    var s := ds + rest;
    assert s[0] == ds[0];
    DecimalRun(ds, rest);
    DecimalRadixValue(ds);
  }

  /** `parseInt` reads a minus sign before the decimal text of a natural as its negation. */
  lemma {:induction false} ParseIntReadsNegative(n: nat)
    ensures ParseInt("-" + DecimalString(n)) == Some(-(n as int))
  {
    var ds := DecimalString(n);
    assert ds + [] == ds;
    UnsignedIntReadsDecimal(n, []);
    ParseIntDigitLed(ds, n);
  }

  lemma {:induction false} ParseIntReadsNatural(n: nat)
    ensures ParseInt(DecimalString(n)) == Some(n)
  {
    assert DecimalString(n) + [] == DecimalString(n);
    ParseIntReadsDecimal(n, []);
  }

  /** `parseInt` stops at the exponent mark: `m` "e" `k` reads as `m`. */
  lemma {:induction false} ParseIntReadsExponentForm(m: nat, k: nat)
    ensures ParseInt(DecimalString(m) + "e" + DecimalString(k)) == Some(m as int)
  {
    var rest := "e" + DecimalString(k);
    assert DecimalString(m) + "e" + DecimalString(k) == DecimalString(m) + rest;
    ParseIntReadsDecimal(m, rest);
  }

  /** A leading minus sign negates what `parseInt` reads. */
  lemma {:induction false} ParseIntMinus(u: string)
    requires u != [] && !IsJsSpace(u[0]) && u[0] != '-' && u[0] != '+'
    ensures ParseInt("-" + u) == if ParseInt(u).Some? then Some(-ParseInt(u).value) else None
  {
    ParseIntUnsigned(u);
    ParseIntAfterMinus(u);
  }

  /** Index of the first `c` in `s`, if any. */
  function IndexOf(s: string, c: char): (r: Option<nat>)
    ensures r.Some? ==> r.value < |s| && s[r.value] == c && c !in s[..r.value]
    ensures r.None? ==> c !in s
  {
    if s == [] then None
    else if s[0] == c then Some(0)
    else
      var t := IndexOf(s[1..], c);
      if t.None? then None
      else
        assert s[..t.value + 1] == [s[0]] + s[1..][..t.value];
        Some(t.value + 1)
  }

  /** Unsigned decimal text `digits [. digits]` with at least one digit. */
  function UnsignedDecimal(u: string): (r: Option<real>)
    ensures r.Some? ==> r.value >= 0.0
  {
    match IndexOf(u, '.')
    case None =>
      if u != [] && AllDigits(u) then Some(DigitsValue(u) as real) else None
    case Some(i) =>
      var whole, frac := u[..i], u[i + 1..];
      if AllDigits(whole) && AllDigits(frac) && |whole| + |frac| >= 1
      then Some(DigitsValue(whole) as real + DigitsValue(frac) as real / Pow10(|frac|) as real)
      else None
  }

  /** Index of the first exponent mark `e` or `E` in `s`, if any. */
  function ExponentMark(s: string): (r: Option<nat>)
    ensures r.Some? ==> r.value < |s| && (s[r.value] == 'e' || s[r.value] == 'E')
    ensures r.Some? ==> forall i :: 0 <= i < r.value ==> s[i] != 'e' && s[i] != 'E'
    ensures r.None? ==> forall i :: 0 <= i < |s| ==> s[i] != 'e' && s[i] != 'E'
  {
    if s == [] then None
    else if s[0] == 'e' || s[0] == 'E' then Some(0)
    else
      var t := ExponentMark(s[1..]);
      if t.None? then None else Some(t.value + 1)
  }

  /** The exponent after the mark: `[+-]digits`. */
  function ExponentValue(s: string): (r: Option<int>)
    ensures r.Some? ==> s != [] && AllDigits(s[if s[0] == '-' || s[0] == '+' then 1 else 0..])
  {
    var signed := s != [] && (s[0] == '-' || s[0] == '+');
    var ds := if signed then s[1..] else s;
    if ds != [] && AllDigits(ds) then Some(if s[0] == '-' then -(DigitsValue(ds) as int) else DigitsValue(ds))
    else None
  }

  /** `m` times ten to the power `e`. */
  function Scaled(m: real, e: int): (r: real)
    requires m >= 0.0
    ensures r >= 0.0 && (r == 0.0 <==> m == 0.0)
  {
    if e >= 0 then m * Pow10(e) as real else m / Pow10(-e) as real
  }

  /**
   * Unsigned decimal text with an optional exponent,
   * `(digits [. digits] | . digits) [(e|E) [+-] digits]`.
   */
  function UnsignedNumber(u: string): (r: Option<real>)
    ensures r.Some? ==> r.value >= 0.0
  {
    match ExponentMark(u)
    case None => UnsignedDecimal(u)
    case Some(i) =>
      match (UnsignedDecimal(u[..i]), ExponentValue(u[i + 1..]))
      case (Some(m), Some(e)) => Some(Scaled(m, e))
      case _ => None
  }

  /** Text "0b", "0o" or "0x" (either case) followed by at least one digit of that base. */
  function PrefixedInteger(u: string): (r: Option<real>)
    ensures r.Some? ==> r.value >= 0.0
  {
    var radix := if RadixPrefix(u, 'x') then 16 else if RadixPrefix(u, 'o') then 8 else if RadixPrefix(u, 'b') then 2 else 0;
    if radix != 0 && |u| > 2 && AllDigitsIn(u[2..], radix) then Some(RadixValue(u[2..], radix) as real) else None
  }

  /**
   * JavaScript `Number(s)` (also what `isNaN(s)` and `s <= 0` apply to a
   * string), for finite values: surrounding whitespace is ignored, the
   * empty string is 0, an optionally signed decimal with an optional
   * exponent is its value, and an unsigned "0x", "0o" or "0b" literal is
   * read in its base; anything else is `NaN` (`None`).
   */
  function JsNumber(s: string): (r: Option<real>)
    ensures JsTrim(s) == [] ==> r == Some(0.0)
  {
    NumberText(JsTrim(s))
  }

  /** `Number` on text already stripped of its surrounding whitespace. */
  function NumberText(t: string): Option<real> {
    if t == [] then Some(0.0)
    else if t[0] == '-' then
      match UnsignedNumber(t[1..])
      case None => None
      case Some(v) => Some(-v)
    else if t[0] == '+' then UnsignedNumber(t[1..])
    else if PrefixedInteger(t).Some? then PrefixedInteger(t)
    else UnsignedNumber(t)
  }

  /** Decimal digits hold no '.' and no exponent mark, so they read as a plain decimal. */
  lemma {:induction false} UnsignedNumberReadsDecimal(n: nat)
    ensures UnsignedDecimal(DecimalString(n)) == Some(n as real)
    ensures UnsignedNumber(DecimalString(n)) == Some(n as real)
  {
    var ds := DecimalString(n);
    var dot := IndexOf(ds, '.');
    if dot.Some? {
      assert false;
    }
    var mark := ExponentMark(ds);
    if mark.Some? {
      assert false;
    }
  }

  /**
   * Text that starts and ends with a digit, and whose second character is
   * not a radix letter, is read by `Number` as unsigned decimal text.
   */
  lemma {:induction false} PlainNumberText(s: string)
    requires s != [] && IsDigit(s[0]) && IsDigit(s[|s| - 1])
    requires |s| < 2 || IsDigit(s[1]) || s[1] == 'e'
    ensures JsNumber(s) == UnsignedNumber(s)
  {
    NoSurroundingSpace(s);
    assert PrefixedInteger(s).None?;
  }

  /** `Number` on "-" and then text `u`: the negation of `u` read as unsigned. */
  lemma {:induction false} NumberTextMinus(u: string)
    ensures NumberText("-" + u) == if UnsignedNumber(u).Some? then Some(-UnsignedNumber(u).value) else None
  {
    assert ("-" + u)[1..] == u;
  }

  /** Text `u` read as the unsigned number `v`, after a minus sign, is read as -v. */
  lemma {:induction false} NegatedReading(u: string, v: real)
    requires u != [] && IsDigit(u[|u| - 1]) && UnsignedNumber(u) == Some(v)
    ensures JsNumber("-" + u) == Some(-v)
  {
    MinusNotTrimmed(u);
    NumberTextMinus(u);
  }

  /** A minus sign and then text ending in a digit has no space to trim. */
  lemma {:induction false} MinusNotTrimmed(u: string)
    requires u != [] && IsDigit(u[|u| - 1])
    ensures JsTrim("-" + u) == "-" + u
  {
    var s := "-" + u;
    assert s[|s| - 1] == u[|u| - 1];
    NoSurroundingSpace(s);
  }

  /** `Number` reads back the decimal text of every natural. */
  lemma {:induction false} JsNumberReadsDecimal(n: nat)
    ensures JsNumber(DecimalString(n)) == Some(n as real)
  {
    var ds := DecimalString(n);
    assert IsDigit(ds[0]) && IsDigit(ds[|ds| - 1]);
    assert |ds| >= 2 ==> IsDigit(ds[1]);
    PlainNumberText(ds);
    UnsignedNumberReadsDecimal(n);
  }

  /** `Number` reads a minus sign before the decimal text of a natural as its negation. */
  lemma {:induction false} JsNumberReadsNegative(n: nat)
    ensures JsNumber("-" + DecimalString(n)) == Some(-(n as real))
  {
    var ds := DecimalString(n);
    assert IsDigit(ds[|ds| - 1]);
    UnsignedNumberReadsDecimal(n);
    NegatedReading(ds, n as real);
  }

  /** The first exponent mark after a run of decimal digits is the one that ends it. */
  lemma {:induction false} ExponentMarkAfterDigits(ds: string, rest: string)
    requires AllDigits(ds) && rest != [] && rest[0] == 'e'
    ensures ExponentMark(ds + rest) == Some(|ds|)
  {
    var s := ds + rest;
    assert s[|ds|] == 'e';
  }

  /** The decimal text of a natural, as an exponent, is that natural. */
  lemma {:induction false} ExponentValueOfDecimal(k: nat)
    ensures ExponentValue(DecimalString(k)) == Some(k as int)
  {
    var ks := DecimalString(k);
    assert IsDigit(ks[0]);
  }

  /** Scaling a natural by a non-negative exponent stays exact. */
  lemma {:induction false} ScaledNatural(m: nat, k: nat)
    ensures Scaled(m as real, k) == (m * Pow10(k)) as real
  {
  }

  /** Unsigned, "m" "e" "k" is m times ten to the k. */
  lemma {:induction false} UnsignedNumberReadsExponentForm(m: nat, k: nat)
    ensures UnsignedNumber(DecimalString(m) + "e" + DecimalString(k)) == Some(Scaled(m as real, k))
  {
    var ds, ks := DecimalString(m), DecimalString(k);
    var s := ds + ("e" + ks);
    assert ds + "e" + ks == s;
    ExponentMarkAfterDigits(ds, "e" + ks);
    assert s[..|ds|] == ds && s[|ds| + 1..] == ks;
    UnsignedNumberReadsDecimal(m);
    ExponentValueOfDecimal(k);
  }

  /** The text m "e" k starts and ends with a digit, and its second character is a digit or the mark. */
  lemma {:induction false} ExponentFormShape(m: nat, k: nat)
    ensures var s := DecimalString(m) + "e" + DecimalString(k);
      s != [] && IsDigit(s[0]) && IsDigit(s[|s| - 1]) && (IsDigit(s[1]) || s[1] == 'e')
  {
    var ds, ks := DecimalString(m), DecimalString(k);
    var s := ds + "e" + ks;
    assert s[0] == ds[0] && s[|s| - 1] == ks[|ks| - 1];
    assert s[1] == if |ds| >= 2 then ds[1] else 'e';
  }

  /** `Number` reads `m` "e" `k`, for naturals `m` and `k`, as m times ten to the k. */
  lemma {:induction false} JsNumberReadsExponentForm(m: nat, k: nat)
    ensures JsNumber(DecimalString(m) + "e" + DecimalString(k)) == Some(Scaled(m as real, k))
    ensures Scaled(m as real, k) == (m * Pow10(k)) as real
  {
    ScaledNatural(m, k);
    ExponentFormShape(m, k);
    PlainNumberText(DecimalString(m) + "e" + DecimalString(k));
    UnsignedNumberReadsExponentForm(m, k);
  }

  /** `Number` reads a minus sign before `m` "e" `k` as the negation of m times ten to the k. */
  lemma {:induction false} JsNumberReadsNegativeExponentForm(m: nat, k: nat)
    ensures JsNumber("-" + (DecimalString(m) + "e" + DecimalString(k))) == Some(-Scaled(m as real, k))
  {
    ExponentFormDigits(m, k);
    NegatedReading(DecimalString(m) + "e" + DecimalString(k), Scaled(m as real, k));
  }

  /** The text m "e" k ends in a digit and reads, unsigned, as m times ten to the k. */
  lemma {:induction false} ExponentFormDigits(m: nat, k: nat)
    ensures var u := DecimalString(m) + "e" + DecimalString(k);
      u != [] && IsDigit(u[|u| - 1]) && UnsignedNumber(u) == Some(Scaled(m as real, k))
  {
    ExponentFormShape(m, k);
    UnsignedNumberReadsExponentForm(m, k);
  }

  /** A run of base-`radix` digits is its own longest leading run. */
  lemma LeadingDigitsInAll(h: string, radix: nat)
    requires AllDigitsIn(h, radix)
    ensures LeadingDigitsIn(h, radix) == h
  {
  }

  /** Every run of base-16 digits after "0x" is read in base 16. */
  lemma {:induction false} ParseIntReadsHexDigits(h: string)
    requires h != [] && AllDigitsIn(h, 16)
    ensures ParseInt("0x" + h) == Some(RadixValue(h, 16) as int)
  {
    var s := "0x" + h;
    NoLeadingSpace(s);
    assert s[0] == '0' && s[1] == 'x' && s[2..] == h;
    LeadingDigitsInAll(h, 16);
  }

  /** JavaScript truthiness of an optional string: present and non-empty. */
  predicate Truthy(s: Option<string>) { s.Some? && s.value != [] }

  /** JavaScript truthiness of an optional id: present and non-zero. */
  predicate TruthyId(x: Option<int>) { x.Some? && x.value != 0 }

  /** JavaScript `s || null` for a string: the empty string becomes `null`. */
  function OrNull(s: string): (r: Option<string>)
    ensures r.None? <==> s == []
    ensures r.Some? ==> r.value == s
  {
    if s == [] then None else Some(s)
  }

  /** Python `str(x)` for an optional string: `None` prints as "None". */
  function PyStr(s: Option<string>): string {
    if s.Some? then s.value else "None"
  }

  /** Python `a or b` for an optional string and a fallback string. */
  function PyOr(a: Option<string>, b: string): string {
    if Truthy(a) then a.value else b
  }
}

=== FILE: users_api.dfy ===
/**
 * The user router, safepaws-backend/app/api/users.py: registration, login,
 * the profile and its update. Request bodies are checked first by the
 * schemas of `Schemas` (a failing body is answered 422 with its error
 * list). The password hash and its check belong to an outside library and
 * are parameters; the caller of the profile endpoints is the username the
 * access token carries.
 */
module UsersApi {
  import opened Common
  import opened Text
  import opened Models
  import opened Db
  import opened Schemas

  /** The registration's success message. */
  const Registered := "User registered successfully!"

  /** A body that fails its schema, or the handler's answer. */
  datatype Outcome<T> = Invalid(errors: seq<FieldError>) | Handled(response: Response<T>)

  /** The profile as GET /users/profile answers it. */
  datatype Profile = Profile(message: string, username: string, userId: int, email: Option<string>,
                             phone: Option<string>, fullName: Option<string>, profilePictureUrl: Option<string>)

  /** The user part of the profile-update answer. */
  datatype ProfileSummary = ProfileSummary(fullName: Option<string>, email: Option<string>, phone: Option<string>,
                                           username: string)

  /**
   * `User.username == …`, `User.email == …` and `User.phone == …`: the
   * filters run in the database, so they compare under its collation.
   */
  predicate UsernameTaken(users: map<int, User>, username: string) {
    exists k | k in users :: CollationEqual(users[k].username, username)
  }

  predicate EmailTaken(users: map<int, User>, email: string) {
    exists k | k in users :: users[k].email.Some? && CollationEqual(users[k].email.value, email)
  }

  predicate PhoneTaken(users: map<int, User>, phone: string) {
    exists k | k in users :: users[k].phone.Some? && CollationEqual(users[k].phone.value, phone)
  }

  /** Letter case never decides whether a username or an e-mail is taken. */
  lemma {:induction false} TakenIgnoresCase(users: map<int, User>, s: string)
    ensures UsernameTaken(users, Upper(s)) <==> UsernameTaken(users, s)
    ensures EmailTaken(users, Upper(s)) <==> EmailTaken(users, s)
  {
    CollationKeyIsLower(s);
  }

  /**
   * The user whose username equals `username` under the collation, if any:
   * the unique index compares the same way, so there is at most one.
   */
  method FindUser(db: Database, username: string) returns (r: Option<User>)
    requires db.Valid()
    ensures r.None? <==> !UsernameTaken(db.users, username)
    ensures r.Some? ==>
      r.value.userId in db.users && db.users[r.value.userId] == r.value && CollationEqual(r.value.username, username)
    ensures r.Some? ==> forall k :: k in db.users && CollationEqual(db.users[k].username, username) ==> k == r.value.userId
  {
    if UsernameTaken(db.users, username) {
      var k :| k in db.users && CollationEqual(db.users[k].username, username);
      r := Some(db.users[k]);
    } else {
      r := None;
    }
  }

  /**
   * The new row's values fit their columns (wasn/app/db/models.py:13-14):
   * the schema already bounds the username, full name and phone below their
   * widths, but not the e-mail, and the hash comes from the outside library.
   */
  predicate NewUserFits(u: UserCreate, hash: string -> string) {
    |u.email| <= EmailWidth && |hash(u.password)| <= PasswordHashWidth
  }

  /**
   * POST /users/register: the username is checked before the e-mail; the
   * stored row holds the password's hash, not the password.
   */
  method Register(db: Database, u: UserCreate, isEmail: string -> bool, hash: string -> string, now: nat, dbError: string)
      returns (r: Outcome<string>)
    requires db.Valid()
    modifies db
    ensures db.Valid()
    ensures r.Invalid? <==> UserCreateErrors(u, isEmail) != []
    ensures r.Invalid? ==> r.errors == UserCreateErrors(u, isEmail)
    ensures r.Handled? && UsernameTaken(old(db.users), u.username) ==>
      r.response == Err(400, "Username is already taken")
    ensures r.Handled? && !UsernameTaken(old(db.users), u.username) && EmailTaken(old(db.users), u.email) ==>
      r.response == Err(400, "Email is already registered")
    ensures r.Handled? && !UsernameTaken(old(db.users), u.username) && !EmailTaken(old(db.users), u.email)
            && !NewUserFits(u, hash) ==>
      r.response == Err(500, dbError)
    ensures UserCreateErrors(u, isEmail) == [] && !UsernameTaken(old(db.users), u.username)
            && !EmailTaken(old(db.users), u.email) && NewUserFits(u, hash) ==>
      r.Handled? && r.response.Ok?
    ensures r.Invalid? || r.response.Err? ==> db.Snapshot() == old(db.Snapshot())
    ensures r.Handled? && r.response.Ok? ==>
      !UsernameTaken(old(db.users), u.username) && !EmailTaken(old(db.users), u.email) && NewUserFits(u, hash)
      && r.response.value == Registered
      && var id := old(db.nextUserId);
         db.Snapshot() == old(db.Snapshot()).(
           users := old(db.users)[id := User(id, u.username, Some(u.fullName), hash(u.password), Some(u.email),
                                             Some(u.phone), now, None)],
           nextUserId := id + 1)
  {
    var errors := UserCreateErrors(u, isEmail);
    if errors != [] {
      return Invalid(errors);
    }
    if UsernameTaken(db.users, u.username) {
      return Handled(Err(400, "Username is already taken"));
    }
    if EmailTaken(db.users, u.email) {
      return Handled(Err(400, "Email is already registered"));
    }
    if !NewUserFits(u, hash) {
      return Handled(Err(500, dbError));
    }
    var user := User(db.nextUserId, u.username, Some(u.fullName), hash(u.password), Some(u.email), Some(u.phone), now, None);
    db.InsertUser(user);
    r := Handled(Ok(Registered));
  }

  /**
   * POST /users/login: 404 for an unknown username, 401 when the password
   * does not check against the stored hash; otherwise the answer is the
   * subject of the access token, the username as stored, whatever the
   * case it was typed in.
   */
  method Login(db: Database, username: string, password: string, verify: (string, string) -> bool)
      returns (r: Response<string>)
    requires db.Valid()
    ensures !UsernameTaken(db.users, username) <==> r == Err(404, "User not found")
    ensures r == Err(401, "Incorrect password") <==>
      exists k :: k in db.users && CollationEqual(db.users[k].username, username) && !verify(password, db.users[k].passwordHash)
    ensures forall k :: k in db.users && CollationEqual(db.users[k].username, username) && verify(password, db.users[k].passwordHash) ==>
      r == Ok(db.users[k].username)
    ensures r.Ok? ==>
      CollationEqual(r.value, username)
      && exists k :: k in db.users && db.users[k].username == r.value && verify(password, db.users[k].passwordHash)
  {
    var user := FindUser(db, username);
    if user.None? {
      return Err(404, "User not found");
    }
    if !verify(password, user.value.passwordHash) {
      return Err(401, "Incorrect password");
    }
    r := Ok(user.value.username);
  }

  /** GET /users/profile: the stored columns of the caller's row. */
  method GetProfile(db: Database, username: string) returns (r: Response<Profile>)
    requires db.Valid()
    ensures !UsernameTaken(db.users, username) <==> r == Err(404, "User not found")
    ensures UsernameTaken(db.users, username) ==> r.Ok?
    ensures r.Ok? ==>
      r.value.userId in db.users
      && var u := db.users[r.value.userId];
         CollationEqual(u.username, username)
         && r.value == Profile("Welcome " + username, u.username, u.userId, u.email, u.phone, u.fullName,
                               u.profilePictureUrl)
  {
    var user := FindUser(db, username);
    if user.None? {
      return Err(404, "User not found");
    }
    var u := user.value;
    r := Ok(Profile("Welcome " + username, u.username, u.userId, u.email, u.phone, u.fullName, u.profilePictureUrl));
  }

  /**
   * The row after a successful update: e-mail, phone and full name change
   * only when given non-empty, the password hash only when a non-empty
   * password is given; the username and id never change.
   */
  function Edited(u: User, d: UserUpdate, hash: string -> string): (r: User)
    ensures r.userId == u.userId && r.username == u.username && r.createdAt == u.createdAt
    ensures r.profilePictureUrl == u.profilePictureUrl
    ensures r.email == (if Truthy(d.email) then d.email else u.email)
    ensures r.phone == (if Truthy(d.phone) then d.phone else u.phone)
    ensures r.fullName == (if Truthy(d.fullName) then d.fullName else u.fullName)
    ensures !Truthy(d.password) ==> r.passwordHash == u.passwordHash
    ensures Truthy(d.password) ==> r.passwordHash == hash(d.password.value)
  {
    u.(email := if Truthy(d.email) then d.email else u.email,
       phone := if Truthy(d.phone) then d.phone else u.phone,
       fullName := if Truthy(d.fullName) then d.fullName else u.fullName,
       passwordHash := if Truthy(d.password) then hash(d.password.value) else u.passwordHash)
  }

  /** An empty update changes nothing, and an update applied twice is applied once. */
  lemma EditedIdentityAndIdempotent(u: User, d: UserUpdate, hash: string -> string)
    ensures Edited(u, UserUpdate(None, true, None, None, None), hash) == u
    ensures Edited(Edited(u, d, hash), d, hash) == Edited(u, d, hash)
  {
  }

  /** The new e-mail is taken by someone: it is given, differs from the caller's, and some row has it. */
  predicate EmailClash(users: map<int, User>, u: User, d: UserUpdate) {
    Truthy(d.email) && d.email != u.email && EmailTaken(users, d.email.value)
  }

  predicate PhoneClash(users: map<int, User>, u: User, d: UserUpdate) {
    Truthy(d.phone) && d.phone != u.phone && PhoneTaken(users, d.phone.value)
  }

  /**
   * The values an edit writes fit their columns: a new e-mail, and the hash
   * of a new password. The schema bounds the full name and the phone.
   */
  predicate EditFits(u: User, d: UserUpdate, hash: string -> string) {
    (Truthy(d.email) && d.email != u.email ==> |d.email.value| <= EmailWidth)
    && (Truthy(d.password) ==> |hash(d.password.value)| <= PasswordHashWidth)
  }

  /**
   * PUT /users/profile/update: the e-mail is checked before the phone, and
   * a refused update leaves the row as it was (nothing is committed).
   */
  method UpdateProfile(db: Database, username: string, d: UserUpdate, isEmail: string -> bool, hash: string -> string,
                       dbError: string)
      returns (r: Outcome<ProfileSummary>)
    requires db.Valid()
    modifies db
    ensures db.Valid()
    ensures r.Invalid? <==> UserUpdateErrors(d, isEmail) != []
    ensures r.Invalid? ==> r.errors == UserUpdateErrors(d, isEmail)
    ensures r.Handled? && !UsernameTaken(old(db.users), username) ==> r.response == Err(404, "User not found")
    ensures r.Invalid? || r.response.Err? ==> db.Snapshot() == old(db.Snapshot())
    ensures r.Handled? && UsernameTaken(old(db.users), username) ==>
      exists k :: k in old(db.users) && CollationEqual(old(db.users)[k].username, username)
        && var u := old(db.users)[k];
           (EmailClash(old(db.users), u, d) ==> r.response == Err(400, "Email already used"))
           && (!EmailClash(old(db.users), u, d) && PhoneClash(old(db.users), u, d) ==>
                 r.response == Err(400, "Phone already used"))
           && (!EmailClash(old(db.users), u, d) && !PhoneClash(old(db.users), u, d) && !EditFits(u, d, hash) ==>
                 r.response == Err(500, dbError))
           && (!EmailClash(old(db.users), u, d) && !PhoneClash(old(db.users), u, d) && EditFits(u, d, hash) ==>
                 var e := Edited(u, d, hash);
                 r.response == Ok(ProfileSummary(e.fullName, e.email, e.phone, e.username))
                 && db.Snapshot() == old(db.Snapshot()).(users := old(db.users)[k := e]))
  {
    var errors := UserUpdateErrors(d, isEmail);
    if errors != [] {
      return Invalid(errors);
    }
    var found := FindUser(db, username);
    if found.None? {
      return Handled(Err(404, "User not found"));
    }
    var saved := SaveEdits(db, found.value, d, hash, dbError);
    r := Handled(saved);
  }

  /**
   * The second half of the update, for the caller's stored row `u`: the
   * e-mail clash, then the phone clash, then the edited row is written.
   */
  method SaveEdits(db: Database, u: User, d: UserUpdate, hash: string -> string, dbError: string)
      returns (r: Response<ProfileSummary>)
    requires db.Valid() && u.userId in db.users && db.users[u.userId] == u
    modifies db
    ensures db.Valid()
    ensures EmailClash(old(db.users), u, d) ==> r == Err(400, "Email already used")
    ensures !EmailClash(old(db.users), u, d) && PhoneClash(old(db.users), u, d) ==> r == Err(400, "Phone already used")
    ensures !EmailClash(old(db.users), u, d) && !PhoneClash(old(db.users), u, d) && !EditFits(u, d, hash) ==>
      r == Err(500, dbError)
    ensures r.Err? ==> db.Snapshot() == old(db.Snapshot())
    ensures !EmailClash(old(db.users), u, d) && !PhoneClash(old(db.users), u, d) && EditFits(u, d, hash) ==>
      var e := Edited(u, d, hash);
      r == Ok(ProfileSummary(e.fullName, e.email, e.phone, e.username))
      && db.Snapshot() == old(db.Snapshot()).(users := old(db.users)[u.userId := e])
  {
    var user := u;
    if Truthy(d.email) && d.email != user.email {
      if EmailTaken(db.users, d.email.value) {
        return Err(400, "Email already used");
      }
      user := user.(email := d.email);
    }
    if Truthy(d.phone) && d.phone != user.phone {
      if PhoneTaken(db.users, d.phone.value) {
        return Err(400, "Phone already used");
      }
      user := user.(phone := d.phone);
    }
    if Truthy(d.fullName) {
      user := user.(fullName := d.fullName);
    }
    if Truthy(d.password) {
      user := user.(passwordHash := hash(d.password.value));
    }
    if !EditFits(u, d, hash) {
      return Err(500, dbError);
    }
    assert user == Edited(u, d, hash);
    db.UpdateUser(user);
    r := Ok(ProfileSummary(user.fullName, user.email, user.phone, user.username));
  }
}
